=== FILE: README.md ===
# EasyBot for MCDReforged, modelled in Dafny

EasyBot-MCDR is a MCDReforged plugin that ties a Minecraft server to an
EasyBot bridge process over a persistent WebSocket connection. This project
models the plugin's decision logic as pure functions and small state
machines. Each one returns the new state together with the list of effects
it causes: frames transmitted, console commands executed, messages told or
broadcast, requests sent to EasyBot.

The model covers:

- **The protocol client** (`client.dfy`, `context.dfy`). `EasyBotWsClient` is
  a state machine over start, stop, connection outcomes, received frames,
  `send_and_wait` calls, time-outs and heartbeat ticks. It covers the
  reconnect back-off, `req_<n>` correlation ids, the pending-request table,
  routing by `op` (0 hello, 3 auth ack, 4 exec, 5 response), ordered handler
  dispatch with per-handler error isolation, and the op-4 and op-5 frames.
- **`server.properties` and RCON auto-configuration** (`properties.dfy`,
  `rcon.dfy`). This covers the reader, the line-preserving writer with its
  read-after-write round trip, the password generator, and the three cases of
  `check_and_configure_rcon`.
- **The player cache** (`player.py` → `player.dfy`). This covers bot
  filtering, the online/cache/uuid collections, IP extraction, UUID capture
  from log lines and hyphenation, `build_player_info` and `!!d list`.
- **The plugin's listeners and commands** (`main.py` → `plugin.dfy`). This
  covers `push_kick` and `kick_map`, join/leave reporting, chat forwarding,
  `!!bind`, `!!say`, and whitelisting on a UUID log line.
- **The exec-op handlers**: `SEND_TO_CHAT` (`message_sync.dfy`), placeholder
  expansion and `PLACEHOLDER_API_QUERY` (`papi.dfy`), `RUN_COMMAND`
  (`exec_command.dfy`), `GET_SERVER_INFO` and the online-player summary
  (`server_info.dfy`), `PLAYER_LIST` (`player_list.dfy`), and
  `BIND_SUCCESS_NOTIFY` / `UN_BIND_NOTIFY` (`bind_notify.dfy`).
- **The prefixed-name chat parser** `PrefixNameHandler`
  (`prefix_handler.dfy`).

Shared pieces:

- `wrappers.dfy`: `Option` and `Result`.
- `text.dfy`: the Python `str` operations used (`strip`, ASCII `lower`,
  `find`, `replace`, decimal rendering).
- `json.dfy`: decoded JSON values and frames.
- `dicts.dfy`: insertion-ordered dicts.
- `host.dfy`: the effect vocabulary.

Where the code and the plugin's documented behaviour differ, the model
follows the code:

- The reconnect counter resets as soon as the socket opens
  (easybot_mcdr/websocket/ws.py:159), not on the HELLO frame.
- The session is kept when the connection drops; nothing clears it.
- An exception anywhere in `on_message` (unparsable JSON, a missing `op`, an
  auth ack before any hello, a missing field, an unhashable id) goes to the
  connection manager's generic error branch. That branch closes the socket,
  logs, pauses 1 s and leaves the attempt counter unchanged.
- The heartbeat task is not cancelled on disconnect. It stops at the first
  tick that finds the socket closed.
- Python's `==` makes `True == 1` and `False == 0`, so a boolean `op` routes
  like the integer.

## Model

| member | source | states |
|---|---|---|
| Client.Init | easybot_mcdr/websocket/ws.py:67-78 | A new client is inactive, has no socket and no session, has no pending requests, and its request counter starts at 0. |
| Client.Backoff | easybot_mcdr/websocket/ws.py:153-154 | The wait before a connection attempt is between 1 and 30 seconds. It is either the 30-second cap or 2 to the power of the failed attempts so far. |
| Client.BackoffSchedule | easybot_mcdr/websocket/ws.py:153-155 | The waits are 1, 2, 4, 8 and 16 seconds for attempts 0 to 4, then 30 seconds from the fifth on. |
| Client.Pow2Monotone | easybot_mcdr/websocket/ws.py:153 | The uncapped wait never shrinks as the attempt count grows. |
| Client.ReqIdInjective | easybot_mcdr/websocket/ws.py:87 | Two counter values give the same `req_<n>` callback id only if they are equal. |
| Client.ExecFrame | easybot_mcdr/websocket/ws.py:97-102 | A request frame carries the caller's keys plus `op`, `exec_op` and `callback_id`. A caller key overrides a fixed field of the same name. Otherwise the fields are op 4, the exec op and the callback id. |
| Client.AuthFrame | easybot_mcdr/websocket/ws.py:219-224 | The authentication frame has exactly the fields op, token, plugin version and server description, with op 1 and the configured token. |
| Client.SessionFromFrame | easybot_mcdr/websocket/ws.py:22-30 | A session is built exactly when all six hello fields are present. It copies them and starts without a server name. |
| Client.HeartbeatPeriod | easybot_mcdr/websocket/ws.py:139 | For an integer session interval, the heartbeat period is ten seconds less than the interval. For a non-numeric interval there is no period. |
| Client.Send | easybot_mcdr/websocket/ws.py:193-202 | A frame is transmitted exactly when the client is active with an open socket. Otherwise `send` fails with a connection error. |
| Client.DoStart | easybot_mcdr/websocket/ws.py:112-119 | Starting an active client does nothing. Otherwise the client becomes active, clears the manual-stop flag, restarts the attempt count and spawns one connection loop. Pending calls and the counter are untouched. |
| Client.DoStop | easybot_mcdr/websocket/ws.py:121-126 | Stopping leaves the client inactive, manually stopped and closed. The socket is closed with the stop reason only if it was open. Pending calls, the counter and the session are untouched. |
| Client.DoRegister | easybot_mcdr/websocket/ws.py:59-65 | Registering a handler appends it to that exec op's list and leaves every other op's list as it was. |
| Client.DoAttempt | easybot_mcdr/websocket/ws.py:147-168 | An attempt first waits the back-off delay. An open socket restarts the attempt count. A refusal or a connection closed with an error adds one. Any other error leaves the state unchanged and ends with a 1-second pause. |
| Client.DispatchRunsAll | easybot_mcdr/websocket/ws.py:238-246 | Every handler registered for the op is invoked, in registration order. The handlers reported as failed are exactly those that raise, so a failure does not stop later handlers. |
| Client.OnHello | easybot_mcdr/websocket/ws.py:214-224 | A hello succeeds exactly when it carries a complete session. It then replaces the session and transmits one authentication frame. |
| Client.OnAuthAck | easybot_mcdr/websocket/ws.py:225-233 | An auth ack succeeds exactly when a session exists and the frame names the server. It then records the server name and sets the heartbeat period from the session interval. Pending calls are untouched. |
| Client.OnExec | easybot_mcdr/websocket/ws.py:234-246 | An exec frame fails only on an unhashable exec op, or on a registered op without a callback id. An unregistered op has no effect. A registered op invokes exactly that op's handlers, and the client state is unchanged. |
| Client.OnResponse | easybot_mcdr/websocket/ws.py:247-254 | A response with a non-empty id that is pending removes only that id. It releases the caller with the frame minus `op`. A missing, empty or unknown id changes nothing. An unhashable truthy id raises. |
| Client.Fail | easybot_mcdr/websocket/ws.py:166-168 | An unexpected error closes the socket, logs, and pauses 1 second. Pending calls and the attempt count are kept. |
| Client.DoReceive | easybot_mcdr/websocket/ws.py:172-185 | A frame received while not active and open is ignored. Receiving never changes the counter, the active flag or the attempt count, and it only ever removes pending calls. |
| Client.OnMessage | easybot_mcdr/websocket/ws.py:208-254 | A frame that is not an object, or has no `op`, raises. An op other than 0, 3, 4 or 5 changes nothing. A handled frame keeps the counter, the active flag and the attempt count, and only removes pending calls. |
| Client.DoCall | easybot_mcdr/websocket/ws.py:79-111 | Every call consumes one counter value. On an open connection, the new id becomes pending and one request frame is sent. Otherwise the call fails at once with a connection error and nothing stays pending. |
| Client.DoTimeout | easybot_mcdr/websocket/ws.py:108-111 | A time-out on a pending id removes it and fails that call. A time-out on any other id does nothing. |
| Client.DoHeartbeat | easybot_mcdr/websocket/ws.py:136-144 | A heartbeat tick sends op 2 while the client is active and open. Otherwise the heartbeat stops for good. |
| Client.DoPushPacket | easybot_mcdr/websocket/ws.py:261-269 | A fire-and-forget packet does nothing while inactive and uses callback id `"0"`. It fails to send while active but closed. The client state never changes. |
| Client.FreshRequestId | easybot_mcdr/websocket/ws.py:87-93 | In a reachable state the next callback id is never already pending. |
| Client.StepPreservesValid | easybot_mcdr/websocket/ws.py:87-111 | Every event keeps the invariant that each pending id was issued from a counter value below the current one. |
| Client.Step | easybot_mcdr/websocket/ws.py:79-269 | Only a call advances the counter, by one. No other event adds a pending id, and a call adds at most its own new id. |
| Client.RunCounter | easybot_mcdr/websocket/ws.py:87-88 | After any sequence of events, the counter has grown by exactly the number of calls in it. |
| Client.CallIdsNeverRepeat | easybot_mcdr/websocket/ws.py:87-88 | Two different calls in one event sequence never get the same callback id. |
| Client.DispatchSettlesNothing | easybot_mcdr/websocket/ws.py:234-246 | Running exec handlers never releases or fails a pending call. |
| Client.PendingHygiene | easybot_mcdr/websocket/ws.py:93-111 | On any event, a pending id leaves the table exactly when that call is settled by the same event. An id enters exactly when a call is issued on an open connection. An id that was not pending is settled only by the call that issues it. |
| Client.ResponseResolvesOnlyItsCall | easybot_mcdr/websocket/ws.py:247-254 | A response for one id leaves every other pending call pending and unsettled. |
| Client.AttemptsChangeOnlyOnConnect | easybot_mcdr/websocket/ws.py:149-168 | The attempt count is reset only when a socket opens and grows only on a refusal or a connection closed with an error. Every other event leaves it alone. |
| Client.ConsecutiveRefusals | easybot_mcdr/websocket/ws.py:147-165 | After n refusals in a row, the attempt count has grown by n and the client is still active and closed. The effects are the back-off sleep and the failure log of each attempt, in order. |
| Client.RefusedOnce | easybot_mcdr/websocket/ws.py:163-165 | One refusal waits the current back-off, adds one attempt, and logs the failure with the new attempt number. |
| Client.StopThenRestart | easybot_mcdr/websocket/ws.py:112-126 | Stopping twice is the same as stopping once. A start after a stop spawns a fresh loop with the attempt count at 0. |
| Context.FromFrame | easybot_mcdr/websocket/context.py:4-8 | A context exists exactly when the exec frame has a callback id and an exec op. It copies both unchanged. |
| Context.Callback | easybot_mcdr/websocket/context.py:10-17 | An answer frame carries the handler's keys plus `op`, `callback_id` and `exec_op`. A handler key overrides a fixed field. Otherwise the fields are op 5 and the context's ids. |
| Context.AnswerCorrelates | easybot_mcdr/websocket/context.py:10-17 | For data without reserved keys, the answer carries op 5 and the request's callback id and exec op. Without those three fields it is exactly the data. |
| Json.Get | easybot_mcdr/websocket/ws.py:235 | `dict.get` reads an absent key as `None`, and a present key as its value. |
| Dicts.Set | easybot_mcdr/impl/rcon_auto_config.py:62 | Assigning a key changes only that key's value. An existing key keeps its position and a new key goes last. Keys stay distinct. |
| Dicts.Remove | easybot_mcdr/api/player.py:145-146 | Popping a key removes only that key and keeps every other entry. |
| ServerProperties.SplitLines | easybot_mcdr/impl/rcon_auto_config.py:73-75 | Reading a file line by line gives lines that each end in their newline, except possibly the last. There are no lines exactly when the file is empty. |
| ServerProperties.SplitConcat | easybot_mcdr/impl/rcon_auto_config.py:73-75 | Joining the lines read from a file gives back the file. |
| ServerProperties.ConcatSplit | easybot_mcdr/impl/rcon_auto_config.py:99-100 | Writing complete lines and reading them back gives the same lines. |
| ServerProperties.ParseLine | easybot_mcdr/impl/rcon_auto_config.py:57-62 | A line is skipped exactly when, once stripped, it is empty, starts with `#`, or has no `=`. Otherwise it splits at the first `=` of the stripped line, and the key and value are the two sides, each stripped. |
| ServerProperties.Read | easybot_mcdr/impl/rcon_auto_config.py:45-63 | The keys read are distinct. Each key's value is that of the last line carrying it, and a key no line carries is absent. |
| ServerProperties.ReadOrder | easybot_mcdr/impl/rcon_auto_config.py:56-62 | The keys read are in the order of the first line carrying each. |
| ServerProperties.ReadLinesLastWins | easybot_mcdr/impl/rcon_auto_config.py:56-62 | A key read from several lines takes the value of the last of them, and a key no line carries is absent. |
| ServerProperties.ReadLinesOrder | easybot_mcdr/impl/rcon_auto_config.py:56-62 | A later duplicate keeps its key's first position, so the keys are in order of first appearance. |
| ServerProperties.ReadDuplicate | easybot_mcdr/impl/rcon_auto_config.py:56-62 | Two lines with the same key read as that one key with the second value. |
| ServerProperties.ParseEntryLine | easybot_mcdr/impl/rcon_auto_config.py:88 | A written `key=value` line is a complete line and reads back as that key and value, for a writable key and value. |
| ServerProperties.ReadKeys | easybot_mcdr/impl/rcon_auto_config.py:56-62 | The keys read are exactly the keys of the lines that parse. |
| ServerProperties.ReadAgreeing | easybot_mcdr/impl/rcon_auto_config.py:56-62 | If every line agrees with a map, every value read is that map's value for its key, so later duplicates cannot disagree. |
| ServerProperties.ParseLineGood | easybot_mcdr/impl/rcon_auto_config.py:57-62 | A line without an inner newline or carriage return parses to a key and value that can be written back. |
| ServerProperties.ReadGood | easybot_mcdr/impl/rcon_auto_config.py:45-63 | Reading a file without carriage returns yields distinct keys, each with a key and value that can be written back. |
| ServerProperties.WrittenInPlace | easybot_mcdr/impl/rcon_auto_config.py:81-91 | Each original line stays in place. Lines that do not parse, or whose key is not configured, are kept verbatim. Lines with a configured key, duplicates included, become exactly `key=value`. |
| ServerProperties.WriteHasEveryKey | easybot_mcdr/impl/rcon_auto_config.py:81-96 | Every configured key appears in the written file as `key=value`. |
| ServerProperties.AppendedKeys | easybot_mcdr/impl/rcon_auto_config.py:93-96 | The appended lines carry exactly the configured keys that the original file did not have. |
| ServerProperties.RewrittenKeys | easybot_mcdr/impl/rcon_auto_config.py:81-91 | When every original key is configured, rewriting keeps the set of keys of the original lines. |
| ServerProperties.WrittenKeys | easybot_mcdr/impl/rcon_auto_config.py:81-96 | When every original key is configured, the written file's keys are exactly the configured keys. |
| ServerProperties.WrittenAgree | easybot_mcdr/impl/rcon_auto_config.py:81-96 | Every written line is complete and agrees with the configuration. |
| ServerProperties.ReadWriteLines | easybot_mcdr/impl/rcon_auto_config.py:45-100 | Reading back what was written from complete lines yields exactly the configuration. |
| ServerProperties.RoundTrip | easybot_mcdr/impl/rcon_auto_config.py:45-100 | For a file that ends in a newline, reading after writing yields exactly the configuration. This requires a configuration that covers every key read and has writable keys and values. |
| ServerProperties.Write | easybot_mcdr/impl/rcon_auto_config.py:65-100 | On a file that is empty or ends with a newline, the program's writer writes exactly what the corrected writer writes. |
| ServerProperties.WriteTerminated | easybot_mcdr/impl/rcon_auto_config.py:81-100 | The corrected writer, which first ends an unterminated last line, always leaves a file that is empty or ends with a newline. |
| ServerProperties.MissingNewlineLosesKey | easybot_mcdr/impl/rcon_auto_config.py:91-96 | As written, a file whose last line is a comment without a newline swallows the first appended entry, so the key reads back as absent. |
| ServerProperties.CommentSwallows | easybot_mcdr/impl/rcon_auto_config.py:57-58 | A comment line merged with an entry on one line reads as nothing. |
| ServerProperties.RoundTripTerminated | easybot_mcdr/impl/rcon_auto_config.py:81-100 | With a newline added to an unterminated last line, reading after writing yields exactly the configuration for any file. |
| RconConfig.CharactersPrintable | easybot_mcdr/impl/rcon_auto_config.py:18 | Every candidate password character is printable ASCII and not whitespace. |
| RconConfig.Shuffle | easybot_mcdr/impl/rcon_auto_config.py:29 | Shuffling with any sequence of swap indices gives a permutation of the input. |
| RconConfig.GeneratePassword | easybot_mcdr/impl/rcon_auto_config.py:11-30 | For any random draws, the password has `max(length, 4)` characters. It has at least one uppercase letter, lowercase letter, digit and punctuation character, and uses only the allowed characters. |
| RconConfig.StrongIsWritable | easybot_mcdr/impl/rcon_auto_config.py:200-206 | A generated password is a non-empty, stripped value without line breaks, so it can be written to `server.properties`. |
| RconConfig.PythonIntRoundTrip | easybot_mcdr/impl/rcon_auto_config.py:154 | `int()` of an integer's decimal text gives the integer back, for both signs. |
| RconConfig.PythonInt | easybot_mcdr/impl/rcon_auto_config.py:154 | `int()` accepts exactly an optional sign followed by ASCII digits grouped by single underscores. Only a leading `-` gives a negative value. |
| RconConfig.UnsignedOfDigits | easybot_mcdr/impl/rcon_auto_config.py:154 | A non-empty run of digits converts to its decimal value. |
| RconConfig.Port | easybot_mcdr/impl/rcon_auto_config.py:154 | A missing `rcon.port` means 25575. |
| RconConfig.CheckAndConfigure | easybot_mcdr/impl/rcon_auto_config.py:122-222 | A run that is busy, finds RCON running or finds no properties file changes nothing. A run reports a connection only if RCON was running or it connected and RCON then runs. A server stop always comes third, after a properties write and a plugin update, and is never reported as connected. |
| RconConfig.Configure | easybot_mcdr/impl/rcon_auto_config.py:151-216 | Acting requires a parseable port. A connection is reported only as update-then-connect. A properties write is always followed by the plugin update and a stop. The written file enables RCON and carries the password handed to the plugin. |
| RconConfig.RestartSettings | easybot_mcdr/impl/rcon_auto_config.py:176-216 | The settings written before a restart enable RCON, keep or set the password, and leave the port unchanged. |
| RconConfig.ConfigureConnects | easybot_mcdr/impl/rcon_auto_config.py:159-173 | With RCON enabled and a password, the run updates the plugin with the file's port and password, connects, and writes nothing. |
| RconConfig.ConfigureEnables | easybot_mcdr/impl/rcon_auto_config.py:176-193 | With RCON disabled and a password, the run sets only `enable-rcon=true`, hands the existing password to the plugin and stops the server. |
| RconConfig.ConfigureGenerates | easybot_mcdr/impl/rcon_auto_config.py:196-216 | With no password, enabled or not, the run writes `enable-rcon=true` and the generated password, hands that password to the plugin and stops the server. |
| RconConfig.EnableWrite | easybot_mcdr/impl/rcon_auto_config.py:176-182 | After enabling, the file reads back as enabled, with the same password and port as before. The file is the one the corrected writer leaves, which is the program's own for a file that is empty or ends with a newline (`RconConfig.FileAfterAsWritten`), and it is read back by this model's reader. |
| RconConfig.GenerateWrite | easybot_mcdr/impl/rcon_auto_config.py:196-206 | After generating, the file reads back as enabled, with the generated non-empty password and the same port. The file is the one the corrected writer leaves, which is the program's own for a file that is empty or ends with a newline (`RconConfig.FileAfterAsWritten`), and it is read back by this model's reader. |
| RconConfig.PluginMatchesServer | easybot_mcdr/impl/rcon_auto_config.py:122-216 | Whatever host, port and password a run hands to the plugin, they are the local host and exactly the port and non-empty password the server's file holds afterwards. The file also has RCON enabled. The file is the one the corrected writer leaves, which is the program's own for a file that is empty or ends with a newline (`RconConfig.FileAfterAsWritten`), and it is read back by this model's reader. |
| RconConfig.RestartConverges | easybot_mcdr/impl/rcon_auto_config.py:122-216 | After a run that stopped the server, a second run on the written file stops nothing. It hands the plugin the same settings and connects. The file is the one the corrected writer leaves, which is the program's own for a file that is empty or ends with a newline (`RconConfig.FileAfterAsWritten`), and it is read back by this model's reader. |
| RconConfig.FileAfterAsWritten | easybot_mcdr/impl/rcon_auto_config.py:65-100 | With the program's writer, a file that is empty or ends with a newline is left exactly as the corrected writer leaves it. The RCON lemmas above therefore hold as written for such files. |
| Players.QuadAtShape | easybot_mcdr/api/player.py:112 | A match of the IP pattern is four digit runs separated by dots. |
| Players.FindQuadLeftmost | easybot_mcdr/api/player.py:112 | The search finds a match starting no later than any position where one starts. |
| Players.ExtractIp | easybot_mcdr/api/player.py:111-113 | The stored IP is always a dotted quad. It is the leftmost match in the join line when there is one, and `127.0.0.1` when there is none. |
| Players.UuidAt | easybot_mcdr/api/player.py:62-67 | A match of the UUID line yields a non-empty word-character name and a lowercase 8-4-4-4-12 hex UUID. |
| Players.FindUuid | easybot_mcdr/api/player.py:62-65 | The search yields a match found at some position at or after the start. It yields nothing exactly when no position there matches. |
| Players.FindUuidFirst | easybot_mcdr/api/player.py:62-65 | The search yields the leftmost match. |
| Players.UuidLineRecognised | easybot_mcdr/api/player.py:62-67 | A log line `UUID of player <name> is <uuid>` yields that name and the lowercased UUID. |
| Players.OnStdout | easybot_mcdr/api/player.py:59-71 | A console line changes only the uuid map. Every new or changed entry is a lowercase UUID matched in the line for that name, and no entry is removed. |
| Players.HyphenateShape | easybot_mcdr/api/player.py:105 | Hyphenating a 32-digit hex id gives the 8-4-4-4-12 textual UUID form. |
| Players.HyphenateRoundTrip | easybot_mcdr/api/player.py:105 | Removing the hyphens from a hyphenated id gives the id back. |
| Players.Hyphenate | easybot_mcdr/api/player.py:105 | A 32-character id gives a 36-character text. |
| Players.Join | easybot_mcdr/api/player.py:90-116 | Bots change nothing. Otherwise, the same record goes under the name in both the online and cached collections, with the name, the extracted IP and the mapped UUID or `unknown`. An existing uuid-map entry is kept. An unmapped player in online mode with a profile id from the lookup gets that id in 8-4-4-4-12 form stored under the name; without online mode or an id, the map is unchanged. No other player changes. |
| Players.IsBot | easybot_mcdr/api/player.py:86-88 | A name is a bot exactly when it starts with `Bot_`, `BOT_` or `bot_`. |
| Players.JoinAsWritten | easybot_mcdr/api/player.py:77-116 | As written, bots change nothing. Another join succeeds exactly when the collections are live and the name is in the uuid map, and then it is the corrected join. After a stop, a mapped name raises at the list store. An unmapped name raises at the `bool` call. |
| Players.Leave | easybot_mcdr/api/player.py:139-146 | Bots change nothing. Otherwise, the player is no longer online, the cache and uuid map are untouched, and no other player changes. |
| Players.Stop | easybot_mcdr/api/player.py:77-83 | After a server stop nobody is online, cached or mapped. |
| Players.StopAsWritten | easybot_mcdr/api/player.py:77-83 | As written, a stop leaves the collections as lists, not dicts, with an empty uuid map. |
| Players.BuildPlayerInfo | easybot_mcdr/api/player.py:118-137 | There is a description exactly when the player is cached or online. The cached record is preferred over the online one. |
| Players.InfoFrame | easybot_mcdr/api/player.py:131-137 | A description has exactly the name, UUID, IP, an empty skin URL and `bedrock` false. |
| Players.LeftPlayerStillDescribed | easybot_mcdr/api/player.py:90-146 | After a join and a leave, the player is not online but is still described, with the IP from the join. |
| Players.AnnouncedUuidWins | easybot_mcdr/api/player.py:59-116 | A UUID announced in a log line before the join is the one recorded for the player, in lowercase. |
| Players.UnmappedJoinRaises | easybot_mcdr/api/player.py:98-100 | As written, the join of a non-bot player with no uuid-map entry raises the `bool` call error. |
| Players.JoinAfterStopRaises | easybot_mcdr/api/player.py:77-116 | As written, after a server stop even a player whose UUID is announced again gets past the uuid lookup, and the join then raises at the store into the online list. |
| Players.OnStdoutAsWritten | easybot_mcdr/api/player.py:59-83 | As written, UUID announcements are still recorded after a stop, because only `uuid_map` is reset to a dict. |
| Players.JoinAfterStop | easybot_mcdr/api/player.py:77-116 | With the collections reset to empty maps, a join after a stop records the player as online. |
| Players.List | easybot_mcdr/api/player.py:49-57 | An unpermitted sender gets only the refusal. A permitted one gets the header and one line per online player, in order. |
| Players.ListLeaksToUnpermitted | easybot_mcdr/api/player.py:49-55 | As written, an unpermitted sender gets the refusal followed by the header and every online player's IP and UUID. |
| Players.ListAsWritten | easybot_mcdr/api/player.py:49-57 | As written, a permitted sender gets the listing. An unpermitted one gets the refusal followed by the same listing. |
| Plugin.KickReason | easybot_mcdr/main.py:106-107 | A missing or blank reason becomes the default text `你已被踢出服务器`. A reason that is not blank after stripping is kept as given. The reason used is never blank. |
| Plugin.PushKick | easybot_mcdr/main.py:105-117 | Exactly one host call is made. Without RCON it executes `kick <player> <first line of the reason>` and leaves `kick_map` unchanged. With RCON it sends the full reason over RCON and appends the player to `kick_map`. |
| Plugin.KickWithoutRconIsOneLine | easybot_mcdr/main.py:109-113 | Without RCON the kick command has no newline, for a player name without one. |
| Plugin.RemoveFirst | easybot_mcdr/main.py:149 | `list.remove` takes out exactly one occurrence when the player is listed, and nothing otherwise. |
| Plugin.PlayerPayload | easybot_mcdr/websocket/ws.py:287-290 | A player payload exists exactly when the player is described. It is the description plus the raw name. |
| Plugin.PushEnterExit | easybot_mcdr/websocket/ws.py:308-324 | An enter or exit packet with the player payload is sent exactly when the player is described. Otherwise the call raises and sends nothing. |
| Plugin.PushMessage | easybot_mcdr/websocket/ws.py:287-296 | A chat packet with the player payload, message and command flag is sent exactly when the player is described. Otherwise the call raises and sends nothing. |
| Plugin.ReportPlayer | easybot_mcdr/websocket/ws.py:278-285 | A report packet with the name, UUID and IP is sent exactly when the player is described. Otherwise the call raises and sends nothing. |
| Plugin.LoginRequest | easybot_mcdr/websocket/ws.py:271-276 | The login request carries only the player description, which is `null` exactly when the player is not described. |
| Plugin.KickMessage | easybot_mcdr/main.py:124 | The kick message of a login answer, and of an unbind notice at easybot_mcdr/impl/un_bind_notify.py:12, is usable exactly when it is present and is a string or `null`. A string is passed on, and `null` means the default reason. |
| Plugin.OnPlayerJoined | easybot_mcdr/main.py:120-126 | An undescribed player raises before anything is sent. Otherwise the report and the login request come first, followed by what the login answer decides. |
| Plugin.AnswerLogin | easybot_mcdr/main.py:123-126 | A truthy `kick` kicks the player with the answer's message. Otherwise the enter message is pushed. A missing `kick`, an unusable message, or an undescribed player who is not kicked raises with nothing done. |
| Plugin.KickedPlayerNotAnnounced | easybot_mcdr/main.py:120-126 | A player the login answer kicks is reported and kicked, and no enter message is sent. |
| Plugin.OnPlayerLeft | easybot_mcdr/main.py:147-151 | A player in `kick_map` loses one occurrence there and no exit message is sent. Any other player gets the exit message. |
| Plugin.KickThenLeave | easybot_mcdr/main.py:105-151 | After a kick over RCON, the player's leave sends nothing and restores `kick_map` to its previous contents. |
| Plugin.OnUserInfo | easybot_mcdr/main.py:154-163 | Lines without a player are dropped. `!!` commands are dropped when ignoring them is configured. Anything else is forwarded as a chat message with the command flag off. |
| Plugin.Say | easybot_mcdr/main.py:93-98 | The message is pushed under the player's name, or `CONSOLE` from the console, with the command flag on. The sender is then told it was sent. An undescribed name raises with nothing sent. |
| Plugin.ConsoleSayRaises | easybot_mcdr/main.py:93-97 | From the console, unless a player named `CONSOLE` is known, `!!say` raises and sends nothing. |
| Plugin.Bind | easybot_mcdr/main.py:67-82 | The console is refused. A player's account is always looked up first. If it is unbound, a bind is started and the template is filled with the code and then the time. A bound account gets the "already bound" reply. A missing `uuid` raises. |
| Plugin.BindSubstitutesCodeFirst | easybot_mcdr/main.py:76-77 | `#code` is replaced before `#time`, so a code that reads `#time` shows the time. |
| Plugin.OnInfo | easybot_mcdr/main.py:129-144 | Without a UUID log line, or with the whitelist off, nothing happens. Otherwise the account is looked up, and a bound account is added to the whitelist. |
| MessageSync.Flush | easybot_mcdr/impl/message_sync.py:19-23 | Pending text is flushed as exactly one plain token holding that text. Nothing is emitted when no text is pending. |
| MessageSync.SegmentToken | easybot_mcdr/impl/message_sync.py:30-55 | An image shows `[图片]`, a file `[文件]` and a reply `[回复某条消息]`. A mention of user id `"0"` shows `@全体成员`. A mention with no player names shows the user name. Any other mention shows `@` and the names joined by `,`. An unknown type shows nothing, and every token shown is styled. |
| MessageSync.MentionShowsNames | easybot_mcdr/impl/message_sync.py:37 | A mention of named players shows `@` and then text that splits at its commas back into exactly those names, in order, when no name holds a comma. |
| MessageSync.Tokens | easybot_mcdr/impl/message_sync.py:25-56 | No empty plain token is ever emitted. |
| MessageSync.TokensAreRuns | easybot_mcdr/impl/message_sync.py:19-56 | The tokens are, run by run, the flushed text of each maximal run of text segments followed by the token of the segment that ends it. |
| MessageSync.TokensMergeRuns | easybot_mcdr/impl/message_sync.py:19-56 | When every segment has a known type, no two neighbouring tokens are both plain text, because each run of text becomes one token. |
| MessageSync.UnknownSplitsRun | easybot_mcdr/impl/message_sync.py:28-29 | A segment of unknown type flushes the pending text and adds nothing, so the text around it becomes two neighbouring plain tokens. |
| MessageSync.TokensShowSegments | easybot_mcdr/impl/message_sync.py:25-56 | The broadcast tokens' texts, concatenated, are exactly the segments' texts in order, so merging and flushing lose and reorder nothing. |
| MessageSync.TokensPerSegment | easybot_mcdr/impl/message_sync.py:28-55 | There is exactly one styled token per image, mention, file or reply segment. |
| MessageSync.TextRunsMerge | easybot_mcdr/impl/message_sync.py:26-27 | Consecutive text segments become one plain token. |
| MessageSync.TextAroundImage | easybot_mcdr/impl/message_sync.py:26-35 | Text before an image is flushed before the image token, and text after it follows. |
| MessageSync.AtPlayers | easybot_mcdr/impl/message_sync.py:45-46 | A name is mentioned exactly when some mention segment lists it, including the all-members one. |
| MessageSync.AtPlayersConcat | easybot_mcdr/impl/message_sync.py:25-46 | The mentioned names keep segment order: those of a message's first part come before those of the rest. |
| MessageSync.OnlineAt | easybot_mcdr/impl/message_sync.py:68-70 | The targets are exactly the mentioned players who are online. |
| MessageSync.OnlineAtConcat | easybot_mcdr/impl/message_sync.py:68-70 | Filtering for online players keeps the order of the mentions. |
| MessageSync.RunFor | easybot_mcdr/impl/message_sync.py:64-66 | Each configured command runs once, in order, with `#player` replaced by the target. |
| MessageSync.ForEachConcat | easybot_mcdr/impl/message_sync.py:68-73 | Running the commands for two lists of targets is running them for the first list and then for the second. |
| MessageSync.ForEachAt | easybot_mcdr/impl/message_sync.py:68-73 | Target by target, each target's block holds every command in order: effect `k * n + i` is command `i` for target `k`, with `n` commands. |
| MessageSync.Commands | easybot_mcdr/impl/message_sync.py:62-73 | Nothing runs unless commands are enabled. A mention of all members runs each command once for `@a`. Otherwise each online mentioned player gets every command, so the count is targets times commands. |
| MessageSync.CommandsAt | easybot_mcdr/impl/message_sync.py:67-73 | Without a mention of all members, effect `k * n + i` is configured command `i` for the `k`-th online mentioned player. |
| MessageSync.MentionCommands | easybot_mcdr/impl/message_sync.py:67-73 | Without a mention of all members, every command run is a configured command for an online mentioned player. Every such pair is run. |
| MessageSync.Sound | easybot_mcdr/impl/message_sync.py:75-79 | The sound command runs `count` times for the target, or not at all for a non-positive count. |
| MessageSync.Sounds | easybot_mcdr/impl/message_sync.py:81-99 | No sound unless enabled. A mention of all members plays it `count` times for `@a`. Otherwise each online mentioned player gets `count` runs, so the count is targets times `count`. |
| MessageSync.SoundEachIsForEach | easybot_mcdr/impl/message_sync.py:75-99 | Playing a sound `count` times for each target is running the sound command repeated `count` times as a command list for each target. |
| MessageSync.SoundsAreForEach | easybot_mcdr/impl/message_sync.py:90-99 | Without a mention of all members, the sounds are that repeated command list for each online mentioned player in mention order. |
| MessageSync.SoundsAt | easybot_mcdr/impl/message_sync.py:90-99 | Without a mention of all members, effect `k * count + j` is the sound command for the `k`-th online mentioned player. |
| MessageSync.MentionSounds | easybot_mcdr/impl/message_sync.py:90-99 | Without a mention of all members, every sound played is for an online mentioned player. With a positive count, every such player hears it. |
| MessageSync.SyncMessage | easybot_mcdr/impl/message_sync.py:7-99 | A message without segments broadcasts its text and nothing else. Otherwise the token texts are broadcast first, then the mention commands, then the sounds. |
| Papi.PlaceholderAt | easybot_mcdr/impl/papi.py:7 | A match is `%`, one or more word characters, then `%`. |
| Papi.NoPlaceholderAt | easybot_mcdr/impl/papi.py:7 | When no match starts at a position, no placeholder starts there, whatever its end. |
| Papi.Scan | easybot_mcdr/impl/papi.py:7 | Matches are found left to right and do not overlap. |
| Papi.ScanCovers | easybot_mcdr/impl/papi.py:7 | Every position where a placeholder starts is inside some match found. |
| Papi.Placeholders | easybot_mcdr/impl/papi.py:6-7 | Every placeholder found is a well-formed placeholder occurring in the text. |
| Papi.NoPercentNoPlaceholders | easybot_mcdr/impl/papi.py:6-7 | Text without `%` has no placeholders. |
| Papi.SupportedKeys | easybot_mcdr/impl/papi.py:14-18 | The substituted placeholders are exactly those equal to `%player_name%` ignoring case, each once. |
| Papi.RunPlaceholder | easybot_mcdr/impl/papi.py:9-22 | Text with no supported placeholder is returned unchanged. |
| Papi.ReplaceEachFirst | easybot_mcdr/impl/papi.py:20-21 | Replacing the first key cuts the text at every occurrence of it into pieces that hold none, which rejoin to the text. The player's name is put between the pieces, and the remaining keys are replaced in that. |
| Papi.RunPlaceholderOneKey | easybot_mcdr/impl/papi.py:9-22 | When the text has one supported spelling of `%player_name%`, it is a placeholder found in the text, and the result is the text cut at each occurrence of that spelling and rejoined with the player's name. |
| Text.ReplaceIsSplitJoin | easybot_mcdr/impl/papi.py:21 | `str.replace` of a non-empty target is splitting at every occurrence and joining with the replacement. |
| Papi.UnsupportedLeftAlone | easybot_mcdr/impl/papi.py:13-22 | Unsupported placeholders are left as they are. |
| Papi.PlaceholderAlone | easybot_mcdr/impl/papi.py:9-22 | `%player_name%` alone expands to the player's name. |
| Papi.PlaceholderQuery | easybot_mcdr/impl/papi.py:24-34 | With both fields present as strings, the answer is one successful response carrying the expanded query text. A missing field raises with nothing sent. |
| Papi.QueryNeverAnswered | easybot_mcdr/impl/papi.py:29-33 | As written, a well-formed placeholder query is never answered. The corrected handler answers it exactly once. |
| Papi.PlaceholderQueryAsWritten | easybot_mcdr/impl/papi.py:24-34 | As written, the handler always raises and sends nothing: on a missing field, or else at encoding the unawaited coroutine. |
| ExecCommand.Reply | easybot_mcdr/impl/exec_command.py:25-37 | A successful query answers success with the RCON reply, or `null` for none. A failing one answers failure with the error message behind the fixed prefix. |
| ExecCommand.Expand | easybot_mcdr/impl/exec_command.py:18-20 | With string fields, the command is the player's expansion of the command text. A non-string command raises. |
| ExecCommand.RunCommandAsWritten | easybot_mcdr/impl/exec_command.py:5-37 | As written, nothing is ever sent while RCON is off. A missing command raises. |
| ExecCommand.RunCommand | easybot_mcdr/impl/exec_command.py:5-37 | A missing command raises. With RCON off, one failure answer is sent. With RCON on, a run that does not raise makes one query and then one answer carrying that query's outcome. It raises, sending nothing, only on a missing field or a failed expansion. The value queried is the command as given when placeholders are off, or its expansion when they are on. |
| ExecCommand.NonStringCommandAnswered | easybot_mcdr/impl/exec_command.py:17-37 | With placeholders off, a command that is not a string is still handed to `rcon_query` inside the `try` and answered, both as written and corrected. |
| ExecCommand.AnsweredOnce | easybot_mcdr/impl/exec_command.py:10-37 | Every request handled without an exception gets exactly one answer, and it is the last effect. |
| ExecCommand.RconOffNeverAnswered | easybot_mcdr/impl/exec_command.py:10-16 | As written, a command arriving while RCON is off gets no answer. The corrected handler sends the failure answer. |
| ExecCommand.SwappedArgumentsQueryThePlayerName | easybot_mcdr/impl/exec_command.py:18-20 | As written, with placeholders enabled the RCON query is the player's name, not the command. |
| ExecCommand.CorrectedExpandsTheCommand | easybot_mcdr/impl/exec_command.py:18-25 | With the arguments in order, a command of `%player_name%` queries the player's name, because the command is what gets expanded. |
| PrefixHandler.MatchChat | easybot_mcdr/impl/prefix_handler.py:24 | A match means the line is exactly `<[prefix]name> message`. The prefix is non-empty without `]`, the name non-empty without `>`, and the message has no newline. |
| PrefixHandler.MatchChatComplete | easybot_mcdr/impl/prefix_handler.py:24 | Every line of that shape matches, with that prefix, name and message. |
| PrefixHandler.ParseStdout | easybot_mcdr/impl/prefix_handler.py:18-28 | A line the vanilla parse attributed is unchanged. Any change attributes the message to a verified name taken from a line of the prefixed shape. |
| PrefixHandler.PrefixedChatAttributed | easybot_mcdr/impl/prefix_handler.py:21-27 | A prefixed chat line with a verified name becomes that player's message, with the prefix dropped. |
| PrefixHandler.OtherLinesUntouched | easybot_mcdr/impl/prefix_handler.py:21-28 | A line that does not match, or whose name is rejected, is returned unchanged. |
| ServerInfo.OnlineModeIn | easybot_mcdr/impl/get_server_info.py:56-58 | There is a setting exactly when `online-mode=` occurs anywhere in the file. |
| ServerInfo.FirstOccurrenceWins | easybot_mcdr/impl/get_server_info.py:56-58 | For any text before the first `online-mode=` that does not itself hold the key, the setting is the rest of that line, lowercased and stripped, compared with `true`. |
| ServerInfo.CommentedLineCounts | easybot_mcdr/impl/get_server_info.py:56-58 | An occurrence right after a `#` counts like any other: with no earlier occurrence, it decides the setting. |
| ServerInfo.GetOnlineMode | easybot_mcdr/impl/get_server_info.py:42-70 | A read error returns the previous value. Otherwise the result is true exactly when the file's setting is true, and false when it is missing. |
| ServerInfo.InfoPacket | easybot_mcdr/impl/get_server_info.py:22-30 | The server-info answer has exactly the seven fields. The server is `mcdr` with version `MCDR <mcdr version>`, the plugin version is the one given, there is no PlaceholderAPI and no Geyser, commands are supported, and the parsed online mode is given. |
| ServerInfo.OnServerInfo | easybot_mcdr/impl/get_server_info.py:11-40 | A read error or a missing setting raises, with the flag unchanged and no answer. Otherwise exactly one server-info answer is sent. |
| ServerInfo.AnswerAgreesWithGetOnlineMode | easybot_mcdr/impl/get_server_info.py:11-70 | When the handler answers, the flag it stores equals what `get_online_mode` returns. When the setting is missing, the handler raises and `get_online_mode` says false. |
| ServerInfo.OnlinePlayers | easybot_mcdr/impl/get_server_info.py:72-87 | Success gives the players and their count. Failure gives the error text. `success` tells which. |
| PlayerList.Entries | easybot_mcdr/impl/player_list.py:18-25 | There is one entry per online player, in map order. |
| PlayerList.OnPlayerList | easybot_mcdr/impl/player_list.py:12-28 | Exactly one answer is sent, holding only `list` with one item per online player. It is empty when nobody is online. |
| PlayerList.ListedAreOnline | easybot_mcdr/impl/player_list.py:16-25 | Every listed item describes an online player with that player's record. |
| PlayerList.OnlineAreListed | easybot_mcdr/impl/player_list.py:16-25 | Every online player is listed with their record. |
| PlayerList.EntryShape | easybot_mcdr/impl/player_list.py:6-25 | An entry copies the UUID and IP and has `bedrock` false. The skin is the mineskin address of the name in online mode, and the fixed texture otherwise. |
| BindNotify.FillAll | easybot_mcdr/impl/bind_success_notify.py:24-25 | Each configured command is filled in with the three substitutions, in order. |
| BindNotify.BindSuccess | easybot_mcdr/impl/bind_success_notify.py:6-25 | The handler acts exactly when the player, account id and account name are strings. It then greets with the filled-in message and commands. Otherwise it raises with nothing done. |
| BindNotify.Greeting | easybot_mcdr/impl/bind_success_notify.py:16-25 | `whitelist add` comes first only when both whitelisting options are on. The tell to the player follows, then each command in order when commands are enabled. |
| BindNotify.TellOnceBetweenWhitelistAndCommands | easybot_mcdr/impl/bind_success_notify.py:16-25 | The player is told exactly once. Everything else executes, a whitelist add only before the tell and the commands only after it. |
| BindNotify.SubstitutionsChain | easybot_mcdr/impl/bind_success_notify.py:12 | The substitutions chain: an account name of `#account` shows the account id. |
| BindNotify.UnBindCommands | easybot_mcdr/impl/un_bind_notify.py:15-21 | When commands are enabled, each runs in order with `#player` replaced. Otherwise none run. |
| BindNotify.UnBindAsWritten | easybot_mcdr/impl/un_bind_notify.py:8-30 | As written, when kick, whitelist removal and the whitelist are all on, the handler raises and `kick_map` is unchanged. |
| BindNotify.UnBind | easybot_mcdr/impl/un_bind_notify.py:8-30 | A missing field raises. A string player name: without kick only the commands run; with kick the commands run, then the whitelist removal when due, then the kick. A non-string name raises with nothing done as soon as a command would be filled in with it, and passes silently when no command runs and kick is off. |
| BindNotify.NonStringNameUnused | easybot_mcdr/impl/un_bind_notify.py:11-24 | A player name that is not a string, with no command to fill in and kick off, makes the handler return having done nothing, as written and corrected. |
| BindNotify.UnBindKickComesLast | easybot_mcdr/impl/un_bind_notify.py:23-30 | With kick on, the kick is the last effect. Before it, a whitelist removal occurs exactly when removal and the whitelist are on, or a configured command is that removal. |
| BindNotify.RemovalBlocksKick | easybot_mcdr/impl/un_bind_notify.py:26-30 | As written, a player due for removal is neither removed nor kicked, and stays out of `kick_map`. |
| BindNotify.RemovalThenKick | easybot_mcdr/impl/un_bind_notify.py:26-30 | Corrected, that player is removed from the whitelist and then kicked. |

## Left out

- The WebSocket transport, asyncio scheduling, locks and the real timing of sleeps and time-outs. Each becomes an event of the client state machine, or an effect naming the delay.
- Logging and debug output, RText colours, hover texts and click actions. A broadcast is modelled by its texts only.
- MCDReforged itself is not part of this model. Its server interface is modelled by the effects it would perform, and whether RCON runs is one boolean input. `_verify_player_name` is a predicate parameter, and the vanilla parse's result is an input.
- Everything read from the configuration file (config.py) is a parameter: token, templates, command lists, flags. `is_white_list_enable` (utils.py) is a boolean input.
- The Mojang profile lookup (a network call) is an optional input `lookup`, absent when the request fails.
- Random draws: `GeneratePassword` takes the character indices and the shuffle's swap indices as parameters.
- File reading and existence checks: a file is its text, and a missing or unreadable file is an `Err`/`None` input. `get_online_mode` is modelled once per file read, so the file changing between reads is not modelled.
- Python's newline translation: text is taken after universal-newline reading. A carriage return inside a value is outside the round-trip claims.
- `\w` and `\d` in the regular expressions are taken as ASCII. Python's Unicode classes accept more characters.
- Floating-point JSON numbers, and the time-out's float seconds.
- Typed exec data beyond strings. Where the code raises on a field of the wrong type, the model raises too. `RUN_COMMAND` with placeholders off does not raise: it hands a non-string command to `rcon_query` inside its `try`, and the model answers it likewise (`ExecCommand.NonStringCommandAnswered`). What MCDReforged's `rcon_query` does with such a value is the `query` parameter. `SEND_TO_CHAT` takes its segments already decoded into the `Segment` datatype, so a missing or ill-typed field there is not modelled. The exact exception text is not modelled.
- BindNotify.UnBind, BindNotify.UnBindAsWritten: a kick of a player name that is not a string is modelled as raising. The code formats it with `str()` into the kick command and appends it to `kick_map`, which the model holds as strings. Every other path of a non-string name is modelled as the code behaves (`BindNotify.NonStringNameUnused`).
- The Minecraft server reads `server.properties` with `java.util.Properties`, which treats `\` as an escape, and a generated password may contain `\`. The model reads the file back with the plugin's own reader (rcon_auto_config.py:45-63), so RCON settings are promised as this reader sees them, not as the Java server does.
- RconConfig.EnableWrite, RconConfig.GenerateWrite, RconConfig.PluginMatchesServer and RconConfig.RestartConverges are stated over the corrected writer, which first ends an unterminated last line. For a file that does not end with a newline, the program's writer can merge the first appended entry into the last line (see Findings), and those contracts are not promised for it.
- `Plugin.Bind`: the "already bound" reply formats `name`, `uuid`, `time` and `platform` through a function parameter standing for Python's `str()`. The contract pins only its fixed prefix.
- The plugin and MCDReforged version strings are inputs.
- cross_server_chat.py, pack.py, the `on_load`/`on_unload`/`reload`/`load` hooks and `push_death` are outside the core modelled here.
- The `interval_ms` pause between sound repetitions, and the SessionInfo getters.
- `ServerInfo.OnServerInfo`: a missing `online-mode=` makes the handler raise, while `get_online_mode` returns false. Both are modelled, and `ServerInfo.AnswerAgreesWithGetOnlineMode` relates them.
- RconConfig.PythonInt: `int()` also accepts surrounding whitespace, which is not modelled, because the values it receives were already stripped by the reader. Digits are ASCII `0`-`9` only: Python also accepts every other Unicode decimal digit (`rcon.port=２５５７５` reads as 25575), while here `Port` yields none for such a value and `Configure` then does nothing.
- MessageSync.OnlineAt: the contract states which players are targeted, not that repeated mentions repeat the commands. The function keeps repeats and order as the loop does.
- Client.DoReceive: the contract only bounds what a received frame can change. The exact effects of each op are stated on Client.OnHello, Client.OnAuthAck, Client.OnExec and Client.OnResponse.

## Findings

| source | as written | input that shows it | evidently intended | confidence | as-written member | corrected member |
|---|---|---|---|---|---|---|
| easybot_mcdr/impl/rcon_auto_config.py:91-96 | A last original line without a newline is copied as is, so the first appended `key=value` line joins it | A file that is only `#c` with no newline, and the configuration `k=v`: the file written is `#ck=v`, which reads back empty | Every configured key reads back after a write | not executed | ServerProperties.MissingNewlineLosesKey | ServerProperties.RoundTripTerminated |
| easybot_mcdr/api/player.py:100 | `is_online_mode` is the module-level boolean imported from get_server_info.py, and it is called | The join of any non-bot player with no uuid-map entry: calling a bool raises, and the player is never recorded | Ask `get_online_mode()` whether to look up the profile | not executed | Players.UnmappedJoinRaises | Players.Join |
| easybot_mcdr/api/player.py:81-83 | A server stop sets the online and cached collections to lists | After a server stop, a join whose UUID was announced again in the log raises at the store into the online list (line 115), because a list cannot be indexed by a name | Reset them to empty dicts | not executed | Players.JoinAfterStopRaises | Players.JoinAfterStop |
| easybot_mcdr/api/player.py:49-52 | No return after the permission refusal | A sender below level 3 running `!!d list` is refused, then shown every online player's IP and UUID | Stop after the refusal | not executed | Players.ListLeaksToUnpermitted | Players.List |
| easybot_mcdr/impl/exec_command.py:10-16 | The failure answer's coroutine is never awaited | `RUN_COMMAND` while RCON is off: no answer is sent, and EasyBot's request times out | Await the failure answer | not executed | ExecCommand.RconOffNeverAnswered | ExecCommand.AnsweredOnce |
| easybot_mcdr/impl/exec_command.py:20 | `run_placeholder(command, player_name)` against the parameters `(player, text)` of papi.py:9 | `command` `list`, `player_name` `Steve`, placeholders on: the query sent over RCON is `Steve` | Expand the command for the player | not executed | ExecCommand.SwappedArgumentsQueryThePlayerName | ExecCommand.CorrectedExpandsTheCommand |
| easybot_mcdr/impl/papi.py:29 | `run_placeholder` is called without `await`, so the answer holds a coroutine, which JSON encoding rejects | Any `PLACEHOLDER_API_QUERY` with both fields: no answer is sent | Await the expansion of the query text for the player | not executed | Papi.QueryNeverAnswered | Papi.PlaceholderQuery |
| easybot_mcdr/impl/un_bind_notify.py:27 | `ServerInterface()` is constructed without MCDReforged's required server argument | An unbind with kick, whitelist removal and the whitelist all on: the constructor raises, so the player is neither removed nor kicked | Use `ServerInterface.get_instance()` | not executed; MCDReforged's constructor signature is not part of this model | BindNotify.RemovalBlocksKick | BindNotify.RemovalThenKick |

=== FILE: bind_notify.dfy ===
/**
 * The account-binding notifications EasyBot pushes to the server:
 * `BIND_SUCCESS_NOTIFY` (easybot_mcdr/impl/bind_success_notify.py) greets the
 * player and may whitelist them and run configured commands;
 * `UN_BIND_NOTIFY` (easybot_mcdr/impl/un_bind_notify.py) runs configured
 * commands and may un-whitelist and kick the player.
 */
module BindNotify {
  import opened Wrappers
  import opened Json
  import opened Host
  import Text
  import Plugin

  /** `events.bind_success` of the configuration, with the `message.bind_success` template. */
  datatype BindSuccessConfig = BindSuccessConfig(template: string, addWhitelist: bool, execCommand: bool, commands: seq<string>)

  /** `events.un_bind` of the configuration. */
  datatype UnBindConfig = UnBindConfig(execCommand: bool, commands: seq<string>, kick: bool, removeWhitelist: bool)

  /** The three substitutions, in the order the handler applies them. */
  function Fill(t: string, accountName: string, accountId: string, player: string): string {
    Text.ReplaceAll(Text.ReplaceAll(Text.ReplaceAll(t, "#name", accountName), "#account", accountId), "#player", player)
  }

  /** Each template filled in, in order. */
  function FillAll(commands: seq<string>, accountName: string, accountId: string, player: string): (r: seq<string>)
    ensures |r| == |commands|
    ensures forall i :: 0 <= i < |commands| ==> r[i] == Fill(commands[i], accountName, accountId, player)
  {
    if |commands| == 0 then [] else [Fill(commands[0], accountName, accountId, player)] + FillAll(commands[1..], accountName, accountId, player)
  }

  /** Each command with `#player` replaced, in order. */
  function SubstituteAll(commands: seq<string>, player: string): (r: seq<string>)
    ensures |r| == |commands|
    ensures forall i :: 0 <= i < |commands| ==> r[i] == Text.ReplaceAll(commands[i], "#player", player)
  {
    if |commands| == 0 then [] else [Text.ReplaceAll(commands[0], "#player", player)] + SubstituteAll(commands[1..], player)
  }

  /** One `execute` per command, in order. */
  function Executes(commands: seq<string>): (r: seq<Effect>)
    ensures |r| == |commands|
    ensures forall i :: 0 <= i < |commands| ==> r[i] == Execute(commands[i])
  {
    if |commands| == 0 then [] else [Execute(commands[0])] + Executes(commands[1..])
  }

  function WhitelistAdd(player: string): Effect {
    Execute("whitelist add " + player)
  }

  function WhitelistRemove(player: string): Effect {
    Execute("whitelist remove " + player)
  }

  // ---------------------------------------------------------------- BIND_SUCCESS_NOTIFY

  /**
   * `exec_bind_success_notify`: an optional whitelist add, then the templated
   * message told to the player, then the configured commands. A missing or
   * non-string field raises before anything is done.
   */
  function BindSuccess(data: Frame, cfg: BindSuccessConfig, whitelistEnabled: bool): (r: Outcome)
    ensures r.raised.None? <==>
              GetStr(data, "player_name").Ok? && GetStr(data, "account_id").Ok? && GetStr(data, "account_name").Ok?
    ensures r.raised.Some? ==> r.effects == []
    ensures r.raised.None? ==>
              var p, id, name := data["player_name"].s, data["account_id"].s, data["account_name"].s;
              r.effects == Greeting(cfg, whitelistEnabled, p, Fill(cfg.template, name, id, p), FillAll(cfg.commands, name, id, p))
  {
    match GetStr(data, "player_name")
    case Err(e) => Outcome([], Some(e))
    case Ok(p) =>
      match GetStr(data, "account_id")
      case Err(e) => Outcome([], Some(e))
      case Ok(id) =>
        match GetStr(data, "account_name")
        case Err(e) => Outcome([], Some(e))
        case Ok(name) =>
          Outcome(Greeting(cfg, whitelistEnabled, p, Fill(cfg.template, name, id, p), FillAll(cfg.commands, name, id, p)), None)
  }

  /** The effects of a well-formed bind notification, given the filled-in message and commands. */
  function Greeting(cfg: BindSuccessConfig, whitelistEnabled: bool, p: string, message: string, commands: seq<string>): (r: seq<Effect>)
    ensures var t := if cfg.addWhitelist && whitelistEnabled then 1 else 0;
            && |r| == t + 1 + (if cfg.execCommand then |commands| else 0)
            && r[t] == Tell(p, message)
            && (forall i :: 0 <= i < t ==> r[i] == WhitelistAdd(p))
            && (cfg.execCommand ==> forall i :: 0 <= i < |commands| ==> r[t + 1 + i] == Execute(commands[i]))
  {
    var lead := if cfg.addWhitelist && whitelistEnabled then [WhitelistAdd(p)] else [];
    var tail := if cfg.execCommand then Executes(commands) else [];
    Around(lead, Tell(p, message), tail);
    lead + [Tell(p, message)] + tail
  }

  /** Where the parts of `lead + [x] + tail` sit. */
  lemma Around(lead: seq<Effect>, x: Effect, tail: seq<Effect>)
    ensures var r := lead + [x] + tail;
      && |r| == |lead| + 1 + |tail| && r[|lead|] == x
      && (forall i :: 0 <= i < |lead| ==> r[i] == lead[i])
      && (forall i :: 0 <= i < |tail| ==> r[|lead| + 1 + i] == tail[i])
  {
  }

  /**
   * The player is told exactly once; a whitelist add can only come before the
   * tell, and configured commands only after it.
   */
  lemma TellOnceBetweenWhitelistAndCommands(cfg: BindSuccessConfig, whitelistEnabled: bool, p: string, message: string, commands: seq<string>)
    ensures var effects := Greeting(cfg, whitelistEnabled, p, message, commands);
            var t := if cfg.addWhitelist && whitelistEnabled then 1 else 0;
            && effects[t].Tell?
            && (forall i :: 0 <= i < |effects| && i != t ==> effects[i].Execute?)
            && |effects| - t - 1 == (if cfg.execCommand then |commands| else 0)
  {
    var effects := Greeting(cfg, whitelistEnabled, p, message, commands);
    var t := if cfg.addWhitelist && whitelistEnabled then 1 else 0;
    forall i | 0 <= i < |effects| && i != t ensures effects[i].Execute? {
      if i < t {
        assert effects[i] == WhitelistAdd(p);
      } else {
        var j := i - t - 1;
        assert effects[t + 1 + j] == Execute(commands[j]);
      }
    }
  }

  /**
   * The substitutions are chained: text put in by `#name` is itself
   * substituted by the later passes, so an account name of `#account` shows
   * the account id.
   */
  lemma SubstitutionsChain(accountId: string, player: string)
    requires !Text.Contains(accountId, "#player")
    ensures Fill("#name", "#account", accountId, player) == accountId
  {
    Text.ReplaceWhole("#name", "#account");
    Text.ReplaceWhole("#account", accountId);
    Text.ReplaceAbsent(accountId, "#player", player);
  }

  // ---------------------------------------------------------------- UN_BIND_NOTIFY

  /** Whether the configured commands put the player's name into a `replace` call. */
  predicate UsesName(cfg: UnBindConfig) {
    cfg.execCommand && |cfg.commands| > 0
  }

  /** What `str.replace` or `+` raise for a player name that is not a string. */
  const NameTypeError := "TypeError: player_name is not a str"

  /**
   * A kick of a name that is not a string: `push_kick` formats it with
   * `str()` and appends it to `kick_map`, which this model, holding names
   * as strings, represents as raising.
   */
  const NameNotRendered := "player_name is not a str: kick not modelled"

  const ConstructorError := "TypeError: ServerInterface.__init__() missing 1 required positional argument: 'mcdr_server'"

  /** The commands run on an unbind, with `#player` substituted. */
  function UnBindCommands(cfg: UnBindConfig, player: string): (r: seq<Effect>)
    ensures !cfg.execCommand ==> r == []
    ensures cfg.execCommand ==> |r| == |cfg.commands|
    ensures cfg.execCommand ==> forall i :: 0 <= i < |r| ==> r[i] == Execute(Text.ReplaceAll(cfg.commands[i], "#player", player))
  {
    if cfg.execCommand then Executes(SubstituteAll(cfg.commands, player)) else []
  }

  /**
   * `exec_un_bind_notify` as written, returning the new `kick_map` and what was
   * done. The whitelist removal calls `ServerInterface()` with no argument,
   * which raises, so when it is due neither the removal nor the kick happens.
   */
  function UnBindAsWritten(data: Frame, cfg: UnBindConfig, whitelistEnabled: bool, kickMap: seq<string>, rconRunning: bool)
    : (r: (seq<string>, Outcome))
    ensures cfg.kick && cfg.removeWhitelist && whitelistEnabled ==> r.0 == kickMap && r.1.raised.Some?
  {
    if "player_name" !in data || "kick_message" !in data then
      (kickMap, Outcome([], Some("KeyError: player_name or kick_message")))
    else if !data["player_name"].JStr? then
      if UsesName(cfg) then (kickMap, Outcome([], Some(NameTypeError)))
      else if !cfg.kick then (kickMap, Outcome([], None))
      else if cfg.removeWhitelist && whitelistEnabled then (kickMap, Outcome([], Some(ConstructorError)))
      else (kickMap, Outcome([], Some(NameNotRendered)))
    else
      var p := data["player_name"].s;
      var commands := UnBindCommands(cfg, p);
      if !cfg.kick then (kickMap, Outcome(commands, None))
      else if cfg.removeWhitelist && whitelistEnabled then (kickMap, Outcome(commands, Some(ConstructorError)))
      else match Plugin.KickMessage(data)
        case Err(e) => (kickMap, Outcome(commands, Some(e)))
        case Ok(reason) =>
          var (newMap, kick) := Plugin.PushKick(kickMap, p, reason, rconRunning);
          (newMap, Outcome(commands + kick, None))
  }

  /** `exec_un_bind_notify` with the removal going through the server interface as intended. */
  function UnBind(data: Frame, cfg: UnBindConfig, whitelistEnabled: bool, kickMap: seq<string>, rconRunning: bool)
    : (r: (seq<string>, Outcome))
    ensures r.1.raised.None? ==> "player_name" in data && "kick_message" in data
    ensures r.1.raised.None? && (cfg.kick || UsesName(cfg)) ==> GetStr(data, "player_name").Ok?
    ensures r.1.raised.None? && cfg.kick ==> Plugin.KickMessage(data).Ok?
    ensures "player_name" in data && "kick_message" in data && !data["player_name"].JStr? && !cfg.kick && !UsesName(cfg) ==>
              r == (kickMap, Outcome([], None))
    ensures "player_name" in data && "kick_message" in data && !data["player_name"].JStr? && UsesName(cfg) ==>
              r.1 == Outcome([], Some(NameTypeError))
    ensures GetStr(data, "player_name").Ok? && "kick_message" in data && !cfg.kick ==>
              r == (kickMap, Outcome(UnBindCommands(cfg, data["player_name"].s), None))
    ensures r.1.raised.None? && cfg.kick ==>
              var p := data["player_name"].s;
              var kick := Plugin.PushKick(kickMap, p, Plugin.KickMessage(data).value, rconRunning);
              var remove := if cfg.removeWhitelist && whitelistEnabled then [WhitelistRemove(p)] else [];
              r == (kick.0, Outcome(UnBindCommands(cfg, p) + remove + kick.1, None))
  {
    if "player_name" !in data || "kick_message" !in data then
      (kickMap, Outcome([], Some("KeyError: player_name or kick_message")))
    else if !data["player_name"].JStr? then
      if UsesName(cfg) then (kickMap, Outcome([], Some(NameTypeError)))
      else if !cfg.kick then (kickMap, Outcome([], None))
      else if cfg.removeWhitelist && whitelistEnabled then (kickMap, Outcome([], Some(NameTypeError)))
      else (kickMap, Outcome([], Some(NameNotRendered)))
    else
      var p := data["player_name"].s;
      var commands := UnBindCommands(cfg, p);
      if !cfg.kick then (kickMap, Outcome(commands, None))
      else
        var remove := if cfg.removeWhitelist && whitelistEnabled then [WhitelistRemove(p)] else [];
        match Plugin.KickMessage(data)
        case Err(e) => (kickMap, Outcome(commands + remove, Some(e)))
        case Ok(reason) =>
          var (newMap, kick) := Plugin.PushKick(kickMap, p, reason, rconRunning);
          (newMap, Outcome(commands + remove + kick, None))
  }

  /**
   * With the removal in place, the player is un-whitelisted exactly when kick,
   * removal and the whitelist are all on, and the kick is the last thing done.
   */
  lemma UnBindKickComesLast(data: Frame, cfg: UnBindConfig, whitelistEnabled: bool, kickMap: seq<string>, rconRunning: bool)
    requires UnBind(data, cfg, whitelistEnabled, kickMap, rconRunning).1.raised.None? && cfg.kick
    ensures var effects := UnBind(data, cfg, whitelistEnabled, kickMap, rconRunning).1.effects;
            var p := data["player_name"].s;
            && |effects| > 0
            && effects[|effects| - 1] == Plugin.PushKick(kickMap, p, Plugin.KickMessage(data).value, rconRunning).1[0]
            && (WhitelistRemove(p) in effects[..|effects| - 1] <==>
                  (cfg.removeWhitelist && whitelistEnabled) || WhitelistRemove(p) in UnBindCommands(cfg, p))
  {
    var p := data["player_name"].s;
    var effects := UnBind(data, cfg, whitelistEnabled, kickMap, rconRunning).1.effects;
    var remove := if cfg.removeWhitelist && whitelistEnabled then [WhitelistRemove(p)] else [];
    var kick := Plugin.PushKick(kickMap, p, Plugin.KickMessage(data).value, rconRunning).1;
    var before := UnBindCommands(cfg, p) + remove;
    assert effects == before + kick;
    LastOf(before, kick);
    assert WhitelistRemove(p) in before <==> WhitelistRemove(p) in remove || WhitelistRemove(p) in UnBindCommands(cfg, p);
  }

  lemma LastOf(before: seq<Effect>, last: seq<Effect>)
    requires |last| == 1
    ensures var all := before + last; |all| > 0 && all[..|all| - 1] == before && all[|all| - 1] == last[0]
  {
  }

  /**
   * As written, a player who should be un-whitelisted is neither removed nor
   * kicked and stays out of `kick_map`.
   */
  lemma RemovalBlocksKick(data: Frame, cfg: UnBindConfig, kickMap: seq<string>, rconRunning: bool)
    requires GetStr(data, "player_name").Ok? && "kick_message" in data
    requires cfg.kick && cfg.removeWhitelist
    ensures var (m, out) := UnBindAsWritten(data, cfg, true, kickMap, rconRunning);
            m == kickMap && out.raised.Some? && out.effects == UnBindCommands(cfg, data["player_name"].s)
  {
  }

  /** The corrected handler removes that player from the whitelist and then kicks them. */
  lemma RemovalThenKick(data: Frame, cfg: UnBindConfig, kickMap: seq<string>, rconRunning: bool)
    requires GetStr(data, "player_name").Ok? && Plugin.KickMessage(data).Ok?
    requires cfg.kick && cfg.removeWhitelist
    ensures var out := UnBind(data, cfg, true, kickMap, rconRunning).1;
            var p := data["player_name"].s;
            && out.raised.None?
            && out.effects == UnBindCommands(cfg, p) + [WhitelistRemove(p)] + Plugin.PushKick(kickMap, p, Plugin.KickMessage(data).value, rconRunning).1
  {
  }

  /**
   * A name that is not a string raises only once something uses it: with no
   * command to fill in and kick off, both versions return having done nothing.
   */
  lemma NonStringNameUnused(data: Frame, cfg: UnBindConfig, whitelistEnabled: bool, kickMap: seq<string>, rconRunning: bool)
    requires "player_name" in data && "kick_message" in data && !data["player_name"].JStr?
    requires !cfg.kick && !UsesName(cfg)
    ensures UnBindAsWritten(data, cfg, whitelistEnabled, kickMap, rconRunning) == (kickMap, Outcome([], None))
    ensures UnBind(data, cfg, whitelistEnabled, kickMap, rconRunning) == (kickMap, Outcome([], None))
  {
  }
}

=== FILE: client.dfy ===
/**
 * The persistent-connection protocol client `EasyBotWsClient`
 * (easybot_mcdr/websocket/ws.py) as a state machine. Every suspension point of
 * the asyncio original becomes an input event (a connection attempt's outcome, a
 * received frame, a timeout, a heartbeat tick); every observable action becomes
 * an output effect (a frame transmitted, a sleep, a handler invoked, a caller of
 * `send_and_wait` released). The WebSocket transport itself is abstracted away.
 */
module Client {
  import opened Wrappers
  import opened Json
  import Text
  import Context

  /** Exponential backoff base and cap, in seconds. */
  const ReconnectBase: nat := 1
  const MaxReconnectInterval: nat := 30
  /** The fixed pause after an unexpected (non-connection) error, in seconds. */
  const UnexpectedErrorPause: nat := 1
  /** Heartbeats go out this many seconds before the negotiated interval expires. */
  const HeartbeatLead: int := 10
  const StopReason: string := "MCDR插件端主动关闭连接"
  /** The callback id of a fire-and-forget op-4 packet. */
  const PacketCallbackId: string := "0"

  type HandlerId = string

  /** `SessionInfo`: the fields of the server's HELLO, plus the name AUTH_ACK assigns. */
  datatype Session = Session(
    version: Json, system: Json, dotnet: Json, sessionId: Json, token: Json, interval: Json,
    serverName: Option<Json>)

  /** The configuration read when the client authenticates. */
  datatype Config = Config(token: Json, pluginVersion: string, mcdrVersion: string)

  datatype State = State(
    active: bool,
    manualStop: bool,
    socketOpen: bool,
    attempts: nat,                           // reconnect_attempts of the running connection loop
    session: Option<Session>,
    pending: set<string>,                    // callback ids of send_and_wait calls in flight
    counter: nat,                            // _request_counter
    heartbeat: Option<int>,                  // period of the running heartbeat task, if any
    listeners: map<string, seq<HandlerId>>)  // exec_op -> handlers in registration order

  datatype ConnectOutcome = Opened | Refused | ClosedWithError | OtherError(message: string)

  datatype CallError = ConnectionError | Timeout

  datatype ErrorLog =
    | ConnectionFailure(attempt: nat)
    | Unexpected(message: string)
    | HandlerFailure(execOp: string, handler: HandlerId, message: string)

  datatype Effect =
    | SpawnLoop                                   // the connection manager task is created
    | Sleep(seconds: int)
    | Transmit(frame: Frame)
    | CloseSocket(reason: string)
    | Logged(error: ErrorLog)
    | Invoked(handler: HandlerId)
    | CallSucceeded(callbackId: string, result: Frame)
    | CallFailed(callbackId: string, failure: CallError)
    | PacketFailed                                // _send_packet's caller gets ConnectionError

  /** How a registered handler's invocation ended. */
  datatype HandlerOutcome = Returned | Raised(message: string)

  /** The behaviour of the registered handlers, supplied from outside the client. */
  type Runner = (HandlerId, Context.ExecContext, Frame) -> HandlerOutcome

  datatype Event =
    | Start
    | Stop
    | Register(execOp: string, handler: HandlerId)   // listen_exec_op
    | Attempt(outcome: ConnectOutcome)               // one turn of the connection manager loop
    | Received(message: Json)                        // a frame that json.loads decoded
    | Undecodable(text: string)                      // a frame json.loads rejected
    | Closed                                         // the socket closed under the message pump
    | Call(execOp: string, data: Frame)              // send_and_wait issued
    | CallTimeout(callbackId: string)                // its wait_for expired
    | HeartbeatTick
    | PushPacket(execOp: string, data: Frame)        // _send_packet

  /** A freshly constructed client; handlers are registered at import time, before any instance exists. */
  function Init(listeners: map<string, seq<HandlerId>>): (s: State)
    ensures !s.active && !s.socketOpen && s.pending == {} && s.counter == 0 && s.session.None?
  {
    State(false, false, false, 0, None, {}, 0, None, listeners)
  }

  // ---------------------------------------------------------------- backoff

  function Pow2(k: nat): (r: nat)
    ensures r >= 1
  {
    if k == 0 then 1 else 2 * Pow2(k - 1)
  }

  /** The delay before a connection attempt made after `attempts` consecutive connection failures. */
  function Backoff(attempts: nat): (d: nat)
    ensures ReconnectBase <= d <= MaxReconnectInterval
    ensures d == MaxReconnectInterval || d == ReconnectBase * Pow2(attempts)
  {
    var raw := ReconnectBase * Pow2(attempts);
    if raw < MaxReconnectInterval then raw else MaxReconnectInterval
  }

  lemma {:induction false} Pow2AtLeast32(k: nat)
    requires k >= 5
    ensures Pow2(k) >= 32
  {
    if k > 5 {
      Pow2AtLeast32(k - 1);
    } else {
      assert Pow2(5) == 2 * Pow2(4) == 4 * Pow2(3) == 8 * Pow2(2) == 16 * Pow2(1) == 32;
    }
  }

  /** The schedule 1, 2, 4, 8, 16, then 30 forever. */
  lemma BackoffSchedule(attempts: nat)
    ensures attempts < 5 ==> Backoff(attempts) == Pow2(attempts)
    ensures attempts >= 5 ==> Backoff(attempts) == 30
    ensures Backoff(0) == 1 && Backoff(1) == 2 && Backoff(2) == 4 && Backoff(3) == 8 && Backoff(4) == 16
  {
    assert Pow2(4) == 16 by {
      assert Pow2(1) == 2 && Pow2(2) == 4 && Pow2(3) == 8;
    }
    if attempts >= 5 {
      Pow2AtLeast32(attempts);
    } else {
      Pow2Monotone(attempts, 4);
    }
  }

  lemma {:induction false} Pow2Monotone(a: nat, b: nat)
    requires a <= b
    ensures Pow2(a) <= Pow2(b)
  {
    if a < b {
      Pow2Monotone(a, b - 1);
    }
  }

  // ---------------------------------------------------------------- frames

  /** The correlation id of the `n`-th `send_and_wait` call: `"req_" + str(n)`. */
  function ReqId(n: nat): string {
    "req_" + Text.NatToString(n)
  }

  lemma ReqIdInjective(a: nat, b: nat)
    requires ReqId(a) == ReqId(b)
    ensures a == b
  {
    assert ReqId(a)[4..] == Text.NatToString(a);
    assert ReqId(b)[4..] == Text.NatToString(b);
    Text.NatToStringInjective(a, b);
  }

  /** `{op: 4, exec_op, callback_id}` updated with the caller's data, which wins on a clash. */
  function ExecFrame(execOp: string, callbackId: string, data: Frame): (r: Frame)
    ensures r.Keys == data.Keys + {"op", "exec_op", "callback_id"}
    ensures forall k :: k in data ==> r[k] == data[k]
    ensures "op" !in data ==> r["op"] == JInt(4)
    ensures "exec_op" !in data ==> r["exec_op"] == JStr(execOp)
    ensures "callback_id" !in data ==> r["callback_id"] == JStr(callbackId)
  {
    map["op" := JInt(4), "exec_op" := JStr(execOp), "callback_id" := JStr(callbackId)] + data
  }

  /** The op-1 authentication frame, carrying the locally configured token. */
  function AuthFrame(cfg: Config): (r: Frame)
    ensures r.Keys == {"op", "token", "plugin_version", "server_description"}
    ensures r["op"] == JInt(1) && r["token"] == cfg.token
  {
    map["op" := JInt(1), "token" := cfg.token, "plugin_version" := JStr(cfg.pluginVersion),
        "server_description" := JStr("MCDR_" + cfg.mcdrVersion)]
  }

  function HeartbeatFrame(): Frame {
    map["op" := JInt(2)]
  }

  /** `SessionInfo.from_dict`: every HELLO field is required (`KeyError` otherwise). */
  function SessionFromFrame(f: Frame): (r: Option<Session>)
    ensures r.Some? <==> ("version" in f && "system" in f && "dotnet" in f && "session_id" in f
                          && "token" in f && "interval" in f)
    ensures r.Some? ==> r.value.sessionId == f["session_id"] && r.value.interval == f["interval"]
                        && r.value.token == f["token"] && r.value.serverName.None?
  {
    if "version" in f && "system" in f && "dotnet" in f && "session_id" in f && "token" in f && "interval" in f
    then Some(Session(f["version"], f["system"], f["dotnet"], f["session_id"], f["token"], f["interval"], None))
    else None
  }

  /** The heartbeat period `interval - 10`; a non-numeric interval makes the new heartbeat task die at once. */
  function HeartbeatPeriod(interval: Json): (r: Option<int>)
    ensures interval.JInt? ==> r == Some(interval.i - HeartbeatLead)
    ensures !interval.JInt? && !interval.JBool? ==> r.None?
  {
    match interval
    case JInt(n) => Some(n - HeartbeatLead)
    case JBool(b) => Some((if b then 1 else 0) - HeartbeatLead)
    case _ => None
  }

  // ---------------------------------------------------------------- sending

  /** `send`: transmits only while active with an open socket; otherwise raises `ConnectionError`. */
  function Send(s: State, frame: Frame): (r: Result<Effect>)
    ensures r.Ok? <==> s.active && s.socketOpen
    ensures r.Ok? ==> r.value == Transmit(frame)
  {
    if s.active && s.socketOpen then Ok(Transmit(frame)) else Err("ConnectionError")
  }

  // ---------------------------------------------------------------- transitions

  /** `start`: a no-op when already active; otherwise launches a fresh connection loop. */
  function DoStart(s: State): (r: (State, seq<Effect>))
    ensures s.active ==> r == (s, [])
    ensures !s.active ==> r.0.active && !r.0.manualStop && r.0.attempts == 0 && r.1 == [SpawnLoop]
    ensures r.0.pending == s.pending && r.0.counter == s.counter && r.0.socketOpen == s.socketOpen
  {
    if s.active then (s, [])
    else (s.(active := true, manualStop := false, attempts := 0), [SpawnLoop])
  }

  /** `stop`: always clears `active` and sets `manual_stop`; closes the socket if one is open. */
  function DoStop(s: State): (r: (State, seq<Effect>))
    ensures !r.0.active && r.0.manualStop && !r.0.socketOpen
    ensures r.1 == (if s.socketOpen then [CloseSocket(StopReason)] else [])
    ensures r.0.pending == s.pending && r.0.counter == s.counter && r.0.session == s.session
  {
    (s.(active := false, manualStop := true, socketOpen := false),
     if s.socketOpen then [CloseSocket(StopReason)] else [])
  }

  /** `listen_exec_op`: appends the handler after those already registered for the operation. */
  function DoRegister(s: State, execOp: string, h: HandlerId): (r: State)
    ensures execOp in r.listeners
    ensures r.listeners[execOp] == (if execOp in s.listeners then s.listeners[execOp] else []) + [h]
    ensures forall op :: op in s.listeners && op != execOp ==> op in r.listeners && r.listeners[op] == s.listeners[op]
  {
    var before := if execOp in s.listeners then s.listeners[execOp] else [];
    s.(listeners := s.listeners[execOp := before + [h]])
  }

  /**
   * One turn of `_connection_manager`: sleep the backoff delay, then try to
   * connect. Only a loop that is running and not inside the message pump
   * attempts; otherwise the event is ignored.
   */
  function DoAttempt(s: State, o: ConnectOutcome): (r: (State, seq<Effect>))
    ensures !s.active || s.socketOpen ==> r == (s, [])
    ensures s.active && !s.socketOpen ==> |r.1| >= 1 && r.1[0] == Sleep(Backoff(s.attempts))
    ensures s.active && !s.socketOpen && o.Opened? ==> r.0.socketOpen && r.0.attempts == 0
    ensures s.active && !s.socketOpen && (o.Refused? || o.ClosedWithError?) ==> r.0.attempts == s.attempts + 1
    ensures s.active && !s.socketOpen && o.OtherError? ==> r.0 == s && r.1[|r.1| - 1] == Sleep(UnexpectedErrorPause)
    ensures r.0.pending == s.pending && r.0.counter == s.counter && r.0.active == s.active
  {
    if !s.active || s.socketOpen then (s, [])
    else
      var pause := [Sleep(Backoff(s.attempts))];
      match o
      case Opened => (s.(socketOpen := true, attempts := 0), pause)
      case Refused => (s.(attempts := s.attempts + 1), pause + [Logged(ConnectionFailure(s.attempts + 1))])
      case ClosedWithError => (s.(attempts := s.attempts + 1), pause + [Logged(ConnectionFailure(s.attempts + 1))])
      case OtherError(m) => (s, pause + [Logged(Unexpected(m)), Sleep(UnexpectedErrorPause)])
  }

  /** Runs every handler in order; one that raises is logged and the rest still run. */
  function Dispatch(execOp: string, handlers: seq<HandlerId>, ctx: Context.ExecContext, f: Frame, run: Runner)
    : (r: seq<Effect>)
  {
    if |handlers| == 0 then []
    else
      var first := match run(handlers[0], ctx, f)
        case Returned => [Invoked(handlers[0])]
        case Raised(m) => [Invoked(handlers[0]), Logged(HandlerFailure(execOp, handlers[0], m))];
      first + Dispatch(execOp, handlers[1..], ctx, f, run)
  }

  /** The handlers a list of effects invoked, in order. */
  function InvokedHandlers(effects: seq<Effect>): seq<HandlerId> {
    if |effects| == 0 then []
    else (if effects[0].Invoked? then [effects[0].handler] else []) + InvokedHandlers(effects[1..])
  }

  /** The handlers whose failure a list of effects logged, in order. */
  function FailedHandlers(effects: seq<Effect>): seq<HandlerId> {
    if |effects| == 0 then []
    else (if effects[0].Logged? && effects[0].error.HandlerFailure? then [effects[0].error.handler] else [])
         + FailedHandlers(effects[1..])
  }

  /** The handlers among `handlers` whose invocation raises. */
  function Raising(handlers: seq<HandlerId>, ctx: Context.ExecContext, f: Frame, run: Runner): seq<HandlerId> {
    if |handlers| == 0 then []
    else (if run(handlers[0], ctx, f).Raised? then [handlers[0]] else []) + Raising(handlers[1..], ctx, f, run)
  }

  lemma InvokedHandlersAppend(a: seq<Effect>, b: seq<Effect>)
    ensures InvokedHandlers(a + b) == InvokedHandlers(a) + InvokedHandlers(b)
    ensures FailedHandlers(a + b) == FailedHandlers(a) + FailedHandlers(b)
  {
    if |a| > 0 {
      assert (a + b)[1..] == a[1..] + b;
      InvokedHandlersAppend(a[1..], b);
    } else {
      assert a + b == b;
    }
  }

  /**
   * Error isolation: every registered handler is invoked, in registration order,
   * whatever the others do, and exactly the raising ones are logged.
   */
  lemma {:induction false} DispatchRunsAll(execOp: string, handlers: seq<HandlerId>, ctx: Context.ExecContext,
                                           f: Frame, run: Runner)
    ensures InvokedHandlers(Dispatch(execOp, handlers, ctx, f, run)) == handlers
    ensures FailedHandlers(Dispatch(execOp, handlers, ctx, f, run)) == Raising(handlers, ctx, f, run)
  {
    if |handlers| > 0 {
      var first := match run(handlers[0], ctx, f)
        case Returned => [Invoked(handlers[0])]
        case Raised(m) => [Invoked(handlers[0]), Logged(HandlerFailure(execOp, handlers[0], m))];
      var rest := Dispatch(execOp, handlers[1..], ctx, f, run);
      assert Dispatch(execOp, handlers, ctx, f, run) == first + rest;
      InvokedHandlersAppend(first, rest);
      DispatchRunsAll(execOp, handlers[1..], ctx, f, run);
      assert InvokedHandlers(first) == [handlers[0]] by {
        assert InvokedHandlers(first[1..]) == [];
      }
      assert FailedHandlers(first) == (if run(handlers[0], ctx, f).Raised? then [handlers[0]] else []) by {
        assert first[1..] == [] || FailedHandlers(first[1..][1..]) == [];
      }
      assert handlers == [handlers[0]] + handlers[1..];
    }
  }

  /** HELLO (op 0): replace the session, then send exactly one AUTH frame. */
  function OnHello(s: State, f: Frame, cfg: Config): (r: Result<(State, seq<Effect>)>)
    requires s.active && s.socketOpen
    ensures r.Ok? <==> SessionFromFrame(f).Some?
    ensures r.Ok? ==> r.value.0 == s.(session := SessionFromFrame(f)) && r.value.1 == [Transmit(AuthFrame(cfg))]
  {
    match SessionFromFrame(f)
    case None => Err("KeyError")
    case Some(session) =>
      var s' := s.(session := Some(session));
      match Send(s', AuthFrame(cfg))
      case Ok(t) => Ok((s', [t]))
      case Err(e) => Err(e)
  }

  /** AUTH_ACK (op 3): record the server name and restart the heartbeat from the session's interval. */
  function OnAuthAck(s: State, f: Frame): (r: Result<(State, seq<Effect>)>)
    ensures r.Ok? <==> s.session.Some? && "server_name" in f
    ensures r.Ok? ==> r.value.1 == []
                      && r.value.0.session == Some(s.session.value.(serverName := Some(f["server_name"])))
                      && r.value.0.heartbeat == HeartbeatPeriod(s.session.value.interval)
                      && r.value.0.pending == s.pending && r.value.0.socketOpen == s.socketOpen
  {
    if s.session.None? then Err("AttributeError: no session")
    else if "server_name" !in f then Err("KeyError: server_name")
    else
      var session := s.session.value.(serverName := Some(f["server_name"]));
      Ok((s.(session := Some(session), heartbeat := HeartbeatPeriod(session.interval)), []))
  }

  /** EXEC (op 4): build the context and run the handlers registered for `exec_op`, if any. */
  function OnExec(s: State, f: Frame, run: Runner): (r: Result<(State, seq<Effect>)>)
    ensures r.Err? <==> !Hashable(Get(f, "exec_op"))
                        || (Get(f, "exec_op").JStr? && Get(f, "exec_op").s in s.listeners && "callback_id" !in f)
    ensures r.Ok? ==> r.value.0 == s
    ensures r.Ok? && !(Get(f, "exec_op").JStr? && Get(f, "exec_op").s in s.listeners) ==> r.value.1 == []
    ensures r.Ok? && Get(f, "exec_op").JStr? && Get(f, "exec_op").s in s.listeners ==>
              InvokedHandlers(r.value.1) == s.listeners[Get(f, "exec_op").s]
  {
    var e := Get(f, "exec_op");
    if !Hashable(e) then Err("TypeError: unhashable exec_op")
    else if e.JStr? && e.s in s.listeners then
      match Context.FromFrame(f)
      case None => Err("KeyError: callback_id")
      case Some(ctx) =>
        DispatchRunsAll(e.s, s.listeners[e.s], ctx, f, run);
        Ok((s, Dispatch(e.s, s.listeners[e.s], ctx, f, run)))
    else Ok((s, []))
  }

  /** RESPONSE (op 5): resolve the pending call with this callback id, handing it the frame minus `op`. */
  function OnResponse(s: State, f: Frame): (r: Result<(State, seq<Effect>)>)
    ensures r.Err? <==> Truthy(Get(f, "callback_id")) && !Hashable(Get(f, "callback_id"))
    ensures r.Ok? && Get(f, "callback_id").JStr? && Get(f, "callback_id").s != ""
            && Get(f, "callback_id").s in s.pending ==>
              r.value == (s.(pending := s.pending - {Get(f, "callback_id").s}),
                          [CallSucceeded(Get(f, "callback_id").s, f - {"op"})])
    ensures r.Ok? && !(Get(f, "callback_id").JStr? && Get(f, "callback_id").s in s.pending) ==> r.value == (s, [])
  {
    var id := Get(f, "callback_id");
    if !Truthy(id) then Ok((s, []))
    else if !Hashable(id) then Err("TypeError: unhashable callback_id")
    else if id.JStr? && id.s in s.pending then
      Ok((s.(pending := s.pending - {id.s}), [CallSucceeded(id.s, f - {"op"})]))
    else Ok((s, []))
  }

  /** `on_message`: route a decoded frame by its op code; an exception escapes as `Err`. */
  function OnMessage(s: State, msg: Json, cfg: Config, run: Runner): (r: Result<(State, seq<Effect>)>)
    requires s.active && s.socketOpen
    ensures !msg.JObj? || "op" !in msg.fields ==> r.Err?
    ensures msg.JObj? && "op" in msg.fields ==>
              var op := msg.fields["op"];
              !EqualsInt(op, 0) && !EqualsInt(op, 3) && !EqualsInt(op, 4) && !EqualsInt(op, 5) ==> r == Ok((s, []))
    ensures r.Ok? ==> r.value.0.counter == s.counter && r.value.0.active == s.active
                      && r.value.0.attempts == s.attempts && r.value.0.pending <= s.pending
  {
    if !msg.JObj? then Err("TypeError: frame is not an object")
    else if "op" !in msg.fields then Err("KeyError: op")
    else
      var f := msg.fields;
      var op := f["op"];
      if EqualsInt(op, 0) then OnHello(s, f, cfg)
      else if EqualsInt(op, 3) then OnAuthAck(s, f)
      else if EqualsInt(op, 4) then OnExec(s, f, run)
      else if EqualsInt(op, 5) then OnResponse(s, f)
      else Ok((s, []))
  }

  /**
   * The unexpected-error path of the connection manager: the exception leaves the
   * message pump, the socket is closed, and the loop pauses one second before the
   * next attempt without counting a connection failure.
   */
  function Fail(s: State, message: string): (r: (State, seq<Effect>))
    ensures !r.0.socketOpen && r.0.attempts == s.attempts && r.0.pending == s.pending
    ensures r.1 == [Logged(Unexpected(message)), Sleep(UnexpectedErrorPause)]
  {
    (s.(socketOpen := false), [Logged(Unexpected(message)), Sleep(UnexpectedErrorPause)])
  }

  /** A frame arriving at the message pump. */
  function DoReceive(s: State, msg: Json, cfg: Config, run: Runner): (r: (State, seq<Effect>))
    ensures !(s.active && s.socketOpen) ==> r == (s, [])
    ensures r.0.counter == s.counter && r.0.active == s.active && r.0.attempts == s.attempts
    ensures r.0.pending <= s.pending
  {
    if !(s.active && s.socketOpen) then (s, [])
    else
      match OnMessage(s, msg, cfg, run)
      case Ok(next) => next
      case Err(m) => Fail(s, m)
  }

  /** `send_and_wait` issued: take the next id, register it, then send; a failed send unregisters it at once. */
  function DoCall(s: State, execOp: string, data: Frame): (r: (State, seq<Effect>))
    ensures r.0.counter == s.counter + 1
    ensures s.active && s.socketOpen ==>
              r.0.pending == s.pending + {ReqId(s.counter)}
              && r.1 == [Transmit(ExecFrame(execOp, ReqId(s.counter), data))]
    ensures !(s.active && s.socketOpen) ==>
              r.0.pending == s.pending && r.1 == [CallFailed(ReqId(s.counter), ConnectionError)]
    ensures r.0.active == s.active && r.0.socketOpen == s.socketOpen && r.0.attempts == s.attempts
  {
    var id := ReqId(s.counter);
    var s' := s.(counter := s.counter + 1);
    match Send(s, ExecFrame(execOp, id, data))
    case Ok(t) => (s'.(pending := s.pending + {id}), [t])
    case Err(_) => (s', [CallFailed(id, ConnectionError)])
  }

  /** The wait of a call in flight expired: it is unregistered and its caller gets a timeout. */
  function DoTimeout(s: State, id: string): (r: (State, seq<Effect>))
    ensures id in s.pending ==> r == (s.(pending := s.pending - {id}), [CallFailed(id, Timeout)])
    ensures id !in s.pending ==> r == (s, [])
  {
    if id in s.pending then (s.(pending := s.pending - {id}), [CallFailed(id, Timeout)]) else (s, [])
  }

  /** A heartbeat tick: send op 2 while connected, otherwise the heartbeat task ends silently. */
  function DoHeartbeat(s: State): (r: (State, seq<Effect>))
    ensures s.heartbeat.None? ==> r == (s, [])
    ensures s.heartbeat.Some? && s.active && s.socketOpen ==> r == (s, [Transmit(HeartbeatFrame())])
    ensures s.heartbeat.Some? && !(s.active && s.socketOpen) ==> r == (s.(heartbeat := None), [])
  {
    if s.heartbeat.None? then (s, [])
    else if s.active && s.socketOpen then (s, [Transmit(HeartbeatFrame())])
    else (s.(heartbeat := None), [])
  }

  /** `_send_packet`: silently nothing while inactive; otherwise an op-4 frame with callback id "0". */
  function DoPushPacket(s: State, execOp: string, data: Frame): (r: (State, seq<Effect>))
    ensures r.0 == s
    ensures !s.active ==> r.1 == []
    ensures s.active && s.socketOpen ==> r.1 == [Transmit(ExecFrame(execOp, PacketCallbackId, data))]
    ensures s.active && !s.socketOpen ==> r.1 == [PacketFailed]
  {
    if !s.active then (s, [])
    else match Send(s, ExecFrame(execOp, PacketCallbackId, data))
      case Ok(t) => (s, [t])
      case Err(_) => (s, [PacketFailed])
  }

  /**
   * One event. Only a call takes a request id, and only the id it takes can
   * become pending: every other event keeps the counter and can only settle
   * pending calls.
   */
  function Step(s: State, e: Event, cfg: Config, run: Runner): (r: (State, seq<Effect>))
    ensures r.0.counter == s.counter + (if e.Call? then 1 else 0)
    ensures !e.Call? ==> r.0.pending <= s.pending
    ensures e.Call? ==> r.0.pending <= s.pending + {ReqId(s.counter)}
  {
    match e
    case Start => DoStart(s)
    case Stop => DoStop(s)
    case Register(op, h) => (DoRegister(s, op, h), [])
    case Attempt(o) => DoAttempt(s, o)
    case Received(msg) => DoReceive(s, msg, cfg, run)
    case Undecodable(m) => if s.active && s.socketOpen then Fail(s, m) else (s, [])
    case Closed => (s.(socketOpen := false), [])
    case Call(op, data) => DoCall(s, op, data)
    case CallTimeout(id) => DoTimeout(s, id)
    case HeartbeatTick => DoHeartbeat(s)
    case PushPacket(op, data) => DoPushPacket(s, op, data)
  }

  /** The state and effects after a sequence of events. */
  function Run(s: State, events: seq<Event>, cfg: Config, run: Runner): (State, seq<Effect>) {
    if |events| == 0 then (s, [])
    else
      var (mid, before) := Run(s, events[..|events| - 1], cfg, run);
      var (next, last) := Step(mid, events[|events| - 1], cfg, run);
      (next, before + last)
  }

  // ---------------------------------------------------------------- correlation ids

  /** `id` is one of the first `n` request ids. */
  ghost predicate Issued(id: string, n: nat) {
    exists k: nat :: k < n && id == ReqId(k)
  }

  /** Every pending id was issued by an earlier call. */
  ghost predicate Valid(s: State) {
    forall id :: id in s.pending ==> Issued(id, s.counter)
  }

  /** The id the next call takes is not pending. */
  lemma FreshRequestId(s: State)
    requires Valid(s)
    ensures ReqId(s.counter) !in s.pending
  {
    if ReqId(s.counter) in s.pending {
      var k: nat :| k < s.counter && ReqId(s.counter) == ReqId(k);
      ReqIdInjective(k, s.counter);
    }
  }

  lemma {:induction false} StepPreservesValid(s: State, e: Event, cfg: Config, run: Runner)
    requires Valid(s)
    ensures Valid(Step(s, e, cfg, run).0)
  {
    var s' := Step(s, e, cfg, run).0;
    forall id | id in s'.pending ensures Issued(id, s'.counter) {
      if id in s.pending {
        var k: nat :| k < s.counter && id == ReqId(k);
        assert k < s'.counter;
      } else {
        assert e.Call? && id == ReqId(s.counter);
        assert s.counter < s'.counter;
      }
    }
  }

  /** The counter after a run has grown by the number of calls in it. */
  function CountCalls(events: seq<Event>): nat {
    if |events| == 0 then 0
    else CountCalls(events[..|events| - 1]) + (if events[|events| - 1].Call? then 1 else 0)
  }

  lemma {:induction false} RunCounter(s: State, events: seq<Event>, cfg: Config, run: Runner)
    ensures Run(s, events, cfg, run).0.counter == s.counter + CountCalls(events)
  {
    if |events| > 0 {
      RunCounter(s, events[..|events| - 1], cfg, run);
    }
  }

  lemma {:induction false} CountCallsPrefix(events: seq<Event>, i: nat, j: nat)
    requires i < j <= |events| && events[i].Call?
    ensures CountCalls(events[..j]) > CountCalls(events[..i])
  {
    if j == i + 1 {
      assert events[..j][..i] == events[..i];
    } else {
      CountCallsPrefix(events, i, j - 1);
      assert events[..j][..j - 1] == events[..j - 1];
    }
  }

  /** The id the call at position `i` of a run takes. */
  function IdOfCallAt(s: State, events: seq<Event>, i: nat, cfg: Config, run: Runner): string
    requires i < |events|
  {
    ReqId(Run(s, events[..i], cfg, run).0.counter)
  }

  /** No two calls of one client ever take the same correlation id. */
  lemma CallIdsNeverRepeat(s: State, events: seq<Event>, i: nat, j: nat, cfg: Config, run: Runner)
    requires i < j < |events| && events[i].Call? && events[j].Call?
    ensures IdOfCallAt(s, events, i, cfg, run) != IdOfCallAt(s, events, j, cfg, run)
  {
    RunCounter(s, events[..i], cfg, run);
    RunCounter(s, events[..j], cfg, run);
    CountCallsPrefix(events, i, j);
    if IdOfCallAt(s, events, i, cfg, run) == IdOfCallAt(s, events, j, cfg, run) {
      ReqIdInjective(Run(s, events[..i], cfg, run).0.counter, Run(s, events[..j], cfg, run).0.counter);
    }
  }

  // ---------------------------------------------------------------- pending-table hygiene

  /** The effect releases the caller waiting on `id`. */
  predicate Settles(e: Effect, id: string) {
    (e.CallSucceeded? && e.callbackId == id) || (e.CallFailed? && e.callbackId == id)
  }

  predicate SettledIn(effects: seq<Effect>, id: string) {
    exists i :: 0 <= i < |effects| && Settles(effects[i], id)
  }

  lemma DispatchSettlesNothing(execOp: string, handlers: seq<HandlerId>, ctx: Context.ExecContext, f: Frame,
                               run: Runner, id: string)
    ensures !SettledIn(Dispatch(execOp, handlers, ctx, f, run), id)
  {
    if |handlers| > 0 {
      DispatchSettlesNothing(execOp, handlers[1..], ctx, f, run, id);
    }
  }

  /**
   * A call leaves the pending table exactly when its caller is released: by the
   * matching response or by its timeout. A call whose send fails is released
   * without ever staying pending, and a fresh call stays pending only once sent.
   */
  lemma PendingHygiene(s: State, e: Event, cfg: Config, run: Runner, id: string)
    requires Valid(s)
    ensures var (s', effects) := Step(s, e, cfg, run);
      && (id in s.pending ==> (id !in s'.pending <==> SettledIn(effects, id)))
      && (id !in s.pending ==> (id in s'.pending <==> e.Call? && s.active && s.socketOpen && id == ReqId(s.counter)))
      && (id !in s.pending && SettledIn(effects, id) ==> e.Call? && id == ReqId(s.counter) && id !in s'.pending)
  {
    FreshRequestId(s);
    match e {
      case CallTimeout(x) => HygieneOnTimeout(s, x, cfg, run, id);
      case Call(op, data) => HygieneOnCall(s, op, data, cfg, run, id);
      case Received(msg) => HygieneOnReceive(s, msg, cfg, run, id);
      case _ =>
    }
  }

  /** The pending-table facts of one step, as `PendingHygiene` states them. */
  predicate Hygienic(s: State, e: Event, cfg: Config, run: Runner, id: string) {
    var (s', effects) := Step(s, e, cfg, run);
    && (id in s.pending ==> (id !in s'.pending <==> SettledIn(effects, id)))
    && (id !in s.pending ==> (id in s'.pending <==> e.Call? && s.active && s.socketOpen && id == ReqId(s.counter)))
    && (id !in s.pending && SettledIn(effects, id) ==> e.Call? && id == ReqId(s.counter) && id !in s'.pending)
  }

  lemma HygieneOnTimeout(s: State, x: string, cfg: Config, run: Runner, id: string)
    requires Valid(s)
    ensures Hygienic(s, CallTimeout(x), cfg, run, id)
  {
    var (s', effects) := Step(s, CallTimeout(x), cfg, run);
    if x in s.pending {
      assert Settles(effects[0], x);
    }
  }

  lemma HygieneOnCall(s: State, op: string, data: Frame, cfg: Config, run: Runner, id: string)
    requires Valid(s)
    ensures Hygienic(s, Call(op, data), cfg, run, id)
  {
    FreshRequestId(s);
    var (s', effects) := Step(s, Call(op, data), cfg, run);
    if !(s.active && s.socketOpen) {
      assert Settles(effects[0], ReqId(s.counter));
    }
  }

  lemma HygieneOnReceive(s: State, msg: Json, cfg: Config, run: Runner, id: string)
    requires Valid(s)
    ensures Hygienic(s, Received(msg), cfg, run, id)
  {
    var (s', effects) := Step(s, Received(msg), cfg, run);
    if s.active && s.socketOpen && msg.JObj? && "op" in msg.fields {
      var f := msg.fields;
      var x := Get(f, "callback_id");
      if !EqualsInt(f["op"], 0) && !EqualsInt(f["op"], 3) && !EqualsInt(f["op"], 4) && EqualsInt(f["op"], 5)
         && Truthy(x) && x.JStr? && x.s in s.pending {
        assert Settles(effects[0], x.s);
      }
    }
    if s.active && s.socketOpen && msg.JObj? && "op" in msg.fields {
      var f := msg.fields;
      if !EqualsInt(f["op"], 0) && !EqualsInt(f["op"], 3) && EqualsInt(f["op"], 4) {
        var x := Get(f, "exec_op");
        if Hashable(x) && x.JStr? && x.s in s.listeners && Context.FromFrame(f).Some? {
          DispatchSettlesNothing(x.s, s.listeners[x.s], Context.FromFrame(f).value, f, run, id);
        }
      }
    }
  }

  /** A response resolves only the call whose id it carries; every other call stays pending. */
  lemma ResponseResolvesOnlyItsCall(s: State, f: Frame, cfg: Config, run: Runner, a: string, b: string)
    requires s.active && s.socketOpen
    requires "op" in f && f["op"] == JInt(5) && Get(f, "callback_id") == JStr(a)
    requires b in s.pending && b != a
    ensures var (s', effects) := Step(s, Received(JObj(f)), cfg, run);
      b in s'.pending && !SettledIn(effects, b)
  {
  }

  // ---------------------------------------------------------------- reconnect attempts

  /** Only refused or closed-with-error attempts count; opening the socket resets the count. */
  lemma AttemptsChangeOnlyOnConnect(s: State, e: Event, cfg: Config, run: Runner)
    ensures var s' := Step(s, e, cfg, run).0;
      && (e.Attempt? && s.active && !s.socketOpen && e.outcome.Opened? ==> s'.attempts == 0)
      && (e.Attempt? && s.active && !s.socketOpen && (e.outcome.Refused? || e.outcome.ClosedWithError?) ==>
            s'.attempts == s.attempts + 1)
      && (!e.Attempt? && !e.Start? ==> s'.attempts == s.attempts)
      && (e.Attempt? && e.outcome.OtherError? ==> s'.attempts == s.attempts)
  {
  }

  /** `n` consecutive refused attempts from a fresh loop. */
  function Refusals(n: nat): (r: seq<Event>)
    ensures |r| == n
    ensures forall i :: 0 <= i < n ==> r[i] == Attempt(Refused)
  {
    if n == 0 then [] else Refusals(n - 1) + [Attempt(Refused)]
  }

  /** The delays before `n` consecutive attempts starting from `attempts` failures. */
  function Delays(attempts: nat, n: nat): (r: seq<Effect>)
    ensures |r| == 2 * n
  {
    if n == 0 then []
    else Delays(attempts, n - 1)
         + [Sleep(Backoff(attempts + n - 1)), Logged(ConnectionFailure(attempts + n))]
  }

  /**
   * Consecutive refusals wait 1, 2, 4, ... seconds (capped at 30) before each
   * attempt, and the count grows by one each time.
   */
  lemma {:induction false} ConsecutiveRefusals(s: State, n: nat, cfg: Config, run: Runner)
    requires s.active && !s.socketOpen
    ensures var (s', effects) := Run(s, Refusals(n), cfg, run);
      s'.attempts == s.attempts + n && s'.active && !s'.socketOpen && effects == Delays(s.attempts, n)
  {
    if n > 0 {
      var events := Refusals(n);
      assert events[..n - 1] == Refusals(n - 1);
      ConsecutiveRefusals(s, n - 1, cfg, run);
      var (mid, before) := Run(s, Refusals(n - 1), cfg, run);
      RefusedOnce(mid, cfg, run);
      var (next, last) := Step(mid, events[n - 1], cfg, run);
      assert Run(s, events, cfg, run) == (next, before + last);
      assert before + last == Delays(s.attempts, n);
    }
  }

  /** One refusal: wait, log the failure, count it, stay active and closed. */
  lemma RefusedOnce(s: State, cfg: Config, run: Runner)
    requires s.active && !s.socketOpen
    ensures var (s', effects) := Step(s, Attempt(Refused), cfg, run);
      && s'.attempts == s.attempts + 1 && s'.active && !s'.socketOpen
      && effects == [Sleep(Backoff(s.attempts)), Logged(ConnectionFailure(s.attempts + 1))]
  {
    assert [Sleep(Backoff(s.attempts))] + [Logged(ConnectionFailure(s.attempts + 1))]
        == [Sleep(Backoff(s.attempts)), Logged(ConnectionFailure(s.attempts + 1))];
  }

  /** Stopping twice is harmless, and a later start launches a fresh loop. */
  lemma StopThenRestart(s: State)
    ensures var (once, _) := DoStop(s);
      var (twice, effects) := DoStop(once);
      && effects == [] && twice == once
      && DoStart(twice).1 == [SpawnLoop] && DoStart(twice).0.active && DoStart(twice).0.attempts == 0
  {
  }
}

=== FILE: context.dfy ===
/**
 * `ExecContext` (easybot_mcdr/websocket/context.py): what a handler of a
 * server-initiated command (an op-4 frame) needs in order to answer it.
 */
module Context {
  import opened Wrappers
  import opened Json

  datatype ExecContext = ExecContext(callbackId: Json, execOp: Json)

  /** The context of an incoming op-4 frame: both ids are copied unchanged; a missing one raises `KeyError`. */
  function FromFrame(frame: Frame): (r: Option<ExecContext>)
    ensures r.Some? <==> "callback_id" in frame && "exec_op" in frame
    ensures r.Some? ==> r.value.callbackId == frame["callback_id"] && r.value.execOp == frame["exec_op"]
  {
    if "callback_id" in frame && "exec_op" in frame
    then Some(ExecContext(frame["callback_id"], frame["exec_op"]))
    else None
  }

  /** The fields `callback` writes before merging the handler's data. */
  predicate Reserved(key: string) {
    key == "op" || key == "callback_id" || key == "exec_op"
  }

  /**
   * `callback(data)`: the op-5 answer frame. The handler's data is merged last, at
   * the top level, so a data key named like a reserved field overrides it.
   * Building the frame transmits nothing; only awaiting the returned send does.
   */
  function Callback(ctx: ExecContext, data: Frame): (r: Frame)
    ensures r.Keys == data.Keys + {"op", "callback_id", "exec_op"}
    ensures forall k :: k in data ==> r[k] == data[k]
    ensures "op" !in data ==> r["op"] == JInt(5)
    ensures "callback_id" !in data ==> r["callback_id"] == ctx.callbackId
    ensures "exec_op" !in data ==> r["exec_op"] == ctx.execOp
  {
    map["op" := JInt(5), "callback_id" := ctx.callbackId, "exec_op" := ctx.execOp] + data
  }

  /**
   * An answer whose data avoids the reserved names carries the request's own
   * correlation id and operation, so it reaches the request that caused it.
   */
  lemma AnswerCorrelates(request: Frame, data: Frame)
    requires FromFrame(request).Some?
    requires forall k :: k in data ==> !Reserved(k)
    ensures var answer := Callback(FromFrame(request).value, data);
      && answer["op"] == JInt(5)
      && answer["callback_id"] == request["callback_id"]
      && answer["exec_op"] == request["exec_op"]
      && answer - {"op", "callback_id", "exec_op"} == data
  {
    var answer := Callback(FromFrame(request).value, data);
    assert answer - {"op", "callback_id", "exec_op"} == data;
  }
}

=== FILE: dicts.dfy ===
/**
 * Python dicts with string keys, which remember insertion order: assigning to an
 * existing key keeps its position, a new key goes to the end, and iteration
 * follows that order.
 */
module Dicts {
  import opened Wrappers

  type Dict<V> = seq<(string, V)>

  function Keys<V>(d: Dict<V>): (r: seq<string>)
    ensures |r| == |d|
    ensures forall i :: 0 <= i < |d| ==> r[i] == d[i].0
  {
    if |d| == 0 then [] else [d[0].0] + Keys(d[1..])
  }

  /** No key occurs twice: every value a Python dict can hold. */
  predicate Distinct<V>(d: Dict<V>) {
    |d| == 0 || (d[0].0 !in Keys(d[1..]) && Distinct(d[1..]))
  }

  /** `d.get(k)`: the value stored under `k`, if any. */
  function Get<V>(d: Dict<V>, k: string): (r: Option<V>)
    ensures r.Some? <==> k in Keys(d)
  {
    if |d| == 0 then None
    else if d[0].0 == k then Some(d[0].1)
    else Get(d[1..], k)
  }

  lemma {:induction false} GetAt<V>(d: Dict<V>, i: nat)
    requires Distinct(d) && i < |d|
    ensures Get(d, d[i].0) == Some(d[i].1)
  {
    if i > 0 {
      assert d[i].0 == Keys(d[1..])[i - 1];
      GetAt(d[1..], i - 1);
    }
  }

  /** A value `get` finds is stored in some entry under that key. */
  lemma {:induction false} GetEntry<V>(d: Dict<V>, k: string)
    requires Get(d, k).Some?
    ensures exists i :: 0 <= i < |d| && d[i] == (k, Get(d, k).value)
  {
    if d[0].0 == k {
      assert d[0] == (k, Get(d, k).value);
    } else {
      GetEntry(d[1..], k);
      var i :| 0 <= i < |d[1..]| && d[1..][i] == (k, Get(d[1..], k).value);
      assert d[i + 1] == d[1..][i];
    }
  }

  /** `d[k] = v` */
  function Set<V>(d: Dict<V>, k: string, v: V): (r: Dict<V>)
    ensures Get(r, k) == Some(v)
    ensures forall k' :: k' != k ==> Get(r, k') == Get(d, k')
    ensures k in Keys(d) ==> Keys(r) == Keys(d)
    ensures k !in Keys(d) ==> Keys(r) == Keys(d) + [k]
    ensures Distinct(d) ==> Distinct(r)
  {
    if |d| == 0 then [(k, v)]
    else if d[0].0 == k then
      var r := [(k, v)] + d[1..];
      assert r[1..] == d[1..];
      r
    else
      var rest := Set(d[1..], k, v);
      var r := [d[0]] + rest;
      SetStepGet(d, k, v, rest, r);
      SetStepKeys(d, k, rest, r);
      r
  }

  lemma SetStepGet<V>(d: Dict<V>, k: string, v: V, rest: Dict<V>, r: Dict<V>)
    requires |d| > 0 && d[0].0 != k && r == [d[0]] + rest
    requires Get(rest, k) == Some(v)
    requires forall k' :: k' != k ==> Get(rest, k') == Get(d[1..], k')
    ensures Get(r, k) == Some(v)
    ensures forall k' :: k' != k ==> Get(r, k') == Get(d, k')
  {
    assert r[0] == d[0] && r[1..] == rest;
  }

  lemma SetStepKeys<V>(d: Dict<V>, k: string, rest: Dict<V>, r: Dict<V>)
    requires |d| > 0 && d[0].0 != k && r == [d[0]] + rest
    requires k in Keys(d[1..]) ==> Keys(rest) == Keys(d[1..])
    requires k !in Keys(d[1..]) ==> Keys(rest) == Keys(d[1..]) + [k]
    requires Distinct(d[1..]) ==> Distinct(rest)
    ensures k in Keys(d) ==> Keys(r) == Keys(d)
    ensures k !in Keys(d) ==> Keys(r) == Keys(d) + [k]
    ensures Distinct(d) ==> Distinct(r)
  {
    assert r[0] == d[0] && r[1..] == rest;
    SetKeysCons(d, rest, r);
  }

  /** Assignment adds no entry but the assigned one. */
  lemma {:induction false} SetEntries<V>(d: Dict<V>, k: string, v: V)
    ensures forall x :: x in Set(d, k, v) ==> x in d || x == (k, v)
  {
    if |d| > 0 && d[0].0 != k {
      SetEntries(d[1..], k, v);
      assert Set(d, k, v) == [d[0]] + Set(d[1..], k, v);
      assert forall x :: x in d[1..] ==> x in d;
    } else if |d| > 0 {
      assert forall x :: x in d[1..] ==> x in d;
    }
  }

  lemma SetKeysCons<V>(d: Dict<V>, rest: Dict<V>, r: Dict<V>)
    requires |d| > 0 && r == [d[0]] + rest
    ensures Keys(r) == [d[0].0] + Keys(rest)
    ensures Keys(d) == [d[0].0] + Keys(d[1..])
  {
  }

  /** `d.pop(k, None)` */
  function Remove<V>(d: Dict<V>, k: string): (r: Dict<V>)
    ensures Get(r, k) == None
    ensures forall k' :: k' != k ==> Get(r, k') == Get(d, k')
    ensures Distinct(d) ==> Distinct(r)
    ensures forall x :: x in r ==> x in d
  {
    if |d| == 0 then []
    else if d[0].0 == k then Remove(d[1..], k)
    else
      var rest := Remove(d[1..], k);
      var r := [d[0]] + rest;
      assert r[1..] == rest;
      assert d[0].0 !in Keys(d[1..]) ==> d[0].0 !in Keys(rest) by {
        if d[0].0 in Keys(rest) {
          assert Get(rest, d[0].0).Some?;
        }
      }
      r
  }

  /** The dict as an unordered map (what Python's `==` on dicts compares). */
  function ToMap<V>(d: Dict<V>): (m: map<string, V>)
    ensures forall k :: k in m <==> k in Keys(d)
    ensures forall k :: k in m ==> Get(d, k) == Some(m[k])
  {
    map k | k in Keys(d) :: Get(d, k).value
  }

  lemma ToMapSet<V>(d: Dict<V>, k: string, v: V)
    ensures ToMap(Set(d, k, v)) == ToMap(d)[k := v]
  {
  }
}

=== FILE: exec_command.dfy ===
/**
 * The `RUN_COMMAND` exec op (easybot_mcdr/impl/exec_command.py): EasyBot asks
 * the server to run a console command over RCON, optionally after expanding
 * `%player_name%`, and expects one answer carrying the RCON reply.
 */
module ExecCommand {
  import opened Wrappers
  import opened Json
  import opened Host
  import Papi

  /** What `server.rcon_query` gave back: its reply (which may be `None`), or the exception it raised. */
  datatype QueryOutcome = Answer(text: Option<string>) | Failure(message: string)

  const RconOffText := "目标MCDR未开启未开启RCON,无法执行命令!"
  const FailurePrefix := "RCON查询失败: "

  /** The answer frame for one RCON query. */
  function Reply(q: QueryOutcome): (r: Frame)
    ensures "success" in r && "text" in r
    ensures r["success"] == JBool(q.Answer?)
    ensures q.Answer? && q.text.Some? ==> r["text"] == JStr(q.text.value)
    ensures q.Answer? && q.text.None? ==> r["text"] == JNull
    ensures q.Failure? ==> r["text"] == JStr(FailurePrefix + q.message)
  {
    match q
    case Answer(t) => map["success" := JBool(true), "text" := if t.Some? then JStr(t.value) else JNull]
    case Failure(m) => map["success" := JBool(false), "text" := JStr(FailurePrefix + m)]
  }

  const RconOffFrame: Frame := map["success" := JBool(false), "text" := JStr(RconOffText)]

  /**
   * `run_placeholder(player, text)` for JSON arguments: the text must be a
   * string for the scan, and the player must be one as soon as there is a
   * supported placeholder to replace.
   */
  function Expand(player: Json, text: Json): (r: Result<string>)
    ensures text.JStr? && player.JStr? ==> r == Ok(Papi.RunPlaceholder(player.s, text.s))
    ensures !text.JStr? ==> r.Err?
  {
    if !text.JStr? then Err("TypeError: expected string or bytes-like object")
    else if Papi.SupportedKeys(Papi.Placeholders(text.s)) == [] then Ok(text.s)
    else if !player.JStr? then Err("TypeError: replace() argument 2 must be str")
    else Ok(Papi.RunPlaceholder(player.s, text.s))
  }

  /**
   * The query and its answer, once the command is known and RCON is running.
   * `query` is what `server.rcon_query` gives for the value it is handed; the
   * code passes `data["command"]` on unchecked when placeholders are off, so
   * that value need not be a string.
   */
  function Query(command: Json, query: Json -> QueryOutcome): (r: seq<Effect>)
    ensures |r| == 2 && r[0] == RconQuery(command) && r[1].Respond?
    ensures "success" in r[1].frame && r[1].frame["success"] == JBool(query(command).Answer?)
  {
    [RconQuery(command), Respond(Reply(query(command)))]
  }

  /**
   * The value handed to `rcon_query`, or what is raised before the `try`:
   * the command as given when placeholders are off, else `expand(command,
   * player)`, which stands for the call to `run_placeholder`.
   */
  function Command(data: Frame, expand: (Json, Json) -> Result<string>): (r: Result<Json>)
    requires "command" in data && "enable_papi" in data
    ensures !Truthy(data["enable_papi"]) ==> r == Ok(data["command"])
    ensures Truthy(data["enable_papi"]) && "player_name" !in data ==> r.Err?
    ensures Truthy(data["enable_papi"]) && "player_name" in data ==>
              match expand(data["command"], data["player_name"])
              case Ok(c) => r == Ok(JStr(c))
              case Err(e) => r == Err(e)
  {
    if !Truthy(data["enable_papi"]) then Ok(data["command"])
    else if "player_name" !in data then Err("KeyError: 'player_name'")
    else
      match expand(data["command"], data["player_name"])
      case Ok(c) => Ok(JStr(c))
      case Err(e) => Err(e)
  }

  /**
   * The handler as written. With RCON off the failure answer is built but its
   * `callback` coroutine is never awaited, so nothing is sent; and with
   * `enable_papi` the arguments reach `run_placeholder` swapped, so the
   * player's name is expanded with the command as the replacement.
   */
  function RunCommandAsWritten(data: Frame, rconRunning: bool, query: Json -> QueryOutcome): (r: Outcome)
    ensures !rconRunning ==> r.effects == []
    ensures "command" !in data ==> r == Outcome([], Some("KeyError: 'command'"))
    ensures r.raised.None? ==> !rconRunning || |r.effects| == 2
  {
    if "command" !in data then Outcome([], Some("KeyError: 'command'"))
    else if !rconRunning then Outcome([], None)
    else if "enable_papi" !in data then Outcome([], Some("KeyError: 'enable_papi'"))
    else
      match Command(data, Expand)
      case Err(e) => Outcome([], Some(e))
      case Ok(c) => Outcome(Query(c, query), None)
  }

  /**
   * The handler as evidently intended: the RCON-off answer is awaited and
   * `run_placeholder` receives the player first and the command second.
   */
  function RunCommand(data: Frame, rconRunning: bool, query: Json -> QueryOutcome): (r: Outcome)
    ensures "command" !in data ==> r == Outcome([], Some("KeyError: 'command'"))
    ensures "command" in data && !rconRunning ==> r == Outcome([Respond(RconOffFrame)], None)
    ensures rconRunning && r.raised.None? ==>
              |r.effects| == 2 && r.effects[0].RconQuery? && r.effects[1] == Respond(Reply(query(r.effects[0].value)))
    ensures rconRunning && r.raised.Some? ==>
              r.effects == [] && ("command" !in data || "enable_papi" !in data || Truthy(data["enable_papi"]))
    ensures rconRunning && "command" in data && "enable_papi" in data && !Truthy(data["enable_papi"]) ==>
              r == Outcome(Query(data["command"], query), None)
    ensures rconRunning && GetStr(data, "command").Ok? && GetStr(data, "player_name").Ok? && "enable_papi" in data && Truthy(data["enable_papi"]) ==>
              r == Outcome(Query(JStr(Papi.RunPlaceholder(GetStr(data, "player_name").value, GetStr(data, "command").value)), query), None)
  {
    if "command" !in data then Outcome([], Some("KeyError: 'command'"))
    else if !rconRunning then Outcome([Respond(RconOffFrame)], None)
    else if "enable_papi" !in data then Outcome([], Some("KeyError: 'enable_papi'"))
    else
      match Command(data, (command, player) => Expand(player, command))
      case Err(e) => Outcome([], Some(e))
      case Ok(c) => Outcome(Query(c, query), None)
  }

  /** Every request that does not raise is answered exactly once, and the answer is the last thing done. */
  lemma AnsweredOnce(data: Frame, rconRunning: bool, query: Json -> QueryOutcome)
    requires RunCommand(data, rconRunning, query).raised.None?
    ensures var effects := RunCommand(data, rconRunning, query).effects;
            |effects| > 0 && effects[|effects| - 1].Respond? &&
            forall i :: 0 <= i < |effects| - 1 ==> !effects[i].Respond?
  {
  }

  /** With RCON off, the code as written never answers, while the corrected handler answers with the failure text. */
  lemma RconOffNeverAnswered(data: Frame, query: Json -> QueryOutcome)
    requires "command" in data
    ensures RunCommandAsWritten(data, false, query) == Outcome([], None)
    ensures RunCommand(data, false, query).effects == [Respond(RconOffFrame)]
  {
  }

  /**
   * With the arguments swapped, a player name holding no `%` is sent to RCON
   * as the command itself, whatever command EasyBot asked for.
   */
  lemma SwappedArgumentsQueryThePlayerName(data: Frame, query: Json -> QueryOutcome)
    requires GetStr(data, "command").Ok? && GetStr(data, "player_name").Ok?
    requires "enable_papi" in data && Truthy(data["enable_papi"])
    requires '%' !in data["player_name"].s
    ensures RunCommandAsWritten(data, true, query).effects == Query(data["player_name"], query)
  {
    Papi.NoPercentNoPlaceholders(data["player_name"].s);
  }

  /** In the corrected handler, a command that is only `%player_name%` runs as the player's name. */
  lemma CorrectedExpandsTheCommand(data: Frame, query: Json -> QueryOutcome)
    requires GetStr(data, "player_name").Ok?
    requires "command" in data && data["command"] == JStr(Papi.PlayerNamePlaceholder)
    requires "enable_papi" in data && Truthy(data["enable_papi"])
    ensures RunCommand(data, true, query).effects == Query(data["player_name"], query)
  {
    Papi.PlaceholderAlone(data["player_name"].s);
  }

  /**
   * With placeholders off, a command that is not a string still reaches
   * `rcon_query` inside the `try`, so the request is answered rather than
   * raising, in the code as written and in the corrected handler alike.
   */
  lemma NonStringCommandAnswered(data: Frame, query: Json -> QueryOutcome)
    requires "command" in data && !data["command"].JStr?
    requires "enable_papi" in data && !Truthy(data["enable_papi"])
    ensures RunCommandAsWritten(data, true, query) == RunCommand(data, true, query)
    ensures RunCommand(data, true, query).raised.None?
    ensures RunCommand(data, true, query).effects[0] == RconQuery(data["command"])
  {
  }
}

=== FILE: host.dfy ===
/**
 * The calls the plugin makes into its host (the MCDReforged server interface and
 * the plugin's own WebSocket client), recorded as effects instead of performed.
 */
module Host {
  import opened Wrappers
  import opened Json
  import Dicts

  datatype Effect =
    | Execute(command: string)                          // server.execute
    | RconQuery(value: Json)                            // server.rcon_query, with the value it is given
    | Tell(player: string, message: string)             // server.tell
    | Broadcast(parts: seq<string>)                     // server.broadcast of a text list (styling left out)
    | BroadcastValue(value: Json)                       // server.broadcast of a raw frame value
    | SourceReply(text: string)                         // CommandSource.reply
    | Respond(frame: Frame)                             // an awaited ExecContext.callback
    | Packet(execOp: string, payload: Frame)            // EasyBotWsClient._send_packet
    | Request(execOp: string, payload: Frame)           // EasyBotWsClient.send_and_wait
    | UpdatePluginRcon(host: string, port: int, password: string)
    | WriteProperties(props: Dicts.Dict<string>)        // write_server_properties
    | ConnectRcon                                       // server.connect_rcon
    | StopServer                                        // server.stop

  /** What a listener or handler did before it returned (`raised == None`) or raised. */
  datatype Outcome = Outcome(effects: seq<Effect>, raised: Option<string>)
}

=== FILE: json.dfy ===
/**
 * Decoded JSON values and protocol frames. A frame is the top-level JSON object
 * of one WebSocket message: a string-keyed map whose `op` field discriminates it.
 * Floating-point numbers are not modelled.
 */
module Json {
  import opened Wrappers

  datatype Json =
    | JNull
    | JBool(b: bool)
    | JInt(i: int)
    | JStr(s: string)
    | JArr(items: seq<Json>)
    | JObj(fields: map<string, Json>)

  type Frame = map<string, Json>

  /** Python truthiness of a decoded JSON value. */
  predicate Truthy(j: Json) {
    match j
    case JNull => false
    case JBool(b) => b
    case JInt(i) => i != 0
    case JStr(s) => s != ""
    case JArr(a) => |a| > 0
    case JObj(m) => |m| > 0
  }

  /** Python's `j == n` for an integer literal `n`: `True` and `False` compare equal to 1 and 0. */
  predicate EqualsInt(j: Json, n: int) {
    j == JInt(n) || (j == JBool(true) && n == 1) || (j == JBool(false) && n == 0)
  }

  /** Lists and dicts cannot be hashed: using one as a dict key raises `TypeError`. */
  predicate Hashable(j: Json) {
    !j.JArr? && !j.JObj?
  }

  /** `frame.get(key)`, with `None` for a missing key. */
  function Get(frame: Frame, key: string): (r: Json)
    ensures key !in frame ==> r == JNull
    ensures key in frame ==> r == frame[key]
  {
    if key in frame then frame[key] else JNull
  }

  /** `frame[key]` where the caller then uses the value as a `str`: fails on a missing key or another type. */
  function GetStr(frame: Frame, key: string): (r: Result<string>)
    ensures r.Ok? <==> key in frame && frame[key].JStr?
    ensures r.Ok? ==> frame[key] == JStr(r.value)
  {
    if key in frame && frame[key].JStr? then Ok(frame[key].s) else Err("KeyError/TypeError: " + key)
  }

  /** A list of names as JSON strings. */
  function StrArray(names: seq<string>): (r: seq<Json>)
    ensures |r| == |names|
    ensures forall i :: 0 <= i < |names| ==> r[i] == JStr(names[i])
  {
    if |names| == 0 then [] else [JStr(names[0])] + StrArray(names[1..])
  }
}

=== FILE: message_sync.dfy ===
/**
 * `SEND_TO_CHAT` (easybot_mcdr/impl/message_sync.py): a chat message from the
 * EasyBot side is broadcast in game, with runs of text merged and images,
 * mentions, files and replies shown as tokens; mentioned online players may
 * trigger configured commands and a sound.
 */
module MessageSync {
  import opened Wrappers
  import opened Json
  import Text
  import Dicts
  import Players
  import opened Host

  /** One entry of `extra`, by its `type` field. */
  datatype Segment =
    | TextSegment(text: string)                                      // type 2
    | Image(url: Json)                                               // type 3
    | At(userId: Json, userName: string, names: seq<string>)         // type 4
    | File                                                           // type 5
    | Reply                                                          // type 6
    | Unknown(kind: int)                                             // any other type

  /** A component of the broadcast text list: merged plain text, or a styled token (colours and hover left out). */
  datatype Token = Plain(text: string) | Styled(text: string)

  const ImageToken := "[图片]"
  const FileToken := "[文件]"
  const ReplyToken := "[回复某条消息]"
  const AtAllToken := "@全体成员"
  const AtAllId := JStr("0")

  /** The token a non-text segment shows; an unknown type shows nothing. */
  function SegmentToken(s: Segment): (r: seq<Token>)
    requires !s.TextSegment?
    ensures |r| <= 1 && (|r| == 1 <==> !s.Unknown?)
    ensures forall t | t in r :: t.Styled?
    ensures s.Image? ==> r == [Styled(ImageToken)]
    ensures s.File? ==> r == [Styled(FileToken)]
    ensures s.Reply? ==> r == [Styled(ReplyToken)]
    ensures s.At? && s.userId == AtAllId ==> r == [Styled(AtAllToken)]
    ensures s.At? && s.userId != AtAllId && |s.names| == 0 ==> r == [Styled(s.userName)]
    ensures s.At? && s.userId != AtAllId && |s.names| > 0 ==> r == [Styled("@" + Text.JoinWith(s.names, ","))]
  {
    match s
    case Image(_) => [Styled(ImageToken)]
    case At(id, userName, names) =>
      if id == AtAllId then [Styled(AtAllToken)]
      else if |names| == 0 then [Styled(userName)]
      else [Styled("@" + Text.JoinWith(names, ","))]
    case File => [Styled(FileToken)]
    case Reply => [Styled(ReplyToken)]
    case Unknown(_) => []
  }

  /**
   * A mention of named players shows `@` and the names joined by commas; when
   * no name holds a comma, splitting the shown text at its commas gives the
   * names back, in order.
   */
  lemma MentionShowsNames(userId: Json, userName: string, names: seq<string>)
    requires userId != AtAllId && |names| > 0
    requires forall i :: 0 <= i < |names| ==> ',' !in names[i]
    ensures var r := SegmentToken(At(userId, userName, names));
      && |r| == 1 && |r[0].text| > 0 && r[0].text[0] == '@'
      && Text.SplitOn(r[0].text[1..], ",") == names
  {
    var shown := "@" + Text.JoinWith(names, ",");
    assert shown[1..] == Text.JoinWith(names, ",");
    Text.SplitJoinChar(names, ',');
  }

  /** `append_current_text`: the pending text, unless it is empty. */
  function Flush(pending: string): (r: seq<Token>)
    ensures forall t | t in r :: t.Plain? && t.text != ""
    ensures pending == "" <==> r == []
    ensures pending != "" ==> r == [Plain(pending)]
  {
    if pending == "" then [] else [Plain(pending)]
  }

  /** The loop over `extra` from `segments` on, with `pending` the text not yet flushed. */
  function Coalesce(segments: seq<Segment>, pending: string): (r: seq<Token>)
    ensures forall t | t in r :: t.Plain? ==> t.text != ""
  {
    if |segments| == 0 then Flush(pending)
    else if segments[0].TextSegment? then Coalesce(segments[1..], pending + segments[0].text)
    else Flush(pending) + SegmentToken(segments[0]) + Coalesce(segments[1..], "")
  }

  /** The broadcast text list for a message with `extra`. */
  function Tokens(segments: seq<Segment>): (r: seq<Token>)
    ensures forall t | t in r :: t.Plain? ==> t.text != ""
  {
    Coalesce(segments, "")
  }

  // ---------------------------------------------------------------- runs of text

  /** The text of the run of text segments `segments` starts with. */
  function RunText(segments: seq<Segment>): string {
    if |segments| == 0 || !segments[0].TextSegment? then "" else segments[0].text + RunText(segments[1..])
  }

  /**
   * The list described run by run: each maximal run of text segments is one
   * plain token (none when its text is empty), and every other segment is
   * its own token.
   */
  function RunTokens(segments: seq<Segment>): seq<Token>
    decreases |segments|, 1
  {
    Flush(RunText(segments)) + AfterRun(segments)
  }

  /** The tokens after the leading run of text segments. */
  function AfterRun(segments: seq<Segment>): seq<Token>
    decreases |segments|, 0
  {
    if |segments| == 0 then []
    else if segments[0].TextSegment? then AfterRun(segments[1..])
    else SegmentToken(segments[0]) + RunTokens(segments[1..])
  }

  lemma {:induction false} CoalesceRuns(segments: seq<Segment>, pending: string)
    ensures Coalesce(segments, pending) == Flush(pending + RunText(segments)) + AfterRun(segments)
  {
    if |segments| == 0 {
      assert pending + "" == pending;
    } else if segments[0].TextSegment? {
      var t := segments[0].text;
      CoalesceRuns(segments[1..], pending + t);
      assert pending + t + RunText(segments[1..]) == pending + (t + RunText(segments[1..]));
    } else {
      var rest := segments[1..];
      CoalesceSegment(segments, pending);
      CoalesceRuns(rest, "");
      assert "" + RunText(rest) == RunText(rest);
      assert pending + "" == pending;
    }
  }

  /** One step of the loop and of the run-by-run list at a segment that ends a run. */
  lemma CoalesceSegment(segments: seq<Segment>, pending: string)
    requires |segments| > 0 && !segments[0].TextSegment?
    ensures Coalesce(segments, pending) == Flush(pending) + SegmentToken(segments[0]) + Coalesce(segments[1..], "")
    ensures AfterRun(segments) == SegmentToken(segments[0]) + RunTokens(segments[1..])
    ensures RunText(segments) == ""
  {
  }

  /** The loop with its pending text builds exactly the run-by-run list. */
  lemma TokensAreRuns(segments: seq<Segment>)
    ensures Tokens(segments) == RunTokens(segments)
  {
    CoalesceRuns(segments, "");
    assert "" + RunText(segments) == RunText(segments);
  }

  /** No two neighbouring tokens are both plain text. */
  predicate NoAdjacentPlain(tokens: seq<Token>) {
    forall i :: 0 <= i < |tokens| - 1 ==> !(tokens[i].Plain? && tokens[i + 1].Plain?)
  }

  lemma AdjacentAppend(a: seq<Token>, b: seq<Token>)
    requires NoAdjacentPlain(a) && NoAdjacentPlain(b)
    requires |a| > 0 && |b| > 0 ==> !(a[|a| - 1].Plain? && b[0].Plain?)
    ensures NoAdjacentPlain(a + b)
  {
    var r := a + b;
    forall i | 0 <= i < |r| - 1 ensures !(r[i].Plain? && r[i + 1].Plain?) {
      if i + 1 < |a| {
        assert r[i] == a[i] && r[i + 1] == a[i + 1];
      } else if i + 1 == |a| {
        assert r[i] == a[|a| - 1] && r[i + 1] == b[0];
      } else {
        assert r[i] == b[i - |a|] && r[i + 1] == b[i - |a| + 1];
      }
    }
  }

  /** Every segment has a known type. */
  predicate AllKnown(segments: seq<Segment>) {
    forall i :: 0 <= i < |segments| ==> !segments[i].Unknown?
  }

  lemma {:induction false} RunsShape(segments: seq<Segment>)
    requires AllKnown(segments)
    ensures NoAdjacentPlain(RunTokens(segments)) && NoAdjacentPlain(AfterRun(segments))
    ensures |AfterRun(segments)| > 0 ==> AfterRun(segments)[0].Styled?
  {
    if |segments| > 0 {
      var rest := segments[1..];
      assert AllKnown(rest) by {
        forall i | 0 <= i < |rest| ensures !rest[i].Unknown? {
          assert rest[i] == segments[i + 1];
        }
      }
      RunsShape(rest);
      if !segments[0].TextSegment? {
        var token := SegmentToken(segments[0]);
        assert !segments[0].Unknown?;
        AdjacentAppend(token, RunTokens(rest));
      }
    }
    AdjacentAppend(Flush(RunText(segments)), AfterRun(segments));
  }

  /**
   * When every segment has a known type, consecutive text segments always end
   * up in one token: no two plain tokens are neighbours.
   */
  lemma TokensMergeRuns(segments: seq<Segment>)
    requires AllKnown(segments)
    ensures NoAdjacentPlain(Tokens(segments))
  {
    TokensAreRuns(segments);
    RunsShape(segments);
  }

  /** A segment of unknown type shows nothing, yet still flushes the text before it. */
  lemma UnknownSplitsRun(a: string, b: string, kind: int)
    requires a != "" && b != ""
    ensures Tokens([TextSegment(a), Unknown(kind), TextSegment(b)]) == [Plain(a), Plain(b)]
  {
    var s := [TextSegment(a), Unknown(kind), TextSegment(b)];
    var rest: seq<Segment> := [TextSegment(b)];
    assert s[1..] == [Unknown(kind)] + rest;
    assert ([Unknown(kind)] + rest)[1..] == rest;
    assert rest[1..] == [];
    assert "" + b == b && "" + a == a;
    assert Coalesce(rest, "") == Coalesce(rest[1..], "" + b) == Flush(b) == [Plain(b)];
    assert Coalesce([Unknown(kind)] + rest, a) == Flush(a) + SegmentToken(Unknown(kind)) + Coalesce(rest, "");
    assert Coalesce(s, "") == Coalesce(s[1..], "" + a);
  }

  // ---------------------------------------------------------------- what the list shows

  /** The text each segment contributes on its own. */
  function Shown(segments: seq<Segment>): string {
    if |segments| == 0 then ""
    else if segments[0].TextSegment? then segments[0].text + Shown(segments[1..])
    else TokenText(SegmentToken(segments[0])) + Shown(segments[1..])
  }

  /** The concatenated text of a token list. */
  function TokenText(tokens: seq<Token>): string {
    if |tokens| == 0 then "" else tokens[0].text + TokenText(tokens[1..])
  }

  lemma {:induction false} TokenTextAppend(a: seq<Token>, b: seq<Token>)
    ensures TokenText(a + b) == TokenText(a) + TokenText(b)
  {
    if |a| > 0 {
      assert (a + b)[1..] == a[1..] + b;
      TokenTextAppend(a[1..], b);
    } else {
      assert a + b == b;
    }
  }

  lemma {:induction false} CoalesceShows(segments: seq<Segment>, pending: string)
    ensures TokenText(Coalesce(segments, pending)) == pending + Shown(segments)
  {
    if |segments| == 0 {
      FlushShows(pending);
    } else if segments[0].TextSegment? {
      var t := segments[0].text;
      CoalesceShows(segments[1..], pending + t);
      assert pending + t + Shown(segments[1..]) == pending + (t + Shown(segments[1..]));
    } else {
      CoalesceShows(segments[1..], "");
      TokenStep(pending, SegmentToken(segments[0]), Coalesce(segments[1..], ""), Shown(segments[1..]));
    }
  }

  /** A flush and a token before a list that shows `shown`. */
  lemma TokenStep(pending: string, token: seq<Token>, rest: seq<Token>, shown: string)
    requires TokenText(rest) == shown
    ensures TokenText(Flush(pending) + token + rest) == pending + (TokenText(token) + shown)
  {
    var flushed := Flush(pending);
    var head := TokenText(token);
    TokenTextAppend(flushed + token, rest);
    TokenTextAppend(flushed, token);
    FlushShows(pending);
    assert TokenText(flushed + token + rest) == pending + head + shown;
    assert pending + head + shown == pending + (head + shown);
  }

  lemma FlushShows(pending: string)
    ensures TokenText(Flush(pending)) == pending
  {
  }

  /** Merging runs of text loses and reorders nothing: the list reads as the segments do one by one. */
  lemma TokensShowSegments(segments: seq<Segment>)
    ensures TokenText(Tokens(segments)) == Shown(segments)
  {
    CoalesceShows(segments, "");
  }

  /** The number of segments that show a styled token. */
  function StyledCount(segments: seq<Segment>): nat {
    if |segments| == 0 then 0
    else (if segments[0].TextSegment? || segments[0].Unknown? then 0 else 1) + StyledCount(segments[1..])
  }

  function StyledIn(tokens: seq<Token>): nat {
    if |tokens| == 0 then 0 else (if tokens[0].Styled? then 1 else 0) + StyledIn(tokens[1..])
  }

  lemma {:induction false} StyledInAppend(a: seq<Token>, b: seq<Token>)
    ensures StyledIn(a + b) == StyledIn(a) + StyledIn(b)
  {
    if |a| > 0 {
      assert (a + b)[1..] == a[1..] + b;
      StyledInAppend(a[1..], b);
    } else {
      assert a + b == b;
    }
  }

  lemma {:induction false} CoalesceStyled(segments: seq<Segment>, pending: string)
    ensures StyledIn(Coalesce(segments, pending)) == StyledCount(segments)
  {
    if |segments| == 0 {
    } else if segments[0].TextSegment? {
      CoalesceStyled(segments[1..], pending + segments[0].text);
    } else {
      CoalesceStyled(segments[1..], "");
      StyledInAppend(Flush(pending) + SegmentToken(segments[0]), Coalesce(segments[1..], ""));
      StyledInAppend(Flush(pending), SegmentToken(segments[0]));
    }
  }

  /** Every image, mention, file and reply shows exactly one token of its own; unknown types show none. */
  lemma TokensPerSegment(segments: seq<Segment>)
    ensures StyledIn(Tokens(segments)) == StyledCount(segments)
  {
    CoalesceStyled(segments, "");
  }

  // ---------------------------------------------------------------- mentions

  /** `at_players`: the names of every mention segment, in order, including those of an all-members mention. */
  function AtPlayers(segments: seq<Segment>): (r: seq<string>)
    ensures forall p :: p in r <==> exists i :: 0 <= i < |segments| && segments[i].At? && p in segments[i].names
  {
    if |segments| == 0 then []
    else
      var rest := AtPlayers(segments[1..]);
      assert forall i :: 1 <= i < |segments| ==> segments[i] == segments[1..][i - 1];
      (if segments[0].At? then segments[0].names else []) + rest
  }

  /** `has_at_all`: some mention is of user id `"0"`. */
  predicate HasAtAll(segments: seq<Segment>) {
    exists i :: 0 <= i < |segments| && segments[i].At? && segments[i].userId == AtAllId
  }

  /** The `on_at` settings of the configuration (the key `comamnds` is spelled so in the source). */
  datatype OnAt = OnAt(execCommand: bool, commands: seq<string>, playSound: bool, soundRun: string, soundCount: int)

  /** Each command with `#player` replaced by `target`, in order. */
  function RunFor(commands: seq<string>, target: string): (r: seq<Effect>)
    ensures |r| == |commands|
    ensures forall i :: 0 <= i < |commands| ==> r[i] == Execute(Text.ReplaceAll(commands[i], "#player", target))
  {
    if |commands| == 0 then [] else [Execute(Text.ReplaceAll(commands[0], "#player", target))] + RunFor(commands[1..], target)
  }

  /** `play_sound`: the sound command `count` times (no time between them is modelled). */
  function Sound(count: int, run: string, target: string): (r: seq<Effect>)
    ensures |r| == if count < 0 then 0 else count
    ensures forall e | e in r :: e == Execute(Text.ReplaceAll(run, "#player", target))
    decreases if count < 0 then 0 else count
  {
    if count <= 0 then [] else [Execute(Text.ReplaceAll(run, "#player", target))] + Sound(count - 1, run, target)
  }

  /** `check_online`. */
  predicate Online(c: Players.Cache, player: string) {
    Dicts.Get(c.online, player).Some?
  }

  /** The mentioned players who are online, in mention order, repeats kept. */
  function OnlineAt(c: Players.Cache, names: seq<string>): (r: seq<string>)
    ensures forall p | p in r :: p in names && Online(c, p)
    ensures forall p | p in names && Online(c, p) :: p in r
  {
    if |names| == 0 then []
    else (if Online(c, names[0]) then [names[0]] else []) + OnlineAt(c, names[1..])
  }

  /** `f(targets[0]) + f(targets[1]) + ...` for the per-player effects. */
  function ForEach(targets: seq<string>, commands: seq<string>): (r: seq<Effect>)
    ensures |r| == |targets| * |commands|
  {
    if |targets| == 0 then []
    else
      var rest := ForEach(targets[1..], commands);
      assert |rest| + |commands| == |targets| * |commands| by {
        assert (|targets| - 1) * |commands| + |commands| == |targets| * |commands|;
      }
      RunFor(commands, targets[0]) + rest
  }

  /** The command run for `target`. */
  function CommandFor(command: string, target: string): Effect {
    Execute(Text.ReplaceAll(command, "#player", target))
  }

  /** Every per-player effect is one of the commands run for one of the targets. */
  lemma {:induction false} ForEachFrom(targets: seq<string>, commands: seq<string>, e: Effect)
    requires e in ForEach(targets, commands)
    ensures exists p, i :: p in targets && 0 <= i < |commands| && e == CommandFor(commands[i], p)
  {
    if |targets| > 0 {
      var head := RunFor(commands, targets[0]);
      if e in head {
        var i :| 0 <= i < |head| && head[i] == e;
        assert targets[0] in targets && e == CommandFor(commands[i], targets[0]);
      } else {
        ForEachFrom(targets[1..], commands, e);
        var p, i :| p in targets[1..] && 0 <= i < |commands| && e == CommandFor(commands[i], p);
        assert p in targets;
      }
    }
  }

  /** Every command is run for every target. */
  lemma {:induction false} ForEachCovers(targets: seq<string>, commands: seq<string>, p: string, i: nat)
    requires p in targets && i < |commands|
    ensures CommandFor(commands[i], p) in ForEach(targets, commands)
  {
    var head := RunFor(commands, targets[0]);
    if p == targets[0] {
      assert head[i] == CommandFor(commands[i], p);
    } else {
      ForEachCovers(targets[1..], commands, p, i);
    }
  }

  function SoundEach(targets: seq<string>, count: int, run: string): (r: seq<Effect>)
    ensures |r| == |targets| * (if count < 0 then 0 else count)
  {
    if |targets| == 0 then [] else Sound(count, run, targets[0]) + SoundEach(targets[1..], count, run)
  }

  /** The commands a message triggers: for everybody once when it mentions all members, else per online mention. */
  function Commands(cfg: OnAt, c: Players.Cache, segments: seq<Segment>): (r: seq<Effect>)
    ensures !cfg.execCommand ==> r == []
    ensures cfg.execCommand && HasAtAll(segments) ==> r == RunFor(cfg.commands, "@a")
    ensures cfg.execCommand && !HasAtAll(segments) ==>
              |r| == |OnlineAt(c, AtPlayers(segments))| * |cfg.commands|
  {
    if !cfg.execCommand then []
    else if HasAtAll(segments) then RunFor(cfg.commands, "@a")
    else ForEach(OnlineAt(c, AtPlayers(segments)), cfg.commands)
  }

  /**
   * Without an all-members mention, the commands run are exactly the
   * configured ones for the mentioned players who are online: each such
   * pair runs, and nothing else does.
   */
  lemma MentionCommands(cfg: OnAt, c: Players.Cache, segments: seq<Segment>)
    requires cfg.execCommand && !HasAtAll(segments)
    ensures forall e | e in Commands(cfg, c, segments) ::
              exists p, i :: p in AtPlayers(segments) && Online(c, p) && 0 <= i < |cfg.commands| && e == CommandFor(cfg.commands[i], p)
    ensures forall p, i | p in AtPlayers(segments) && Online(c, p) && 0 <= i < |cfg.commands| ::
              CommandFor(cfg.commands[i], p) in Commands(cfg, c, segments)
  {
    var targets := OnlineAt(c, AtPlayers(segments));
    forall e | e in Commands(cfg, c, segments)
      ensures exists p, i :: p in AtPlayers(segments) && Online(c, p) && 0 <= i < |cfg.commands| && e == CommandFor(cfg.commands[i], p)
    {
      ForEachFrom(targets, cfg.commands, e);
    }
    forall p, i | p in AtPlayers(segments) && Online(c, p) && 0 <= i < |cfg.commands|
      ensures CommandFor(cfg.commands[i], p) in Commands(cfg, c, segments)
    {
      ForEachCovers(targets, cfg.commands, p, i);
    }
  }

  function Sounds(cfg: OnAt, c: Players.Cache, segments: seq<Segment>): (r: seq<Effect>)
    ensures !cfg.playSound ==> r == []
    ensures cfg.playSound && HasAtAll(segments) ==> r == Sound(cfg.soundCount, cfg.soundRun, "@a")
    ensures cfg.playSound && !HasAtAll(segments) ==>
              |r| == |OnlineAt(c, AtPlayers(segments))| * (if cfg.soundCount < 0 then 0 else cfg.soundCount)
  {
    if !cfg.playSound then []
    else if HasAtAll(segments) then Sound(cfg.soundCount, cfg.soundRun, "@a")
    else SoundEach(OnlineAt(c, AtPlayers(segments)), cfg.soundCount, cfg.soundRun)
  }

  // ---------------------------------------------------------------- order of the effects

  lemma MulStep(k: nat, n: nat)
    ensures k * n + n == (k + 1) * n
  {
  }

  lemma {:induction false} MulLe(a: nat, b: nat, n: nat)
    requires a <= b
    ensures a * n <= b * n
    decreases b - a
  {
    if a < b {
      MulLe(a + 1, b, n);
      MulStep(a, n);
    }
  }

  /** `k * n + i` lies inside a list of `m` blocks of `n`. */
  lemma BlockIndex(k: nat, i: nat, n: nat, m: nat)
    requires k < m && i < n
    ensures k * n + i < m * n
  {
    MulStep(k, n);
    MulLe(k + 1, m, n);
  }

  /** The per-player effects of two lists of targets are those of the first, then those of the second. */
  lemma {:induction false} ForEachConcat(a: seq<string>, b: seq<string>, commands: seq<string>)
    ensures ForEach(a + b, commands) == ForEach(a, commands) + ForEach(b, commands)
  {
    if |a| == 0 {
      assert a + b == b;
    } else {
      assert (a + b)[1..] == a[1..] + b;
      assert (a + b)[0] == a[0];
      ForEachConcat(a[1..], b, commands);
    }
  }

  /** The effects for one target are its commands in order. */
  lemma ForEachOne(p: string, commands: seq<string>)
    ensures ForEach([p], commands) == RunFor(commands, p)
  {
    assert [p][1..] == [];
  }

  /** The per-player effects come target by target, each target's block in command order. */
  lemma ForEachAt(targets: seq<string>, commands: seq<string>, k: nat, i: nat)
    requires k < |targets| && i < |commands|
    ensures k * |commands| + i < |ForEach(targets, commands)|
    ensures ForEach(targets, commands)[k * |commands| + i] == CommandFor(commands[i], targets[k])
  {
    var before, after := targets[..k], targets[k + 1..];
    assert targets == before + [targets[k]] + after;
    ForEachConcat(before + [targets[k]], after, commands);
    ForEachConcat(before, [targets[k]], commands);
    ForEachOne(targets[k], commands);
    var x := ForEach(before, commands);
    var y := RunFor(commands, targets[k]);
    var z := ForEach(after, commands);
    BlockIndex(k, i, |commands|, |targets|);
    IndexInMiddle(x, y, z, k * |commands| + i, i);
  }

  lemma IndexInMiddle(x: seq<Effect>, y: seq<Effect>, z: seq<Effect>, at: nat, i: nat)
    requires at == |x| + i && i < |y|
    ensures at < |x + y + z| && (x + y + z)[at] == y[i]
  {
  }

  /** The mentioned players' names are those of the first segments, then those of the rest. */
  lemma {:induction false} AtPlayersConcat(a: seq<Segment>, b: seq<Segment>)
    ensures AtPlayers(a + b) == AtPlayers(a) + AtPlayers(b)
  {
    if |a| == 0 {
      assert a + b == b;
    } else {
      assert (a + b)[1..] == a[1..] + b;
      AtPlayersConcat(a[1..], b);
    }
  }

  /** `OnlineAt` is a filter: it decides each name on its own and keeps the order. */
  lemma {:induction false} OnlineAtConcat(c: Players.Cache, a: seq<string>, b: seq<string>)
    ensures OnlineAt(c, a + b) == OnlineAt(c, a) + OnlineAt(c, b)
  {
    if |a| == 0 {
      assert a + b == b;
    } else {
      assert (a + b)[1..] == a[1..] + b;
      OnlineAtConcat(c, a[1..], b);
    }
  }

  /** The sound command, `count` times over (none for a non-positive count). */
  function Repeat(run: string, count: int): (r: seq<string>)
    ensures |r| == if count < 0 then 0 else count
    ensures forall i :: 0 <= i < |r| ==> r[i] == run
    decreases if count < 0 then 0 else count
  {
    if count <= 0 then [] else [run] + Repeat(run, count - 1)
  }

  /** Playing the sound for a target is running the repeated sound command for it. */
  lemma SoundIsRunFor(count: int, run: string, target: string)
    ensures Sound(count, run, target) == RunFor(Repeat(run, count), target)
  {
    var a := Sound(count, run, target);
    var b := RunFor(Repeat(run, count), target);
    forall i | 0 <= i < |a| ensures a[i] == b[i] {
      assert a[i] in a;
    }
  }

  /** Per-player sounds are the per-player commands with the repeated sound command as the list. */
  lemma {:induction false} SoundEachIsForEach(targets: seq<string>, count: int, run: string)
    ensures SoundEach(targets, count, run) == ForEach(targets, Repeat(run, count))
  {
    if |targets| > 0 {
      SoundIsRunFor(count, run, targets[0]);
      SoundEachIsForEach(targets[1..], count, run);
    }
  }

  /**
   * Without a mention of all members the commands run target by target, in
   * mention order, each target getting every command in configured order.
   */
  lemma CommandsAt(cfg: OnAt, c: Players.Cache, segments: seq<Segment>, k: nat, i: nat)
    requires cfg.execCommand && !HasAtAll(segments)
    requires k < |OnlineAt(c, AtPlayers(segments))| && i < |cfg.commands|
    ensures k * |cfg.commands| + i < |Commands(cfg, c, segments)|
    ensures Commands(cfg, c, segments)[k * |cfg.commands| + i] == CommandFor(cfg.commands[i], OnlineAt(c, AtPlayers(segments))[k])
  {
    ForEachAt(OnlineAt(c, AtPlayers(segments)), cfg.commands, k, i);
  }

  /**
   * Without a mention of all members the sound plays target by target, in
   * mention order: the `k`-th online mention gets the `count` runs from
   * `k * count` on.
   */
  lemma SoundsAt(cfg: OnAt, c: Players.Cache, segments: seq<Segment>, k: nat, j: nat)
    requires cfg.playSound && !HasAtAll(segments)
    requires k < |OnlineAt(c, AtPlayers(segments))| && j < cfg.soundCount
    ensures 0 <= k * cfg.soundCount + j < |Sounds(cfg, c, segments)|
    ensures Sounds(cfg, c, segments)[k * cfg.soundCount + j] == CommandFor(cfg.soundRun, OnlineAt(c, AtPlayers(segments))[k])
  {
    var targets := OnlineAt(c, AtPlayers(segments));
    var runs := Repeat(cfg.soundRun, cfg.soundCount);
    SoundsAreForEach(cfg, c, segments);
    ForEachAt(targets, runs, k, j);
    SameIndex(Sounds(cfg, c, segments), ForEach(targets, runs), k, |runs|, cfg.soundCount, j,
              CommandFor(cfg.soundRun, targets[k]));
  }

  /** Without a mention of all members, the sounds are the per-player commands with the repeated sound command as the list. */
  lemma SoundsAreForEach(cfg: OnAt, c: Players.Cache, segments: seq<Segment>)
    requires cfg.playSound && !HasAtAll(segments)
    ensures Sounds(cfg, c, segments) == ForEach(OnlineAt(c, AtPlayers(segments)), Repeat(cfg.soundRun, cfg.soundCount))
  {
    SoundEachIsForEach(OnlineAt(c, AtPlayers(segments)), cfg.soundCount, cfg.soundRun);
  }

  lemma SameIndex(r: seq<Effect>, q: seq<Effect>, k: nat, n: nat, count: int, j: nat, e: Effect)
    requires r == q && n == count && k * n + j < |q| && q[k * n + j] == e
    ensures 0 <= k * count + j < |r| && r[k * count + j] == e
  {
  }

  /**
   * Without a mention of all members, every sound played is the sound command
   * for an online mentioned player, and with a positive count every such
   * player hears it.
   */
  lemma MentionSounds(cfg: OnAt, c: Players.Cache, segments: seq<Segment>)
    requires cfg.playSound && !HasAtAll(segments)
    ensures forall e | e in Sounds(cfg, c, segments) ::
              exists p :: p in AtPlayers(segments) && Online(c, p) && e == CommandFor(cfg.soundRun, p)
    ensures cfg.soundCount > 0 ==> forall p | p in AtPlayers(segments) && Online(c, p) ::
              CommandFor(cfg.soundRun, p) in Sounds(cfg, c, segments)
  {
    var targets := OnlineAt(c, AtPlayers(segments));
    var runs := Repeat(cfg.soundRun, cfg.soundCount);
    SoundEachIsForEach(targets, cfg.soundCount, cfg.soundRun);
    forall e | e in Sounds(cfg, c, segments)
      ensures exists p :: p in AtPlayers(segments) && Online(c, p) && e == CommandFor(cfg.soundRun, p)
    {
      ForEachFrom(targets, runs, e);
    }
    if cfg.soundCount > 0 {
      forall p | p in AtPlayers(segments) && Online(c, p)
        ensures CommandFor(cfg.soundRun, p) in Sounds(cfg, c, segments)
      {
        ForEachCovers(targets, runs, p, 0);
      }
    }
  }

  /** The message of a `SEND_TO_CHAT` frame: plain `text`, or `extra` segments. */
  datatype Message = PlainText(text: Json) | Segments(extra: seq<Segment>)

  /**
   * `sync_message`. A plain message is broadcast as it is and nothing else
   * happens; otherwise the token list is broadcast, then the mention
   * commands run, then the sounds play.
   */
  function SyncMessage(msg: Message, cfg: OnAt, c: Players.Cache): (r: seq<Effect>)
    ensures msg.PlainText? ==> r == [BroadcastValue(msg.text)]
    ensures msg.Segments? ==>
              && |r| >= 1 && r[0].Broadcast?
              && var texts := r[0].parts;
              && |texts| == |Tokens(msg.extra)|
              && (forall i :: 0 <= i < |texts| ==> texts[i] == Tokens(msg.extra)[i].text)
              && r[1..] == Commands(cfg, c, msg.extra) + Sounds(cfg, c, msg.extra)
  {
    match msg
    case PlainText(t) => [BroadcastValue(t)]
    case Segments(extra) =>
      [Broadcast(Texts(Tokens(extra)))] + Commands(cfg, c, extra) + Sounds(cfg, c, extra)
  }

  function Texts(tokens: seq<Token>): (r: seq<string>)
    ensures |r| == |tokens|
    ensures forall i :: 0 <= i < |tokens| ==> r[i] == tokens[i].text
  {
    if |tokens| == 0 then [] else [tokens[0].text] + Texts(tokens[1..])
  }

  /** Text, then an image, then text: the two runs stay separate around the image. */
  lemma TextAroundImage(a: string, b: string, url: Json)
    requires a != "" && b != ""
    ensures Tokens([TextSegment(a), Image(url), TextSegment(b)]) == [Plain(a), Styled(ImageToken), Plain(b)]
  {
    var s := [TextSegment(a), Image(url), TextSegment(b)];
    var rest: seq<Segment> := [TextSegment(b)];
    assert s[1..] == [Image(url)] + rest;
    assert ([Image(url)] + rest)[1..] == rest;
    assert rest[1..] == [];
    assert "" + b == b && "" + a == a;
    assert Coalesce(rest, "") == Coalesce(rest[1..], "" + b) == Flush(b) == [Plain(b)];
    assert Coalesce([Image(url)] + rest, a) == Flush(a) + SegmentToken(Image(url)) + Coalesce(rest, "");
    assert Coalesce(s, "") == Coalesce(s[1..], "" + a);
  }

  /** Consecutive text segments are merged into one token. */
  lemma TextRunsMerge(a: string, b: string)
    requires a + b != ""
    ensures Tokens([TextSegment(a), TextSegment(b)]) == [Plain(a + b)]
  {
    var s := [TextSegment(a), TextSegment(b)];
    assert s[1..] == [TextSegment(b)];
    assert s[1..][1..] == [];
    assert Coalesce(s[1..], "" + a) == Coalesce([], "" + a + b);
    assert "" + a + b == a + b;
  }
}

=== FILE: papi.dfy ===
/**
 * Placeholder expansion (easybot_mcdr/impl/papi.py): `%name%` placeholders are
 * found left to right, and only `%player_name%` (in any letter case) is
 * replaced, by the player's name.
 */
module Papi {
  import opened Wrappers
  import opened Json
  import Text
  import opened Host

  const PlayerNamePlaceholder := "%player_name%"

  /** `%`, one or more word characters, `%`. */
  predicate IsPlaceholder(p: string) {
    |p| >= 3 && p[0] == '%' && p[|p| - 1] == '%' && forall k :: 0 < k < |p| - 1 ==> Text.IsWordChar(p[k])
  }

  /** The end of a `%\w+%` match starting at `i`, if there is one. */
  function PlaceholderAt(text: string, i: nat): (r: Option<nat>)
    requires i <= |text|
    ensures r.Some? ==> i < r.value <= |text| && IsPlaceholder(text[i..r.value])
  {
    if i < |text| && text[i] == '%' then
      var e := Text.WordEnd(text, i + 1);
      if e > i + 1 && e < |text| && text[e] == '%' then Some(e + 1) else None
    else None
  }

  /** Where `PlaceholderAt` finds nothing, no placeholder starts. */
  lemma NoPlaceholderAt(text: string, i: nat)
    requires i <= |text| && PlaceholderAt(text, i).None?
    ensures forall e :: i < e <= |text| ==> !IsPlaceholder(text[i..e])
  {
  }

  /** The spans `re.findall` matches from `from` on: after a match it resumes past its closing `%`. */
  function Scan(text: string, from: nat): (r: seq<(nat, nat)>)
    requires from <= |text|
    decreases |text| - from
    ensures forall k :: 0 <= k < |r| ==> from <= r[k].0 < r[k].1 <= |text| && PlaceholderAt(text, r[k].0) == Some(r[k].1)
    ensures forall k :: 0 <= k < |r| - 1 ==> r[k].1 <= r[k + 1].0
  {
    if from == |text| then []
    else match PlaceholderAt(text, from)
      case Some(e) =>
        var rest := Scan(text, e);
        ConsSpan(text, from, e, rest);
        [(from, e)] + rest
      case None => Scan(text, from + 1)
  }

  /** A match put in front of the later ones keeps them ordered and in bounds. */
  lemma ConsSpan(text: string, from: nat, e: nat, rest: seq<(nat, nat)>)
    requires from < e <= |text| && PlaceholderAt(text, from) == Some(e)
    requires forall k :: 0 <= k < |rest| ==> e <= rest[k].0 < rest[k].1 <= |text| && PlaceholderAt(text, rest[k].0) == Some(rest[k].1)
    requires forall k :: 0 <= k < |rest| - 1 ==> rest[k].1 <= rest[k + 1].0
    ensures var r := [(from, e)] + rest;
      && (forall k :: 0 <= k < |r| ==> from <= r[k].0 < r[k].1 <= |text| && PlaceholderAt(text, r[k].0) == Some(r[k].1))
      && (forall k :: 0 <= k < |r| - 1 ==> r[k].1 <= r[k + 1].0)
  {
    var r := [(from, e)] + rest;
    assert forall k :: 1 <= k < |r| ==> r[k] == rest[k - 1];
  }

  /** Some span of `spans` contains position `i`. */
  ghost predicate Covered(spans: seq<(nat, nat)>, i: nat) {
    exists k :: 0 <= k < |spans| && spans[k].0 <= i < spans[k].1
  }

  /** Nothing is skipped: every position where a placeholder starts lies inside some matched span. */
  lemma {:induction false} ScanCovers(text: string, from: nat, i: nat)
    requires from <= i <= |text| && PlaceholderAt(text, i).Some?
    ensures Covered(Scan(text, from), i)
    decreases |text| - from
  {
    if from < |text| {
      match PlaceholderAt(text, from)
      case Some(e) =>
        var rest := Scan(text, e);
        assert Scan(text, from) == [(from, e)] + rest;
        if e <= i {
          ScanCovers(text, e, i);
        }
        CoveredCons((from, e), rest, i);
      case None =>
        assert i != from;
        ScanCovers(text, from + 1, i);
    }
  }

  /** A span put in front covers what it contains and whatever the rest covers. */
  lemma CoveredCons(span: (nat, nat), rest: seq<(nat, nat)>, i: nat)
    requires span.0 <= i < span.1 || Covered(rest, i)
    ensures Covered([span] + rest, i)
  {
    var r := [span] + rest;
    if span.0 <= i < span.1 {
      assert r[0] == span;
    } else {
      var k :| 0 <= k < |rest| && rest[k].0 <= i < rest[k].1;
      assert r[k + 1] == rest[k];
    }
  }

  /** `get_placeholders`: the matched placeholders, in order. */
  function Placeholders(text: string): (r: seq<string>)
    ensures forall k :: 0 <= k < |r| ==> IsPlaceholder(r[k]) && Text.Contains(text, r[k])
  {
    Slices(text, Scan(text, 0))
  }

  function Slices(text: string, spans: seq<(nat, nat)>): (r: seq<string>)
    requires forall k :: 0 <= k < |spans| ==> spans[k].0 < spans[k].1 <= |text| && IsPlaceholder(text[spans[k].0..spans[k].1])
    ensures |r| == |spans|
    ensures forall k :: 0 <= k < |r| ==> r[k] == text[spans[k].0..spans[k].1] && IsPlaceholder(r[k]) && Text.Contains(text, r[k])
  {
    if |spans| == 0 then []
    else
      var (a, b) := spans[0];
      assert Text.OccursAt(text, text[a..b], a);
      [text[a..b]] + Slices(text, spans[1..])
  }

  /** Text without a `%` holds no placeholder. */
  lemma NoPercentNoPlaceholders(text: string)
    requires '%' !in text
    ensures Placeholders(text) == []
  {
  }

  /** The supported spelling: `%player_name%` ignoring letter case. */
  predicate IsPlayerName(p: string) {
    Text.Lower(p) == PlayerNamePlaceholder
  }

  /** The keys of `dataList`: the supported placeholders, each once, in order of first appearance. */
  function SupportedKeys(ps: seq<string>): (r: seq<string>)
    ensures forall x :: x in r <==> x in ps && IsPlayerName(x)
    ensures forall i, j :: 0 <= i < j < |r| ==> r[i] != r[j]
  {
    if |ps| == 0 then []
    else
      var keys := SupportedKeys(ps[..|ps| - 1]);
      var last := ps[|ps| - 1];
      assert forall x :: x in ps <==> x in ps[..|ps| - 1] || x == last by {
        assert ps == ps[..|ps| - 1] + [last];
      }
      if IsPlayerName(last) && last !in keys then keys + [last] else keys
  }

  /** The second loop of `run_placeholder`: each key replaced, in order, in the text the previous ones left. */
  function ReplaceEach(text: string, keys: seq<string>, player: string): string
    decreases |keys|
  {
    if |keys| == 0 then text else ReplaceEach(Text.ReplaceAll(text, keys[0], player), keys[1..], player)
  }

  /** `run_placeholder(player, text)`. */
  function RunPlaceholder(player: string, text: string): (r: string)
    ensures SupportedKeys(Placeholders(text)) == [] ==> r == text
  {
    ReplaceEach(text, SupportedKeys(Placeholders(text)), player)
  }

  /**
   * One step of the second loop: cut the text at every occurrence of the
   * first key, found left to right without overlap, and join the pieces with
   * the player's name; the later keys then work on that.
   */
  lemma ReplaceEachFirst(text: string, keys: seq<string>, player: string)
    requires |keys| > 0 && |keys[0]| > 0
    ensures var parts := Text.SplitOn(text, keys[0]);
      && Text.JoinWith(parts, keys[0]) == text
      && (forall k :: 0 <= k < |parts| ==> !Text.Contains(parts[k], keys[0]))
      && ReplaceEach(text, keys, player) == ReplaceEach(Text.JoinWith(parts, player), keys[1..], player)
  {
    Text.ReplaceIsSplitJoin(text, keys[0], player);
  }

  /** A supported placeholder is never empty. */
  lemma PlayerNameLength(p: string)
    requires IsPlayerName(p)
    ensures |p| == |PlayerNamePlaceholder|
  {
  }

  /**
   * With one supported spelling in the text, every occurrence of it is
   * replaced by the player's name and nothing else changes: the text is that
   * spelling joining pieces that do not hold it, and the result is the same
   * pieces joined by the name.
   */
  lemma RunPlaceholderOneKey(player: string, text: string)
    requires |SupportedKeys(Placeholders(text))| == 1
    ensures var key := SupportedKeys(Placeholders(text))[0];
      IsPlayerName(key) && key in Placeholders(text) && |key| == |PlayerNamePlaceholder|
    ensures var key := SupportedKeys(Placeholders(text))[0];
      var parts := Text.SplitOn(text, key);
      && Text.JoinWith(parts, key) == text
      && (forall k :: 0 <= k < |parts| ==> !Text.Contains(parts[k], key))
      && RunPlaceholder(player, text) == Text.JoinWith(parts, player)
  {
    var keys := SupportedKeys(Placeholders(text));
    assert keys[0] in keys;
    PlayerNameLength(keys[0]);
    ReplaceEachFirst(text, keys, player);
  }

  /** Text without a supported placeholder comes back unchanged, whatever other placeholders it holds. */
  lemma UnsupportedLeftAlone(player: string, text: string)
    requires forall p | p in Placeholders(text) :: !IsPlayerName(p)
    ensures RunPlaceholder(player, text) == text
  {
    NoneSupported(Placeholders(text));
  }

  lemma {:induction false} NoneSupported(ps: seq<string>)
    requires forall p | p in ps :: !IsPlayerName(p)
    ensures SupportedKeys(ps) == []
  {
    if |ps| > 0 {
      NoneSupported(ps[..|ps| - 1]);
      assert ps[|ps| - 1] in ps;
    }
  }

  /** The placeholder alone becomes the player's name. */
  lemma PlaceholderAlone(player: string)
    ensures RunPlaceholder(player, PlayerNamePlaceholder) == player
  {
    var t := PlayerNamePlaceholder;
    PlaceholderAloneFound();
    PlaceholderAloneSupported();
    assert ReplaceEach(t, [t], player) == ReplaceEach(Text.ReplaceAll(t, t, player), [], player);
    Text.ReplaceWhole(t, player);
  }

  lemma PlaceholderAloneSupported()
    ensures SupportedKeys([PlayerNamePlaceholder]) == [PlayerNamePlaceholder]
  {
    var t := PlayerNamePlaceholder;
    PlaceholderIsLower();
    var none: seq<string> := [];
    assert [t][..0] == none;
    assert SupportedKeys(none) == none;
  }

  lemma PlaceholderIsLower()
    ensures IsPlayerName(PlayerNamePlaceholder)
  {
    var t := PlayerNamePlaceholder;
    forall i | 0 <= i < |t| ensures !('A' <= t[i] <= 'Z') {
    }
    Text.LowerKeeps(t);
  }

  lemma PlaceholderAloneFound()
    ensures Placeholders(PlayerNamePlaceholder) == [PlayerNamePlaceholder]
  {
    var t := PlayerNamePlaceholder;
    WordEndAt(t, 1, |t| - 1);
    assert PlaceholderAt(t, 0) == Some(|t|);
    assert Scan(t, 0) == [(0, |t|)];
    assert t[0..|t|] == t;
  }

  lemma {:induction false} WordEndAt(s: string, j: nat, e: nat)
    requires j <= e < |s|
    requires forall k :: j <= k < e ==> Text.IsWordChar(s[k])
    requires !Text.IsWordChar(s[e])
    ensures Text.WordEnd(s, j) == e
    decreases e - j
  {
    if j < e {
      WordEndAt(s, j + 1, e);
    }
  }

  // ---------------------------------------------------------------- PLACEHOLDER_API_QUERY

  const NotSerializable := "TypeError: Object of type coroutine is not JSON serializable"

  /**
   * `on_placeholder_api_query` as written: `run_placeholder` is called without
   * `await` (and with its arguments swapped), so the answer holds a coroutine
   * and building the answer frame raises before anything is sent.
   */
  function PlaceholderQueryAsWritten(data: Frame): (r: Outcome)
    ensures r.effects == [] && r.raised.Some?
  {
    if "player_name" !in data then Outcome([], Some("KeyError: 'player_name'"))
    else if "query_text" !in data then Outcome([], Some("KeyError: 'query_text'"))
    else Outcome([], Some(NotSerializable))
  }

  /**
   * `on_placeholder_api_query` as evidently intended: one answer with the
   * query text expanded for the named player. A non-string text raises in
   * the scan; a non-string name raises only when there is something to
   * replace.
   */
  function PlaceholderQuery(data: Frame): (r: Outcome)
    ensures GetStr(data, "query_text").Ok? && GetStr(data, "player_name").Ok? ==>
              r == Outcome([Respond(map["success" := JBool(true),
                                        "text" := JStr(RunPlaceholder(GetStr(data, "player_name").value, GetStr(data, "query_text").value))])], None)
    ensures r.raised.None? ==> |r.effects| == 1 && r.effects[0].Respond?
    ensures r.raised.Some? ==> r.effects == []
  {
    if "player_name" !in data then Outcome([], Some("KeyError: 'player_name'"))
    else match GetStr(data, "query_text")
      case Err(e) => Outcome([], Some(e))
      case Ok(text) =>
        if SupportedKeys(Placeholders(text)) == [] then
          Outcome([Respond(map["success" := JBool(true), "text" := JStr(text)])], None)
        else match GetStr(data, "player_name")
          case Err(e) => Outcome([], Some(e))
          case Ok(player) =>
            Outcome([Respond(map["success" := JBool(true), "text" := JStr(RunPlaceholder(player, text))])], None)
  }

  /** As written, a well-formed query is never answered; with the call fixed it is answered exactly once. */
  lemma QueryNeverAnswered(data: Frame)
    requires GetStr(data, "query_text").Ok? && GetStr(data, "player_name").Ok?
    ensures PlaceholderQueryAsWritten(data).effects == []
    ensures |PlaceholderQuery(data).effects| == 1
  {
  }
}

=== FILE: player.dfy ===
/**
 * The player cache (easybot_mcdr/api/player.py): who is online, which UUID
 * each name has, and every player seen since the server last stopped, kept up
 * to date from MCDReforged's join, leave, stop and console-line events.
 */
module Players {
  import opened Wrappers
  import Text
  import Dicts
  import opened Json

  datatype PlayerInfo = PlayerInfo(ip: string, name: string, uuid: string)

  /** `online_players` (in join order), `uuid_map` and `cached_data`. */
  datatype Cache = Cache(online: Dicts.Dict<PlayerInfo>, uuids: map<string, string>, cached: Dicts.Dict<PlayerInfo>)

  const Empty := Cache([], map[], [])

  /** `is_bot_player`: the name starts with `Bot_`, `BOT_` or `bot_` (case-sensitive). */
  function IsBot(player: string): (r: bool)
    ensures r <==> |player| >= 4 && player[3] == '_' && player[..3] in {"Bot", "BOT", "bot"}
  {
    BotPrefix(player, "Bot_");
    BotPrefix(player, "BOT_");
    BotPrefix(player, "bot_");
    assert "Bot_"[..3] == "Bot" && "BOT_"[..3] == "BOT" && "bot_"[..3] == "bot";
    Text.StartsWith(player, "Bot_") || Text.StartsWith(player, "BOT_") || Text.StartsWith(player, "bot_")
  }

  lemma BotPrefix(player: string, prefix: string)
    requires |prefix| == 4
    ensures Text.StartsWith(player, prefix) <==> |player| >= 4 && player[..3] == prefix[..3] && player[3] == prefix[3]
  {
    if |player| >= 4 {
      assert player[..4] == player[..3] + [player[3]];
      assert prefix == prefix[..3] + [prefix[3]];
    }
  }

  // ---------------------------------------------------------------- the IP of a join line

  const DefaultIp := "127.0.0.1"

  /** Decimal digits with exactly three single dots between them: what `\d+\.\d+\.\d+\.\d+` matches. */
  predicate IsDottedQuad(t: string) {
    exists a: nat, b: nat, c: nat | 0 < a < b - 1 && b < c - 1 && c < |t| - 1 ::
      t[a] == '.' && t[b] == '.' && t[c] == '.'
      && (forall k :: 0 <= k < |t| && k != a && k != b && k != c ==> Text.IsDigit(t[k]))
  }

  /** The end of a `\d+\.\d+\.\d+\.\d+` match starting at `i`, each `\d+` taking the longest run. */
  function QuadAt(s: string, i: nat): (r: Option<nat>)
    requires i <= |s|
    ensures r.Some? ==> i < r.value <= |s|
  {
    var a := Text.DigitEnd(s, i);
    if a == i || a == |s| || s[a] != '.' then None
    else
      var b := Text.DigitEnd(s, a + 1);
      if b == a + 1 || b == |s| || s[b] != '.' then None
      else
        var c := Text.DigitEnd(s, b + 1);
        if c == b + 1 || c == |s| || s[c] != '.' then None
        else
          var d := Text.DigitEnd(s, c + 1);
          if d == c + 1 then None else Some(d)
  }

  /** What `QuadAt` matches is a dotted quad. */
  lemma QuadAtShape(s: string, i: nat)
    requires i <= |s| && QuadAt(s, i).Some?
    ensures IsDottedQuad(s[i..QuadAt(s, i).value])
  {
    var a := Text.DigitEnd(s, i);
    var b := Text.DigitEnd(s, a + 1);
    var c := Text.DigitEnd(s, b + 1);
    var d := Text.DigitEnd(s, c + 1);
    assert QuadAt(s, i) == Some(d);
    QuadShape(s, i, a, b, c, d);
  }

  /** Digits from `i` to `d` but at three dots, none of them first, last or next to another. */
  lemma QuadShape(s: string, i: nat, a: nat, b: nat, c: nat, d: nat)
    requires i < a < b - 1 && b < c - 1 && c < d - 1 && d <= |s|
    requires s[a] == '.' && s[b] == '.' && s[c] == '.'
    requires forall k :: i <= k < a ==> Text.IsDigit(s[k])
    requires forall k :: a + 1 <= k < b ==> Text.IsDigit(s[k])
    requires forall k :: b + 1 <= k < c ==> Text.IsDigit(s[k])
    requires forall k :: c + 1 <= k < d ==> Text.IsDigit(s[k])
    ensures IsDottedQuad(s[i..d])
  {
    var t := s[i..d];
    forall k | 0 <= k < |t| && k != a - i && k != b - i && k != c - i
      ensures Text.IsDigit(t[k])
    {
      assert t[k] == s[i + k];
    }
    assert t[a - i] == '.' && t[b - i] == '.' && t[c - i] == '.';
  }

  /** `re.search`: the leftmost start at or after `from` where the pattern matches, with the match's end. */
  function FindQuad(s: string, from: nat): (r: Option<(nat, nat)>)
    requires from <= |s|
    decreases |s| - from
    ensures r.Some? ==> from <= r.value.0 <= |s| && QuadAt(s, r.value.0) == Some(r.value.1)
  {
    match QuadAt(s, from)
    case Some(e) => Some((from, e))
    case None => if from == |s| then None else FindQuad(s, from + 1)
  }

  /** The search skips no match: none starts before the one found, and none at all when nothing is found. */
  lemma {:induction false} FindQuadLeftmost(s: string, from: nat, i: nat)
    requires from <= i <= |s| && QuadAt(s, i).Some?
    ensures FindQuad(s, from).Some? && FindQuad(s, from).value.0 <= i
    decreases i - from
  {
    if QuadAt(s, from).None? {
      assert from < i;
      FindQuadLeftmost(s, from + 1, i);
    }
  }

  /** The IP recorded for a join: the first dotted quad in the console line, else `127.0.0.1`. */
  function ExtractIp(raw: string): (r: string)
    ensures IsDottedQuad(r)
    ensures r == DefaultIp || Text.Contains(raw, r)
    ensures forall j :: 0 <= j <= |raw| && QuadAt(raw, j).Some? && NoQuadBefore(raw, j) ==>
              r == raw[j..QuadAt(raw, j).value]
    ensures (forall j :: 0 <= j <= |raw| ==> QuadAt(raw, j).None?) ==> r == DefaultIp
  {
    match FindQuad(raw, 0)
    case Some((i, e)) =>
      IpFound(raw, i, e);
      FirstQuadIsFound(raw, i, e);
      raw[i..e]
    case None =>
      DefaultIsQuad();
      NoQuadFound(raw);
      DefaultIp
  }

  /** No dotted quad starts before `j`. */
  predicate NoQuadBefore(raw: string, j: nat)
    requires j <= |raw|
  {
    forall k :: 0 <= k < j ==> QuadAt(raw, k).None?
  }

  /** The match the search finds is the only one with no match before it. */
  lemma FirstQuadIsFound(raw: string, i: nat, e: nat)
    requires FindQuad(raw, 0) == Some((i, e))
    ensures forall j :: 0 <= j <= |raw| && QuadAt(raw, j).Some? && NoQuadBefore(raw, j) ==> j == i
  {
    forall j | 0 <= j <= |raw| && QuadAt(raw, j).Some? && NoQuadBefore(raw, j)
      ensures j == i
    {
      FindQuadLeftmost(raw, 0, j);
    }
  }

  /** A search that finds nothing leaves no match anywhere. */
  lemma NoQuadFound(raw: string)
    requires FindQuad(raw, 0).None?
    ensures forall j :: 0 <= j <= |raw| ==> QuadAt(raw, j).None?
  {
    forall j | 0 <= j <= |raw|
      ensures QuadAt(raw, j).None?
    {
      if QuadAt(raw, j).Some? {
        FindQuadLeftmost(raw, 0, j);
      }
    }
  }

  lemma IpFound(raw: string, i: nat, e: nat)
    requires i <= |raw| && QuadAt(raw, i) == Some(e)
    ensures e <= |raw| && IsDottedQuad(raw[i..e]) && Text.Contains(raw, raw[i..e])
  {
    QuadAtShape(raw, i);
    assert Text.OccursAt(raw, raw[i..e], i);
  }

  lemma DefaultIsQuad()
    ensures IsDottedQuad(DefaultIp)
  {
    var t := DefaultIp;
    assert t[3] == '.' && t[5] == '.' && t[7] == '.';
    assert forall k :: 0 <= k < |t| && k != 3 && k != 5 && k != 7 ==> Text.IsDigit(t[k]);
  }

  // ---------------------------------------------------------------- UUIDs

  const UuidPrefix := "UUID of player "
  const UuidInfix := " is "

  /** Positions 8, 13, 18 and 23 of the textual form of section 3 of RFC 4122 hold hyphens. */
  predicate HyphenAt(k: int) {
    k == 8 || k == 13 || k == 18 || k == 23
  }

  /** `[0-9a-fA-F]{8}-(?:[0-9a-fA-F]{4}-){3}[0-9a-fA-F]{12}` */
  predicate UuidShape(u: string) {
    |u| == 36 && forall k :: 0 <= k < 36 ==> if HyphenAt(k) then u[k] == '-' else Text.IsHexDigit(u[k])
  }

  /** A UUID pattern match whose hexadecimal digits are lower-case. */
  predicate LowerUuid(u: string) {
    UuidShape(u) && forall k :: 0 <= k < 36 ==> !('A' <= u[k] <= 'Z')
  }

  /** `UUID of player (\w+) is (<uuid>)` matched at `i`: the name and the lower-cased UUID. */
  function UuidAt(s: string, i: nat): (r: Option<(string, string)>)
    requires i <= |s|
    ensures r.Some? ==> |r.value.0| > 0 && (forall k :: 0 <= k < |r.value.0| ==> Text.IsWordChar(r.value.0[k]))
    ensures r.Some? ==> LowerUuid(r.value.1)
  {
    if !Text.OccursAt(s, UuidPrefix, i) then None else UuidAfter(s, i + |UuidPrefix|)
  }

  /** The name, `is` and the UUID after `UUID of player ` ends at `j`. */
  function UuidAfter(s: string, j: nat): (r: Option<(string, string)>)
    requires j <= |s|
    ensures r.Some? ==> |r.value.0| > 0 && (forall k :: 0 <= k < |r.value.0| ==> Text.IsWordChar(r.value.0[k]))
    ensures r.Some? ==> LowerUuid(r.value.1)
  {
    var e := Text.WordEnd(s, j);
    if e == j || !Text.OccursAt(s, UuidInfix, e) then None
    else
      var u := e + |UuidInfix|;
      if u + 36 > |s| || !UuidShape(s[u..u + 36]) then None
      else
        var lowered := Text.Lower(s[u..u + 36]);
        assert LowerUuid(lowered) by {
          forall k | 0 <= k < 36 ensures !('A' <= lowered[k] <= 'Z') {
            assert lowered[k] == Text.LowerChar(s[u..u + 36][k]);
          }
        }
        Some((s[j..e], lowered))
  }

  function FindUuid(s: string, from: nat): (r: Option<(string, string)>)
    requires from <= |s|
    decreases |s| - from
    ensures r.Some? ==> MatchedFrom(s, from, r.value)
    ensures r.None? ==> NoMatchFrom(s, from)
  {
    match UuidAt(s, from)
    case Some(p) => Some(p)
    case None => if from == |s| then None else FindUuid(s, from + 1)
  }

  /** Some match at or after `from` gives `p`. */
  ghost predicate MatchedFrom(s: string, from: nat, p: (string, string)) {
    exists i :: from <= i <= |s| && UuidAt(s, i) == Some(p)
  }

  /** No match starts at or after `from`. */
  ghost predicate NoMatchFrom(s: string, from: nat) {
    forall i :: from <= i <= |s| ==> UuidAt(s, i).None?
  }

  /**
   * `on_stdout`: a console line announcing a player's UUID records it,
   * lower-cased, under the name; any other line changes nothing.
   */
  function OnStdout(c: Cache, raw: string): (r: Cache)
    ensures r.online == c.online && r.cached == c.cached
    ensures forall n :: n in r.uuids && (n !in c.uuids || r.uuids[n] != c.uuids[n]) ==>
              LowerUuid(r.uuids[n]) && exists i :: 0 <= i <= |raw| && UuidAt(raw, i) == Some((n, r.uuids[n]))
    ensures c.uuids.Keys <= r.uuids.Keys
  {
    match FindUuid(raw, 0)
    case Some((name, uuid)) => c.(uuids := c.uuids[name := uuid])
    case None => c
  }

  /** The announcement MCDReforged shows for a login is recognised wherever it starts, if nothing earlier matches. */
  lemma UuidLineRecognised(pre: string, name: string, uuid: string, post: string)
    requires |name| > 0 && forall k :: 0 <= k < |name| ==> Text.IsWordChar(name[k])
    requires UuidShape(uuid)
    requires var line := pre + UuidPrefix + name + UuidInfix + uuid + post;
      forall i :: 0 <= i < |pre| ==> UuidAt(line, i).None?
    ensures FindUuid(pre + UuidPrefix + name + UuidInfix + uuid + post, 0) == Some((name, Text.Lower(uuid)))
  {
    var line := pre + UuidPrefix + name + UuidInfix + uuid + post;
    var i := |pre|;
    var j := i + |UuidPrefix|;
    var e := j + |name|;
    assert line[i..j] == UuidPrefix;
    assert line[j..e] == name;
    assert line[e] == ' ';
    assert Text.WordEnd(line, j) == e by {
      WordEndOf(line, j, e);
    }
    assert line[e..e + 4] == UuidInfix;
    assert line[e + 4..e + 40] == uuid;
    assert UuidAt(line, i) == Some((name, Text.Lower(uuid)));
    FindUuidFirst(line, 0, i);
  }

  lemma {:induction false} WordEndOf(s: string, j: nat, e: nat)
    requires j <= e < |s|
    requires forall k :: j <= k < e ==> Text.IsWordChar(s[k])
    requires !Text.IsWordChar(s[e])
    ensures Text.WordEnd(s, j) == e
    decreases e - j
  {
    if j < e {
      WordEndOf(s, j + 1, e);
    }
  }

  lemma {:induction false} FindUuidFirst(s: string, from: nat, i: nat)
    requires from <= i <= |s| && UuidAt(s, i).Some?
    requires forall k :: from <= k < i ==> UuidAt(s, k).None?
    ensures FindUuid(s, from) == UuidAt(s, i)
    decreases i - from
  {
    if from < i {
      assert UuidAt(s, from).None?;
      FindUuidSkips(s, from);
      FindUuidFirst(s, from + 1, i);
    } else {
      FindUuidHit(s, i);
    }
  }

  lemma FindUuidSkips(s: string, from: nat)
    requires from < |s| && UuidAt(s, from).None?
    ensures FindUuid(s, from) == FindUuid(s, from + 1)
  {
  }

  lemma FindUuidHit(s: string, from: nat)
    requires from <= |s| && UuidAt(s, from).Some?
    ensures FindUuid(s, from) == UuidAt(s, from)
  {
  }

  /** Python slicing `s[a:b]` for `0 <= a <= b`: clamped to the string. */
  function Slice(s: string, a: nat, b: nat): (r: string)
    requires a <= b
    ensures |r| <= b - a
    ensures forall k :: 0 <= k < |r| ==> r[k] in s
  {
    if a >= |s| then [] else if b >= |s| then s[a..] else s[a..b]
  }

  /** `f"{id[:8]}-{id[8:12]}-{id[12:16]}-{id[16:20]}-{id[20:]}"` */
  function Hyphenate(id: string): (r: string)
    ensures |id| == 32 ==> |r| == 36
  {
    Slice(id, 0, 8) + "-" + Slice(id, 8, 12) + "-" + Slice(id, 12, 16) + "-" + Slice(id, 16, 20) + "-"
    + Slice(id, 20, if |id| < 20 then 20 else |id|)
  }

  /** A Mojang id of 32 hexadecimal digits becomes the textual form of section 3 of RFC 4122. */
  lemma HyphenateShape(id: string)
    requires |id| == 32 && forall k :: 0 <= k < 32 ==> Text.IsHexDigit(id[k])
    ensures UuidShape(Hyphenate(id))
  {
    assert Hyphenate(id) == id[0..8] + "-" + id[8..12] + "-" + id[12..16] + "-" + id[16..20] + "-" + id[20..32];
    GroupsShape(id[0..8], id[8..12], id[12..16], id[16..20], id[20..32]);
  }

  /** Every character is a hexadecimal digit. */
  predicate AllHex(s: string) {
    forall k :: 0 <= k < |s| ==> Text.IsHexDigit(s[k])
  }

  /** Hexadecimal groups of 8, 4, 4, 4 and 12 digits joined by hyphens have the UUID shape. */
  lemma GroupsShape(a: string, b: string, c: string, d: string, e: string)
    requires |a| == 8 && |b| == 4 && |c| == 4 && |d| == 4 && |e| == 12
    requires AllHex(a) && AllHex(b) && AllHex(c) && AllHex(d) && AllHex(e)
    ensures UuidShape(a + "-" + b + "-" + c + "-" + d + "-" + e)
  {
    var g1 := a + "-";
    var g2 := g1 + b + "-";
    var g3 := g2 + c + "-";
    var g4 := g3 + d + "-";
    var u := g4 + e;
    assert u == a + "-" + b + "-" + c + "-" + d + "-" + e;
    forall k | 0 <= k < 36 ensures if HyphenAt(k) then u[k] == '-' else Text.IsHexDigit(u[k]) {
      if k >= 24 {
        assert u[k] == e[k - 24];
      } else if k >= 19 {
        assert u[k] == g4[k];
      } else if k >= 14 {
        assert u[k] == g4[k] == g3[k];
      } else if k >= 9 {
        assert u[k] == g4[k] == g3[k] == g2[k];
      } else {
        assert u[k] == g4[k] == g3[k] == g2[k] == g1[k];
      }
    }
  }

  /** The string without its hyphens. */
  function Unhyphenate(s: string): (r: string) {
    if |s| == 0 then [] else (if s[0] == '-' then [] else [s[0]]) + Unhyphenate(s[1..])
  }

  lemma {:induction false} UnhyphenateAppend(a: string, b: string)
    ensures Unhyphenate(a + b) == Unhyphenate(a) + Unhyphenate(b)
  {
    if |a| > 0 {
      assert (a + b)[1..] == a[1..] + b;
      UnhyphenateAppend(a[1..], b);
    } else {
      assert a + b == b;
    }
  }

  lemma {:induction false} UnhyphenatePlain(s: string)
    requires '-' !in s
    ensures Unhyphenate(s) == s
  {
    if |s| > 0 {
      UnhyphenatePlain(s[1..]);
      assert s == [s[0]] + s[1..];
    }
  }

  lemma {:induction false} UnhyphenateDash(a: string, b: string)
    ensures Unhyphenate(a + "-" + b) == Unhyphenate(a) + Unhyphenate(b)
  {
    UnhyphenateAppend(a + "-", b);
    UnhyphenateAppend(a, "-");
    assert Unhyphenate("-") == [];
  }

  lemma SliceJoin(s: string, a: nat, b: nat, c: nat)
    requires a <= b <= c
    ensures Slice(s, a, b) + Slice(s, b, c) == Slice(s, a, c)
  {
  }

  /** Dropping the hyphens again gives back any id that has none, whatever its length. */
  lemma HyphenateRoundTrip(id: string)
    requires '-' !in id
    ensures Unhyphenate(Hyphenate(id)) == id
  {
    var end := if |id| < 20 then 20 else |id|;
    var p1, p2, p3, p4, p5 := Slice(id, 0, 8), Slice(id, 8, 12), Slice(id, 12, 16), Slice(id, 16, 20), Slice(id, 20, end);
    SliceJoin(id, 0, 8, 12);
    SliceJoin(id, 0, 12, 16);
    SliceJoin(id, 0, 16, 20);
    SliceJoin(id, 0, 20, end);
    assert Slice(id, 0, end) == id;
    UnhyphenatePlain(p1);
    UnhyphenatePlain(p2);
    UnhyphenatePlain(p3);
    UnhyphenatePlain(p4);
    UnhyphenatePlain(p5);
    UnhyphenateDash(p1 + "-" + p2 + "-" + p3 + "-" + p4, p5);
    UnhyphenateDash(p1 + "-" + p2 + "-" + p3, p4);
    UnhyphenateDash(p1 + "-" + p2, p3);
    UnhyphenateDash(p1, p2);
  }

  // ---------------------------------------------------------------- join, leave, stop

  const Unknown := "unknown"

  /**
   * `on_player_joined` as evidently intended. `onlineMode` is the server's
   * online mode and `lookup` the id Mojang's profile service returns (none when
   * the request or its decoding fails). A bot changes nothing; otherwise the
   * same record goes under the name into both the online map and the cache.
   */
  function Join(c: Cache, player: string, raw: string, onlineMode: bool, lookup: Option<string>): (r: Cache)
    ensures IsBot(player) ==> r == c
    ensures !IsBot(player) ==>
              && Dicts.Get(r.online, player) == Dicts.Get(r.cached, player)
              && Dicts.Get(r.online, player).Some?
              && Dicts.Get(r.online, player).value.name == player
              && Dicts.Get(r.online, player).value.ip == ExtractIp(raw)
              && Dicts.Get(r.online, player).value.uuid == (if player in r.uuids then r.uuids[player] else Unknown)
    ensures player in c.uuids ==> r.uuids == c.uuids
    ensures !IsBot(player) && player !in c.uuids ==>
              r.uuids == (if onlineMode && lookup.Some? then c.uuids[player := Hyphenate(lookup.value)] else c.uuids)
    ensures forall p :: p != player ==>
              Dicts.Get(r.online, p) == Dicts.Get(c.online, p) && Dicts.Get(r.cached, p) == Dicts.Get(c.cached, p)
    ensures forall p :: p != player ==> (p in r.uuids <==> p in c.uuids) && (p in c.uuids ==> r.uuids[p] == c.uuids[p])
  {
    if IsBot(player) then c
    else
      var uuids :=
        if player in c.uuids || !onlineMode || lookup.None? then c.uuids
        else c.uuids[player := Hyphenate(lookup.value)];
      var uuid := if player in uuids then uuids[player] else Unknown;
      var info := PlayerInfo(ExtractIp(raw), player, uuid);
      Cache(Dicts.Set(c.online, player, info), uuids, Dicts.Set(c.cached, player, info))
  }

  /** `on_player_left`: a non-bot name leaves the online map (no error if absent); the cache keeps it. */
  function Leave(c: Cache, player: string): (r: Cache)
    ensures IsBot(player) ==> r == c
    ensures !IsBot(player) ==> Dicts.Get(r.online, player).None?
    ensures r.cached == c.cached && r.uuids == c.uuids
    ensures forall p :: p != player ==> Dicts.Get(r.online, p) == Dicts.Get(c.online, p)
  {
    if IsBot(player) then c else c.(online := Dicts.Remove(c.online, player))
  }

  /** `on_server_stop` as evidently intended: every collection empty again. */
  function Stop(c: Cache): (r: Cache)
    ensures forall p :: Dicts.Get(r.online, p).None? && Dicts.Get(r.cached, p).None? && p !in r.uuids
  {
    Empty
  }

  /**
   * `build_player_info`: the cached record wins over the online one; none
   * when the player is in neither. The skin URL is always empty and `bedrock`
   * always false.
   */
  function BuildPlayerInfo(c: Cache, player: string): (r: Option<Frame>)
    ensures r.None? <==> Dicts.Get(c.cached, player).None? && Dicts.Get(c.online, player).None?
    ensures Dicts.Get(c.cached, player).Some? ==> r == Some(InfoFrame(player, Dicts.Get(c.cached, player).value))
    ensures Dicts.Get(c.cached, player).None? && Dicts.Get(c.online, player).Some? ==>
              r == Some(InfoFrame(player, Dicts.Get(c.online, player).value))
  {
    match Dicts.Get(c.cached, player)
    case Some(info) => Some(InfoFrame(player, info))
    case None =>
      match Dicts.Get(c.online, player)
      case Some(info) => Some(InfoFrame(player, info))
      case None => None
  }

  /** The description of one player: name, UUID and IP from the record, no skin, not Bedrock. */
  function InfoFrame(player: string, info: PlayerInfo): (r: Frame)
    ensures r.Keys == {"player_name", "player_uuid", "ip", "skin_url", "bedrock"}
    ensures r["player_name"] == JStr(player) && r["player_uuid"] == JStr(info.uuid) && r["ip"] == JStr(info.ip)
    ensures r["skin_url"] == JStr("") && r["bedrock"] == JBool(false)
  {
    map["player_name" := JStr(player), "player_uuid" := JStr(info.uuid), "ip" := JStr(info.ip),
        "skin_url" := JStr(""), "bedrock" := JBool(false)]
  }

  /** A player who joined and then left is still described, from the cache, with the IP of the join line. */
  lemma LeftPlayerStillDescribed(c: Cache, player: string, raw: string, onlineMode: bool, lookup: Option<string>)
    requires !IsBot(player)
    ensures var after := Leave(Join(c, player, raw, onlineMode, lookup), player);
      !Dicts.Get(after.online, player).Some?
      && BuildPlayerInfo(after, player).Some?
      && BuildPlayerInfo(after, player).value["ip"] == JStr(ExtractIp(raw))
  {
    var joined := Join(c, player, raw, onlineMode, lookup);
    var after := Leave(joined, player);
    var info := Dicts.Get(joined.cached, player).value;
    assert info.ip == ExtractIp(raw);
    assert Dicts.Get(after.cached, player) == Some(info);
  }

  /** A UUID announced on the console before the join is the one recorded, whatever Mojang would say. */
  lemma AnnouncedUuidWins(c: Cache, line: string, player: string, raw: string, onlineMode: bool, lookup: Option<string>)
    requires !IsBot(player)
    requires FindUuid(line, 0).Some? && FindUuid(line, 0).value.0 == player
    ensures var joined := Join(OnStdout(c, line), player, raw, onlineMode, lookup);
      Dicts.Get(joined.online, player).value.uuid == FindUuid(line, 0).value.1
      && LowerUuid(Dicts.Get(joined.online, player).value.uuid)
  {
  }

  // ---------------------------------------------------------------- as written

  /**
   * The collections as the code leaves them: after `on_server_stop` the online
   * map and the cache are lists (only `uuid_map` is a dict again).
   */
  datatype Collections = Live(cache: Cache) | Stopped(uuids: map<string, string>)

  /** `on_server_stop` as written: whatever the state, the online map and the cache become lists and `uuid_map` empties. */
  function StopAsWritten(s: Collections): (r: Collections)
    ensures !r.Live? && |r.uuids| == 0
  {
    Stopped(map[])
  }

  const BoolCallError := "TypeError: 'bool' object is not callable"
  const ListIndexError := "TypeError: list indices must be integers or slices, not str"

  /** `on_stdout` as written: `uuid_map` is a dict in both shapes, so announcements are still recorded after a stop. */
  function OnStdoutAsWritten(s: Collections, raw: string): (r: Collections)
    ensures r.Live? <==> s.Live?
    ensures r.Stopped? ==> s.uuids.Keys <= r.uuids.Keys
    ensures r.Stopped? && FindUuid(raw, 0).Some? ==> FindUuid(raw, 0).value.0 in r.uuids
  {
    match s
    case Live(c) => Live(OnStdout(c, raw))
    case Stopped(u) =>
      match FindUuid(raw, 0)
      case Some((name, uuid)) => Stopped(u[name := uuid])
      case None => s
  }

  /**
   * `on_player_joined` as written. An unmapped non-bot name calls the imported
   * `is_online_mode`, a bool, which raises `TypeError`; after a stop, a mapped
   * name gets as far as storing into the online list, which raises `TypeError`
   * as well.
   */
  function JoinAsWritten(s: Collections, player: string, raw: string): (r: Result<Collections>)
    ensures IsBot(player) ==> r == Ok(s)
    ensures !IsBot(player) ==> (r.Ok? <==> s.Live? && player in s.cache.uuids)
    ensures !IsBot(player) && s.Stopped? && player in s.uuids ==> r == Err(ListIndexError)
    ensures !IsBot(player) && player !in (if s.Live? then s.cache.uuids else s.uuids) ==> r == Err(BoolCallError)
    ensures !IsBot(player) && r.Ok? ==> r.value == Live(Join(s.cache, player, raw, false, None))
  {
    if IsBot(player) then Ok(s)
    else match s
      case Stopped(u) => if player in u then Err(ListIndexError) else Err(BoolCallError)
      case Live(c) =>
        if player in c.uuids then Ok(Live(Join(c, player, raw, false, None)))
        else Err(BoolCallError)
  }

  /** Any non-bot player without an announced UUID makes the join handler raise, so they are never recorded. */
  lemma UnmappedJoinRaises(c: Cache, player: string, raw: string)
    requires !IsBot(player) && player !in c.uuids
    ensures JoinAsWritten(Live(c), player, raw) == Err(BoolCallError)
  {
  }

  /**
   * After a server stop, even a player whose UUID is announced again makes the
   * join raise, now at the store into the online list.
   */
  lemma JoinAfterStopRaises(s: Collections, line: string, player: string, raw: string)
    requires !IsBot(player)
    requires FindUuid(line, 0).Some? && FindUuid(line, 0).value.0 == player
    ensures var stopped := OnStdoutAsWritten(StopAsWritten(s), line);
      player in stopped.uuids && JoinAsWritten(stopped, player, raw) == Err(ListIndexError)
  {
  }

  /** With the intended stop, a later join is recorded again. */
  lemma JoinAfterStop(c: Cache, player: string, raw: string, onlineMode: bool, lookup: Option<string>)
    requires !IsBot(player)
    ensures Dicts.Get(Join(Stop(c), player, raw, onlineMode, lookup).online, player).Some?
  {
  }

  // ---------------------------------------------------------------- !!d list

  const NoPermission := "\U{A7}c你没有权限使用这个命令!"
  const ListHeader := "\U{A7}a在线玩家列表: "

  function PlayerLine(name: string, info: PlayerInfo): string {
    "\U{A7}a" + name + " \U{A7}eIP:" + info.ip + " \U{A7}6UUID:" + info.uuid
  }

  function PlayerLines(online: Dicts.Dict<PlayerInfo>): (r: seq<string>)
    ensures |r| == |online|
    ensures forall i :: 0 <= i < |online| ==> r[i] == PlayerLine(online[i].0, online[i].1)
  {
    if |online| == 0 then [] else [PlayerLine(online[0].0, online[0].1)] + PlayerLines(online[1..])
  }

  /** `list_player` as written: the refusal does not return, so the list follows it. */
  function ListAsWritten(permitted: bool, online: Dicts.Dict<PlayerInfo>): (r: seq<string>)
    ensures permitted ==> r == List(true, online)
    ensures !permitted ==> r == List(false, online) + List(true, online)
  {
    (if permitted then [] else [NoPermission]) + [ListHeader] + PlayerLines(online)
  }

  /** `list_player` as evidently intended: a sender below level 3 gets only the refusal. */
  function List(permitted: bool, online: Dicts.Dict<PlayerInfo>): (r: seq<string>)
    ensures !permitted ==> r == [NoPermission]
    ensures permitted ==> |r| == |online| + 1 && r[0] == ListHeader
    ensures permitted ==> forall i :: 0 <= i < |online| ==> r[i + 1] == PlayerLine(online[i].0, online[i].1)
  {
    if permitted then [ListHeader] + PlayerLines(online) else [NoPermission]
  }

  /** As written, a sender without permission still receives every online player's IP and UUID. */
  lemma ListLeaksToUnpermitted(online: Dicts.Dict<PlayerInfo>)
    ensures var replies := ListAsWritten(false, online);
      replies[0] == NoPermission && |replies| == |online| + 2
      && forall i :: 0 <= i < |online| ==> replies[i + 2] == PlayerLine(online[i].0, online[i].1)
  {
  }
}

=== FILE: player_list.dfy ===
/**
 * The `PLAYER_LIST` exec op (easybot_mcdr/impl/player_list.py): one answer
 * listing every online player with their uuid, ip and a skin address.
 */
module PlayerList {
  import opened Json
  import opened Host
  import opened Wrappers
  import Dicts
  import Players

  const MineskinPrefix := "https://mineskin.eu/download/"
  const DefaultSkin := "https://textures.minecraft.net/texture/eee522611005acf256dbd152e992c60c0bb7978cb0f3127807700e478ad97664"

  /** `try_get_skin`: only an online-mode server's names identify real skins. */
  function SkinUrl(name: string, onlineMode: bool): string {
    if onlineMode then MineskinPrefix + name else DefaultSkin
  }

  /** The list entry of one online player. */
  function Entry(name: string, info: Players.PlayerInfo, onlineMode: bool): Json {
    JObj(map["player_name" := JStr(name),
             "player_uuid" := JStr(info.uuid),
             "ip" := JStr(info.ip),
             "bedrock" := JBool(false),
             "skin_url" := JStr(SkinUrl(name, onlineMode))])
  }

  /** The entries, one per online player, in the dict's order. */
  function Entries(online: Dicts.Dict<Players.PlayerInfo>, onlineMode: bool): (r: seq<Json>)
    ensures |r| == |online|
    ensures forall i :: 0 <= i < |online| ==> r[i] == Entry(online[i].0, online[i].1, onlineMode)
  {
    if |online| == 0 then [] else [Entry(online[0].0, online[0].1, onlineMode)] + Entries(online[1..], onlineMode)
  }

  /** `on_get_player_list`: exactly one answer, `{"list": entries}`. */
  function OnPlayerList(online: Dicts.Dict<Players.PlayerInfo>, onlineMode: bool): (r: Outcome)
    ensures r.raised.None? && |r.effects| == 1 && r.effects[0].Respond?
    ensures r.effects[0].frame.Keys == {"list"} && r.effects[0].frame["list"].JArr?
    ensures |r.effects[0].frame["list"].items| == |online|
    ensures online == [] ==> r.effects[0].frame["list"] == JArr([])
  {
    Outcome([Respond(map["list" := JArr(Entries(online, onlineMode))])], None)
  }

  /**
   * The answer lists exactly the online players: each entry describes what the
   * player dict holds under its name, and each player the dict holds has an entry.
   */
  lemma ListedAreOnline(online: Dicts.Dict<Players.PlayerInfo>, onlineMode: bool)
    requires Dicts.Distinct(online)
    ensures var items := OnPlayerList(online, onlineMode).effects[0].frame["list"].items;
            forall i :: 0 <= i < |items| ==>
              Dicts.Get(online, online[i].0) == Some(online[i].1) && items[i] == Entry(online[i].0, online[i].1, onlineMode)
  {
    forall i | 0 <= i < |online| ensures Dicts.Get(online, online[i].0) == Some(online[i].1) {
      Dicts.GetAt(online, i);
    }
  }

  lemma OnlineAreListed(online: Dicts.Dict<Players.PlayerInfo>, onlineMode: bool, name: string)
    requires Dicts.Get(online, name).Some?
    ensures exists i :: 0 <= i < |online| && OnPlayerList(online, onlineMode).effects[0].frame["list"].items[i] == Entry(name, Dicts.Get(online, name).value, onlineMode)
  {
    Dicts.GetEntry(online, name);
    var i :| 0 <= i < |online| && online[i] == (name, Dicts.Get(online, name).value);
    var items := OnPlayerList(online, onlineMode).effects[0].frame["list"].items;
    assert items == Entries(online, onlineMode);
    assert items[i] == Entry(name, Dicts.Get(online, name).value, onlineMode);
  }

  /** Every entry is a Java player with the skin address the server's mode calls for. */
  lemma EntryShape(name: string, info: Players.PlayerInfo, onlineMode: bool)
    ensures var e := Entry(name, info, onlineMode).fields;
            e["bedrock"] == JBool(false) && e["player_uuid"] == JStr(info.uuid) && e["ip"] == JStr(info.ip)
    ensures onlineMode ==> Entry(name, info, onlineMode).fields["skin_url"] == JStr(MineskinPrefix + name)
    ensures !onlineMode ==> Entry(name, info, onlineMode).fields["skin_url"] == JStr(DefaultSkin)
  {
  }
}

=== FILE: plugin.dfy ===
/**
 * The plugin's own event listeners and commands (easybot_mcdr/main.py): kicks
 * and the list of players kicked over RCON, the join and leave reports, chat
 * forwarding, `!!bind` and `!!say`. The calls they make on the WebSocket
 * client (easybot_mcdr/websocket/ws.py:271-336) are the packets and requests
 * they emit; the answers to requests are inputs.
 */
module Plugin {
  import opened Wrappers
  import opened Json
  import Text
  import Players
  import opened Host

  const KickPrefix := "kick "
  const DefaultKickReason := "你已被踢出服务器"
  const ConsoleName := "CONSOLE"
  const ConsoleRejected := "\U{A7}c这个命令不能在控制台使用!"
  const SentPrefix := "\U{A7}a消息已发送: \U{A7}f"
  const NoneTypeError := "TypeError: 'NoneType' object is not subscriptable"

  // ---------------------------------------------------------------- kicks

  /** The reason `push_kick` shows: a missing or blank reason becomes the default text. */
  function KickReason(reason: Option<string>): (r: string)
    ensures Text.Strip(r) != ""
    ensures reason.Some? && Text.Strip(reason.value) != "" ==> r == reason.value
    ensures reason.None? || Text.Strip(reason.value) == "" ==> r == DefaultKickReason
  {
    if reason.None? || Text.Strip(reason.value) == "" then
      DefaultReasonStripped();
      DefaultKickReason
    else reason.value
  }

  lemma DefaultReasonStripped()
    ensures Text.Strip(DefaultKickReason) == DefaultKickReason != ""
  {
    assert DefaultKickReason[0] == '你' && DefaultKickReason[|DefaultKickReason| - 1] == '器';
    Text.StripStripped(DefaultKickReason);
  }

  /**
   * `push_kick`. Without RCON the console `kick` command can only carry the
   * reason's first line and the player is not remembered; over RCON the whole
   * reason is sent and the player is appended to `kick_map`.
   */
  function PushKick(kickMap: seq<string>, player: string, reason: Option<string>, rconRunning: bool)
    : (r: (seq<string>, seq<Effect>))
    ensures |r.1| == 1
    ensures !rconRunning ==> r.0 == kickMap && r.1[0] == Execute(KickPrefix + player + " " + Text.BeforeFirst(KickReason(reason), '\n'))
    ensures rconRunning ==> r.0 == kickMap + [player] && r.1[0] == RconQuery(JStr(KickPrefix + player + " " + KickReason(reason)))
  {
    var why := KickReason(reason);
    if rconRunning then (kickMap + [player], [RconQuery(JStr(KickPrefix + player + " " + why))])
    else (kickMap, [Execute(KickPrefix + player + " " + Text.BeforeFirst(why, '\n'))])
  }

  /** The command sent without RCON is one line, the first line of the reason. */
  lemma KickWithoutRconIsOneLine(kickMap: seq<string>, player: string, reason: Option<string>)
    requires '\n' !in player
    ensures var cmd := PushKick(kickMap, player, reason, false).1[0].command;
      && '\n' !in cmd
      && cmd == KickPrefix + player + " " + Text.BeforeFirst(KickReason(reason), '\n')
  {
    var first := Text.BeforeFirst(KickReason(reason), '\n');
    KickPrefixOneLine();
    NoNewline(KickPrefix, player);
    NoNewline(KickPrefix + player, " ");
    NoNewline(KickPrefix + player + " ", first);
  }

  lemma KickPrefixOneLine()
    ensures '\n' !in KickPrefix
  {
  }

  lemma NoNewline(a: string, b: string)
    requires '\n' !in a && '\n' !in b
    ensures '\n' !in a + b
  {
  }

  /** `kick_map.remove(player)`: the first occurrence goes. */
  function RemoveFirst(s: seq<string>, x: string): (r: seq<string>)
    ensures x in s ==> |r| == |s| - 1 && multiset(r) == multiset(s) - multiset{x}
    ensures x !in s ==> r == s
  {
    if |s| == 0 then []
    else
      assert s == [s[0]] + s[1..];
      if s[0] == x then s[1..] else [s[0]] + RemoveFirst(s[1..], x)
  }

  // ---------------------------------------------------------------- reports to EasyBot

  /** `build_player_info` plus `player_name_raw`; subscripting a missing record raises. */
  function PlayerPayload(c: Players.Cache, player: string): (r: Result<Frame>)
    ensures r.Ok? <==> Players.BuildPlayerInfo(c, player).Some?
    ensures r.Ok? ==> r.value == Players.BuildPlayerInfo(c, player).value["player_name_raw" := JStr(player)]
  {
    match Players.BuildPlayerInfo(c, player)
    case Some(info) => Ok(info["player_name_raw" := JStr(player)])
    case None => Err(NoneTypeError)
  }

  /** `push_enter` / `push_exit`: one `SYNC_ENTER_EXIT_MESSAGE` packet, or a raise for an unknown player. */
  function PushEnterExit(c: Players.Cache, player: string, isEnter: bool): (r: Outcome)
    ensures r.raised.None? <==> Players.BuildPlayerInfo(c, player).Some?
    ensures r.raised.None? ==> r.effects == [Packet("SYNC_ENTER_EXIT_MESSAGE",
              map["player" := JObj(PlayerPayload(c, player).value), "is_enter" := JBool(isEnter)])]
    ensures r.raised.Some? ==> r.effects == []
  {
    match PlayerPayload(c, player)
    case Ok(info) => Outcome([Packet("SYNC_ENTER_EXIT_MESSAGE", map["player" := JObj(info), "is_enter" := JBool(isEnter)])], None)
    case Err(e) => Outcome([], Some(e))
  }

  /** `push_message`: one `SYNC_MESSAGE` packet, or a raise for an unknown player. */
  function PushMessage(c: Players.Cache, player: string, message: string, useCommand: bool): (r: Outcome)
    ensures r.raised.None? <==> Players.BuildPlayerInfo(c, player).Some?
    ensures r.raised.None? ==> r.effects == [Packet("SYNC_MESSAGE",
              map["player" := JObj(PlayerPayload(c, player).value), "message" := JStr(message), "use_command" := JBool(useCommand)])]
    ensures r.raised.Some? ==> r.effects == []
  {
    match PlayerPayload(c, player)
    case Ok(info) =>
      Outcome([Packet("SYNC_MESSAGE", map["player" := JObj(info), "message" := JStr(message), "use_command" := JBool(useCommand)])], None)
    case Err(e) => Outcome([], Some(e))
  }

  /** `report_player`: the name, UUID and IP of a known player, or a raise. */
  function ReportPlayer(c: Players.Cache, player: string): (r: Outcome)
    ensures r.raised.None? <==> Players.BuildPlayerInfo(c, player).Some?
    ensures r.raised.None? ==> |r.effects| == 1 && r.effects[0].Packet? && r.effects[0].execOp == "REPORT_PLAYER"
    ensures r.raised.None? ==>
              var info := Players.BuildPlayerInfo(c, player).value;
              r.effects[0].payload == map["player_name" := JStr(player), "player_uuid" := info["player_uuid"], "player_ip" := info["ip"]]
    ensures r.raised.Some? ==> r.effects == []
  {
    match Players.BuildPlayerInfo(c, player)
    case Some(info) =>
      Outcome([Packet("REPORT_PLAYER", map["player_name" := JStr(player), "player_uuid" := info["player_uuid"], "player_ip" := info["ip"]])], None)
    case None => Outcome([], Some(NoneTypeError))
  }

  /** `login`'s request: the player record, or `None` for an unknown player. */
  function LoginRequest(c: Players.Cache, player: string): (r: Effect)
    ensures r.Request? && r.execOp == "PLAYER_JOIN" && r.payload.Keys == {"player"}
    ensures Players.BuildPlayerInfo(c, player).None? <==> r.payload["player"] == JNull
  {
    match Players.BuildPlayerInfo(c, player)
    case Some(info) => Request("PLAYER_JOIN", map["player" := JObj(info)])
    case None => Request("PLAYER_JOIN", map["player" := JNull])
  }

  /**
   * The `kick_message` of a login answer or an unbind notice as `push_kick`
   * receives it: a string or `None`; a missing field or a value `strip` cannot
   * take raises.
   */
  function KickMessage(login: Frame): (r: Result<Option<string>>)
    ensures r.Ok? <==> "kick_message" in login && (login["kick_message"].JNull? || login["kick_message"].JStr?)
    ensures r.Ok? && r.value.Some? ==> login["kick_message"] == JStr(r.value.value)
    ensures "kick_message" in login && login["kick_message"].JNull? ==> r == Ok(None)
  {
    if "kick_message" !in login then Err("KeyError: 'kick_message'")
    else match login["kick_message"]
      case JNull => Ok(None)
      case JStr(s) => Ok(Some(s))
      case _ => Err("AttributeError: 'strip'")
  }

  /**
   * The plugin's `on_player_joined`, run with the player cache as the cache's
   * own listener left it. `login` is EasyBot's answer to `PLAYER_JOIN`. The
   * player is reported, then logged in; a refused login kicks the player
   * instead of announcing the entry. An unknown player makes the report
   * raise before anything is sent.
   */
  function OnPlayerJoined(c: Players.Cache, kickMap: seq<string>, player: string, login: Frame, rconRunning: bool)
    : (r: (seq<string>, Outcome))
    ensures Players.BuildPlayerInfo(c, player).None? ==> r == (kickMap, Outcome([], Some(NoneTypeError)))
    ensures Players.BuildPlayerInfo(c, player).Some? ==>
              |r.1.effects| >= 2 && r.1.effects[..2] == ReportPlayer(c, player).effects + [LoginRequest(c, player)]
    ensures Players.BuildPlayerInfo(c, player).Some? ==>
              var answer := AnswerLogin(c, kickMap, player, login, rconRunning);
              r.0 == answer.0 && r.1.effects[2..] == answer.1.effects && r.1.raised == answer.1.raised
  {
    var report := ReportPlayer(c, player);
    if report.raised.Some? then (kickMap, report)
    else
      var (m, answer) := AnswerLogin(c, kickMap, player, login, rconRunning);
      (m, Outcome([report.effects[0], LoginRequest(c, player)] + answer.effects, answer.raised))
  }

  /** What `on_player_joined` does with the login answer: kick the player, or announce the entry. */
  function AnswerLogin(c: Players.Cache, kickMap: seq<string>, player: string, login: Frame, rconRunning: bool)
    : (r: (seq<string>, Outcome))
    ensures |r.1.effects| <= 1
    ensures r.1.raised.None? <==>
              "kick" in login && (Truthy(login["kick"]) ==> KickMessage(login).Ok?)
              && (!Truthy(login["kick"]) ==> Players.BuildPlayerInfo(c, player).Some?)
    ensures r.1.raised.Some? ==> r.0 == kickMap && r.1.effects == []
    ensures r.1.raised.None? && Truthy(login["kick"]) ==>
              (r.0, r.1.effects) == PushKick(kickMap, player, KickMessage(login).value, rconRunning)
    ensures r.1.raised.None? && !Truthy(login["kick"]) ==>
              r.0 == kickMap && r.1.effects == PushEnterExit(c, player, true).effects
  {
    if "kick" !in login then (kickMap, Outcome([], Some("KeyError: 'kick'")))
    else if Truthy(login["kick"]) then
      match KickMessage(login)
      case Err(e) => (kickMap, Outcome([], Some(e)))
      case Ok(reason) =>
        var (m, kick) := PushKick(kickMap, player, reason, rconRunning);
        (m, Outcome(kick, None))
    else (kickMap, PushEnterExit(c, player, true))
  }

  /** A refused login ends with the kick, and the report is the only packet sent: no entry is announced. */
  lemma KickedPlayerNotAnnounced(c: Players.Cache, kickMap: seq<string>, player: string, login: Frame, rconRunning: bool)
    requires "kick" in login && Truthy(login["kick"])
    requires Players.BuildPlayerInfo(c, player).Some? && KickMessage(login).Ok?
    ensures var r := OnPlayerJoined(c, kickMap, player, login, rconRunning);
      var kick := PushKick(kickMap, player, KickMessage(login).value, rconRunning);
      && r.1.raised.None?
      && r.0 == kick.0
      && |r.1.effects| == 3
      && r.1.effects[2] == kick.1[0]
      && !r.1.effects[1].Packet? && !r.1.effects[2].Packet?
  {
    var r := OnPlayerJoined(c, kickMap, player, login, rconRunning);
    var kick := PushKick(kickMap, player, KickMessage(login).value, rconRunning);
    var answer := AnswerLogin(c, kickMap, player, login, rconRunning);
    assert answer.1.effects == kick.1 && answer.1.raised.None?;
    assert r.1.effects[1] == LoginRequest(c, player) by {
      assert r.1.effects[..2][1] == r.1.effects[1];
    }
    assert r.1.effects[2] == kick.1[0] by {
      assert r.1.effects[2..][0] == r.1.effects[2];
    }
    assert |r.1.effects| == 3;
    assert !r.1.effects[1].Packet?;
    assert !r.1.effects[2].Packet? by {
      if rconRunning { assert kick.1[0].RconQuery?; } else { assert kick.1[0].Execute?; }
    }
  }

  /** The plugin's `on_player_left`: a player kicked over RCON is forgotten silently; anyone else is announced. */
  function OnPlayerLeft(c: Players.Cache, kickMap: seq<string>, player: string): (r: (seq<string>, Outcome))
    ensures player in kickMap ==> r.1 == Outcome([], None) && multiset(r.0) == multiset(kickMap) - multiset{player}
    ensures player !in kickMap ==> r.0 == kickMap && r.1 == PushEnterExit(c, player, false)
  {
    if player in kickMap then (RemoveFirst(kickMap, player), Outcome([], None))
    else (kickMap, PushEnterExit(c, player, false))
  }

  /** A kick over RCON suppresses exactly the one exit message it causes, and leaves `kick_map` as it was. */
  lemma KickThenLeave(c: Players.Cache, kickMap: seq<string>, player: string, reason: Option<string>)
    ensures var m := PushKick(kickMap, player, reason, true).0;
      && OnPlayerLeft(c, m, player).1 == Outcome([], None)
      && multiset(OnPlayerLeft(c, m, player).0) == multiset(kickMap)
  {
    var m := PushKick(kickMap, player, reason, true).0;
    assert m == kickMap + [player];
    assert player in m;
  }

  // ---------------------------------------------------------------- chat and commands

  /** `on_user_info`: chat from a player is forwarded unless it is an MCDR command that is to be ignored. */
  function OnUserInfo(c: Players.Cache, player: Option<string>, content: string, ignoreCommands: bool): (r: Outcome)
    ensures player.None? ==> r == Outcome([], None)
    ensures ignoreCommands && Text.StartsWith(content, "!!") ==> r == Outcome([], None)
    ensures player.Some? && !(ignoreCommands && Text.StartsWith(content, "!!")) ==>
              r == PushMessage(c, player.value, content, false)
  {
    if player.None? then Outcome([], None)
    else if Text.StartsWith(content, "!!") && ignoreCommands then Outcome([], None)
    else PushMessage(c, player.value, content, false)
  }

  /** `say`: the message is forwarded as a command (`use_command`), then confirmed to the sender. */
  function Say(c: Players.Cache, isPlayer: bool, player: string, message: string): (r: Outcome)
    ensures var name := if isPlayer then player else ConsoleName;
      r.raised.None? <==> Players.BuildPlayerInfo(c, name).Some?
    ensures var name := if isPlayer then player else ConsoleName;
      r.raised.None? ==> r.effects == PushMessage(c, name, message, true).effects + [SourceReply(SentPrefix + message)]
    ensures r.raised.Some? ==> r.effects == []
  {
    var name := if isPlayer then player else ConsoleName;
    var pushed := PushMessage(c, name, message, true);
    if pushed.raised.Some? then pushed else Outcome(pushed.effects + [SourceReply(SentPrefix + message)], None)
  }

  /** From the console, `!!say` raises before anything is sent unless a player called `CONSOLE` is known. */
  lemma ConsoleSayRaises(c: Players.Cache, player: string, message: string)
    requires Players.BuildPlayerInfo(c, ConsoleName).None?
    ensures Say(c, false, player, message) == Outcome([], Some(NoneTypeError))
  {
  }

  /** An account answer's `uuid` says the player is not bound yet: `None` or empty. */
  predicate Unbound(uuid: Json) {
    uuid == JNull || uuid == JStr("")
  }

  /**
   * `bind`. `account` answers `GET_SOCIAL_ACCOUNT` and `code` answers
   * `START_BIND`; `start` is the configured `start_bind` template and `show`
   * stands for Python's `str()` of an answer field.
   */
  function Bind(isConsole: bool, player: string, account: Frame, code: Frame, start: string, show: Json -> string)
    : (r: Outcome)
    ensures isConsole ==> r == Outcome([SourceReply(ConsoleRejected)], None)
    ensures !isConsole ==> |r.effects| > 0 && r.effects[0] == Request("GET_SOCIAL_ACCOUNT", map["player_name" := JStr(player)])
    ensures !isConsole && "uuid" in account && Unbound(account["uuid"]) ==>
              (r.raised.None? <==> GetStr(code, "code").Ok? && GetStr(code, "time").Ok?)
    ensures !isConsole && "uuid" in account && Unbound(account["uuid"]) && r.raised.None? ==>
              && |r.effects| == 3
              && r.effects[1] == Request("START_BIND", map["player_name" := JStr(player)])
              && r.effects[2] == SourceReply(Text.ReplaceAll(Text.ReplaceAll(start, "#code", GetStr(code, "code").value), "#time", GetStr(code, "time").value))
    ensures !isConsole && "uuid" in account && !Unbound(account["uuid"]) && r.raised.None? ==>
              |r.effects| == 2 && r.effects[1].SourceReply? && Text.StartsWith(r.effects[1].text, "\U{A7}c你已经绑定了账号, (")
    ensures !isConsole && "uuid" !in account ==> r.raised.Some?
  {
    if isConsole then Outcome([SourceReply(ConsoleRejected)], None)
    else
      var asked := [Request("GET_SOCIAL_ACCOUNT", map["player_name" := JStr(player)])];
      if "uuid" !in account then Outcome(asked, Some("KeyError: 'uuid'"))
      else if Unbound(account["uuid"]) then
        var started := asked + [Request("START_BIND", map["player_name" := JStr(player)])];
        match (GetStr(code, "code"), GetStr(code, "time"))
        case (Ok(k), Ok(t)) => Outcome(started + [SourceReply(Text.ReplaceAll(Text.ReplaceAll(start, "#code", k), "#time", t))], None)
        case (Err(e), _) => Outcome(started, Some(e))
        case (_, Err(e)) => Outcome(started, Some(e))
      else if "name" !in account || "time" !in account || "platform" !in account then
        Outcome(asked, Some("KeyError"))
      else
        var text := "\U{A7}c你已经绑定了账号, (" + show(account["name"]) + "/" + show(account["uuid"]) + "/时间:"
                    + show(account["time"]) + "/" + show(account["platform"]) + ")";
        Outcome(asked + [SourceReply(text)], None)
  }

  /** `#time` is substituted after `#code`, so a bind code containing `#time` has it replaced as well. */
  lemma BindSubstitutesCodeFirst(player: string, show: Json -> string)
    ensures var code := map["code" := JStr("#time"), "time" := JStr("5")];
      Bind(false, player, map["uuid" := JNull], code, "#code", show).effects[2] == SourceReply("5")
  {
    assert Text.ReplaceAll("#code", "#code", "#time") == "#time";
    assert Text.ReplaceAll("#time", "#time", "5") == "5";
  }

  /**
   * The plugin's `on_info`: when the white list is on and a console line
   * announces a player's UUID, a player bound to an account is added to it.
   * `account` answers `GET_SOCIAL_ACCOUNT`.
   */
  function OnInfo(raw: string, whitelistEnabled: bool, account: Frame): (r: Outcome)
    ensures Players.FindUuid(raw, 0).None? || !whitelistEnabled ==> r == Outcome([], None)
    ensures Players.FindUuid(raw, 0).Some? && whitelistEnabled && "uuid" in account ==>
              var asked := Request("GET_SOCIAL_ACCOUNT", map["player_name" := JStr(Players.FindUuid(raw, 0).value.0)]);
              && r.raised.None?
              && (!Unbound(account["uuid"]) ==> r.effects == [asked, Execute("whitelist add " + Players.FindUuid(raw, 0).value.0)])
              && (Unbound(account["uuid"]) ==> r.effects == [asked])
  {
    match Players.FindUuid(raw, 0)
    case None => Outcome([], None)
    case Some((name, _)) =>
      if !whitelistEnabled then Outcome([], None)
      else
        var asked := [Request("GET_SOCIAL_ACCOUNT", map["player_name" := JStr(name)])];
        if "uuid" !in account then Outcome(asked, Some("KeyError: 'uuid'"))
        else if !Unbound(account["uuid"]) then Outcome(asked + [Execute("whitelist add " + name)], None)
        else Outcome(asked, None)
  }
}

=== FILE: prefix_handler.dfy ===
/**
 * `PrefixNameHandler` (easybot_mcdr/impl/prefix_handler.py): a server handler
 * that, when the vanilla parse found no player, recognises chat lines of the
 * form `<[prefix]name> message` and attributes them to `name`.
 */
module PrefixHandler {
  import opened Wrappers
  import Text

  /** The part of MCDReforged's parsed line this handler reads and rewrites. */
  datatype Info = Info(player: Option<string>, content: string)

  /**
   * The whole of `content` is `<[prefix]name> message` with a non-empty prefix
   * holding no `]`, a non-empty name holding no `>`, and a message on one line.
   */
  predicate ChatShape(content: string, prefix: string, name: string, message: string) {
    content == "<[" + prefix + "]" + name + "> " + message
    && |prefix| > 0 && ']' !in prefix
    && |name| > 0 && '>' !in name
    && '\n' !in message
  }

  /** The `re.fullmatch` of the chat pattern: prefix, name and message, if the line has that shape. */
  function MatchChat(content: string): (r: Option<(string, string, string)>)
    ensures r.Some? ==> ChatShape(content, r.value.0, r.value.1, r.value.2)
  {
    if |content| < 2 || content[0] != '<' || content[1] != '[' then None
    else match Text.IndexOfFrom(content, ']', 2)
      case None => None
      case Some(j) =>
        match Text.IndexOfFrom(content, '>', j + 1)
        case None => None
        case Some(k) =>
          if j > 2 && k > j + 1 && k + 1 < |content| && content[k + 1] == ' ' && '\n' !in content[k + 2..] then
            var prefix, name, message := content[2..j], content[j + 1..k], content[k + 2..];
            assert content == "<[" + prefix + "]" + name + "> " + message;
            Some((prefix, name, message))
          else None
  }

  /** The first `c` at or after `start` is the one at `j` when nothing before it is `c`. */
  lemma IndexOfFromAt(s: string, c: char, start: nat, j: nat)
    requires start <= j < |s| && s[j] == c
    requires forall k :: start <= k < j ==> s[k] != c
    ensures Text.IndexOfFrom(s, c, start) == Some(j)
  {
  }

  /** The pattern finds every line of the shape, and splits it the only way it can be split. */
  lemma {:induction false} MatchChatComplete(content: string, prefix: string, name: string, message: string)
    requires ChatShape(content, prefix, name, message)
    ensures MatchChat(content) == Some((prefix, name, message))
  {
    var j := 2 + |prefix|;
    var k := j + 1 + |name|;
    assert forall i :: 0 <= i < |prefix| ==> content[2 + i] == prefix[i];
    assert forall i :: 0 <= i < |name| ==> content[j + 1 + i] == name[i];
    assert content[j] == ']' && content[k] == '>' && content[k + 1] == ' ';
    assert forall i :: 2 <= i < j ==> content[i] != ']' by {
      forall i | 2 <= i < j ensures content[i] != ']' {
        assert content[i] == prefix[i - 2];
      }
    }
    IndexOfFromAt(content, ']', 2, j);
    assert forall i :: j + 1 <= i < k ==> content[i] != '>' by {
      forall i | j + 1 <= i < k ensures content[i] != '>' {
        assert content[i] == name[i - j - 1];
      }
    }
    IndexOfFromAt(content, '>', j + 1, k);
    assert content[2..j] == prefix;
    assert content[j + 1..k] == name;
    assert content[k + 2..] == message;
  }

  /**
   * `parse_server_stdout` after the vanilla parse: a line the vanilla handler
   * attributed is kept; otherwise a chat-shaped line whose name the host's
   * name check (`verify`) accepts gets that player and loses its prefix.
   */
  function ParseStdout(vanilla: Info, verify: string -> bool): (r: Info)
    ensures vanilla.player.Some? ==> r == vanilla
    ensures r != vanilla ==>
              && vanilla.player.None? && r.player.Some? && verify(r.player.value)
              && exists prefix :: ChatShape(vanilla.content, prefix, r.player.value, r.content)
  {
    if vanilla.player.Some? then vanilla
    else match MatchChat(vanilla.content)
      case Some((prefix, name, message)) =>
        if verify(name) then Info(Some(name), message) else vanilla
      case None => vanilla
  }

  /** An unattributed chat-shaped line with an accepted name is attributed to exactly that name and message. */
  lemma PrefixedChatAttributed(content: string, prefix: string, name: string, message: string, verify: string -> bool)
    requires ChatShape(content, prefix, name, message) && verify(name)
    ensures ParseStdout(Info(None, content), verify) == Info(Some(name), message)
  {
    MatchChatComplete(content, prefix, name, message);
  }

  /** A line of any other shape, or with a rejected name, is left as the vanilla parse gave it. */
  lemma OtherLinesUntouched(content: string, verify: string -> bool)
    requires forall prefix, name, message :: ChatShape(content, prefix, name, message) ==> !verify(name)
    ensures ParseStdout(Info(None, content), verify) == Info(None, content)
  {
  }
}

=== FILE: properties.dfy ===
/**
 * Reading and rewriting `server.properties` (read_server_properties and
 * write_server_properties in easybot_mcdr/impl/rcon_auto_config.py), as
 * functions over the file's text after Python's newline translation.
 */
module ServerProperties {
  import opened Wrappers
  import Text
  import Dicts

  /** A line as Python's file iteration yields it: non-empty, its only newline at the end. */
  predicate IsLine(l: string) {
    |l| > 0 && l[|l| - 1] == '\n' && '\n' !in l[..|l| - 1]
  }

  /** Iterating over a text file: pieces ending after each newline; the last piece may lack one. */
  function SplitLines(text: string): (r: seq<string>)
    decreases |text|
    ensures forall i :: 0 <= i < |r| - 1 ==> IsLine(r[i])
    ensures |r| > 0 ==> |r[|r| - 1]| > 0 && '\n' !in r[|r| - 1][..|r[|r| - 1]| - 1]
    ensures |text| == 0 <==> |r| == 0
    ensures |r| > 0 ==> r[|r| - 1][|r[|r| - 1]| - 1] == text[|text| - 1]
  {
    if |text| == 0 then []
    else match Text.IndexOfFrom(text, '\n', 0)
      case None => [text]
      case Some(i) =>
        assert text[..i + 1][..i] == text[..i];
        [text[..i + 1]] + SplitLines(text[i + 1..])
  }

  /** A text that is empty or ends with a newline splits into whole lines. */
  lemma SplitTerminated(text: string)
    requires |text| == 0 || text[|text| - 1] == '\n'
    ensures forall i :: 0 <= i < |SplitLines(text)| ==> IsLine(SplitLines(text)[i])
  {
  }

  function Concat(lines: seq<string>): string {
    if |lines| == 0 then "" else lines[0] + Concat(lines[1..])
  }

  /** Writing the lines of a text back gives the text. */
  lemma {:induction false} SplitConcat(text: string)
    ensures Concat(SplitLines(text)) == text
    decreases |text|
  {
    if |text| > 0 {
      match Text.IndexOfFrom(text, '\n', 0)
      case None =>
      case Some(i) =>
        SplitConcat(text[i + 1..]);
        assert text == text[..i + 1] + text[i + 1..];
    }
  }

  /** Lines that each end with their only newline are read back exactly as written. */
  lemma {:induction false} ConcatSplit(lines: seq<string>)
    requires forall i :: 0 <= i < |lines| ==> IsLine(lines[i])
    ensures SplitLines(Concat(lines)) == lines
  {
    if |lines| > 0 {
      var l := lines[0];
      var rest := Concat(lines[1..]);
      assert Concat(lines) == l + rest;
      FirstLine(l, rest);
      ConcatSplit(lines[1..]);
      assert lines == [l] + lines[1..];
    }
  }

  /** A whole line in front of any text is split off first. */
  lemma FirstLine(l: string, rest: string)
    requires IsLine(l)
    ensures SplitLines(l + rest) == [l] + SplitLines(rest)
  {
    var text := l + rest;
    assert text[|l| - 1] == '\n';
    assert forall k :: 0 <= k < |l| - 1 ==> text[k] == l[..|l| - 1][k];
    assert Text.IndexOfFrom(text, '\n', 0) == Some(|l| - 1);
    assert text[..|l|] == l;
    assert text[|l|..] == rest;
  }

  // ---------------------------------------------------------------- one line

  /**
   * The `key=value` pair a line carries: none for a blank line, a line starting
   * with `#` after stripping, or a line without `=`. The split is at the first
   * `=`, and both sides are stripped.
   */
  function ParseLine(line: string): (r: Option<(string, string)>)
    ensures var s := Text.Strip(line); r.None? <==> |s| == 0 || s[0] == '#' || '=' !in s
    ensures r.Some? ==> SplitAtFirstEquals(Text.Strip(line), r.value)
    ensures r.Some? ==> Text.IsStripped(r.value.0) && Text.IsStripped(r.value.1) && '=' !in r.value.0
  {
    ParseStripped(Text.Strip(line))
  }

  /** `ParseLine` once the line is stripped. */
  function ParseStripped(s: string): (r: Option<(string, string)>)
    ensures r.None? <==> |s| == 0 || s[0] == '#' || '=' !in s
    ensures r.Some? ==> SplitAtFirstEquals(s, r.value)
    ensures r.Some? ==> Text.IsStripped(r.value.0) && Text.IsStripped(r.value.1) && '=' !in r.value.0
  {
    if |s| == 0 || s[0] == '#' then None
    else match Text.IndexOfFrom(s, '=', 0)
      case None => None
      case Some(i) =>
        KeyHasNoEquals(s, i);
        FirstEquals(s, i);
        Some((Text.Strip(s[..i]), Text.Strip(s[i + 1..])))
  }

  /** `pair` is the text before the first `=` of `s` and the text after it, both stripped. */
  predicate SplitAtFirstEquals(s: string, pair: (string, string)) {
    exists i :: 0 <= i < |s| && s[i] == '=' && '=' !in s[..i] && pair == (Text.Strip(s[..i]), Text.Strip(s[i + 1..]))
  }

  /** The first `=` the scan finds has none before it. */
  lemma FirstEquals(s: string, i: nat)
    requires Text.IndexOfFrom(s, '=', 0) == Some(i)
    ensures SplitAtFirstEquals(s, (Text.Strip(s[..i]), Text.Strip(s[i + 1..])))
  {
    assert '=' !in s[..i];
  }

  /** The key, cut before the first `=`, holds no `=`. */
  lemma KeyHasNoEquals(s: string, i: nat)
    requires Text.IndexOfFrom(s, '=', 0) == Some(i)
    ensures i < |s| && '=' !in Text.Strip(s[..i])
  {
    assert '=' !in s[..i];
    StripChars(s[..i]);
  }

  /** `strip` only removes characters. */
  lemma StripChars(s: string)
    ensures forall c :: c in Text.Strip(s) ==> c in s
  {
    var l := Text.TrimLeft(s);
    assert forall x :: x in l ==> x in s;
    var r := Text.TrimRight(l);
    assert forall x :: x in r ==> x in l;
  }

  lemma StripHead(x: string)
    requires |x| > 0 && !Text.IsSpace(x[0])
    ensures |Text.Strip(x)| > 0 && Text.Strip(x)[0] == x[0]
  {
    assert Text.TrimLeft(x) == x;
  }

  /** Stripping a line whose only newline is at its end leaves no newline. */
  lemma StripNoNewline(line: string)
    requires |line| > 0 && '\n' !in line[..|line| - 1]
    ensures '\n' !in Text.Strip(line)
  {
    var l := line[..|line| - 1];
    if line[|line| - 1] == '\n' {
      assert line == l + ['\n'];
      Text.StripAppendSpace(l, '\n');
      StripChars(l);
    } else {
      assert line == l + [line[|line| - 1]];
      StripChars(line);
    }
  }

  /** A key the writer can emit and the reader gets back. */
  predicate GoodKey(k: string) {
    Text.IsStripped(k) && '=' !in k && '\n' !in k && '\r' !in k && (|k| == 0 || k[0] != '#')
  }

  /** A value the writer can emit and the reader gets back. */
  predicate GoodValue(v: string) {
    Text.IsStripped(v) && '\n' !in v && '\r' !in v
  }

  /** `f"{key}={value}\n"` */
  function EntryLine(k: string, v: string): string {
    k + "=" + v + "\n"
  }

  /** The text of an entry without its newline: stripped, not a comment, first `=` right after the key. */
  lemma {:induction false} EntryBody(k: string, v: string)
    requires GoodKey(k) && GoodValue(v)
    ensures var body := k + "=" + v;
      |body| > 0 && Text.IsStripped(body) && body[0] != '#' && '\n' !in body
      && Text.IndexOfFrom(body, '=', 0) == Some(|k|) && body[..|k|] == k && body[|k| + 1..] == v
  {
    var body := k + "=" + v;
    assert body[|k|] == '=';
    if |k| > 0 { assert body[0] == k[0]; } else { assert body[0] == '='; }
    if |v| > 0 { assert body[|body| - 1] == v[|v| - 1]; } else { assert body[|body| - 1] == '='; }
    assert forall j :: 0 <= j < |k| ==> body[j] == k[j];
    assert forall j :: 0 <= j < |v| ==> body[|k| + 1 + j] == v[j];
  }

  /** An emitted entry parses back to the same key and value. */
  lemma {:induction false} ParseEntryLine(k: string, v: string)
    requires GoodKey(k) && GoodValue(v)
    ensures IsLine(EntryLine(k, v))
    ensures ParseLine(EntryLine(k, v)) == Some((k, v))
  {
    var body := k + "=" + v;
    EntryBody(k, v);
    ParseTerminated(body);
    assert EntryLine(k, v) == body + "\n";
    ParseBody(k, v);
  }

  /** A stripped text followed by a newline parses as the text alone. */
  lemma ParseTerminated(body: string)
    requires Text.IsStripped(body) && '\n' !in body
    ensures IsLine(body + "\n")
    ensures ParseLine(body + "\n") == ParseLine(body)
  {
    var line := body + "\n";
    assert line == body + ['\n'];
    assert line[..|line| - 1] == body;
    Text.StripAppendSpace(body, '\n');
  }

  lemma ParseBody(k: string, v: string)
    requires GoodKey(k) && GoodValue(v)
    ensures ParseLine(k + "=" + v) == Some((k, v))
  {
    var body := k + "=" + v;
    EntryBody(k, v);
    assert ParseLine(body) == ParseStripped(body) by {
      Text.StripStripped(body);
    }
    ParseStrippedAt(body, |k|);
    Text.StripStripped(k);
    Text.StripStripped(v);
  }

  /** A stripped, uncommented line whose first `=` is at `i` splits there. */
  lemma ParseStrippedAt(s: string, i: nat)
    requires |s| > 0 && s[0] != '#' && Text.IndexOfFrom(s, '=', 0) == Some(i)
    ensures i < |s| && ParseStripped(s) == Some((Text.Strip(s[..i]), Text.Strip(s[i + 1..])))
  {
  }

  // ---------------------------------------------------------------- reading

  /** `read_server_properties` over lines: later duplicates overwrite earlier ones. */
  function ReadLines(lines: seq<string>): (d: Dicts.Dict<string>)
    ensures Dicts.Distinct(d)
  {
    if |lines| == 0 then []
    else
      var d := ReadLines(lines[..|lines| - 1]);
      match ParseLine(lines[|lines| - 1])
      case Some((k, v)) => Dicts.Set(d, k, v)
      case None => d
  }

  /** The configuration a file's text holds (an absent file reads as empty text). */
  function Read(text: string): (r: Dicts.Dict<string>)
    ensures Dicts.Distinct(r)
    ensures forall k {:trigger LastValue(SplitLines(text), k)} :: Dicts.Get(r, k) == LastValue(SplitLines(text), k)
  {
    var lines := SplitLines(text);
    ReadLinesLast(lines);
    ReadLines(lines)
  }

  /** The keys read keep the order in which each first appears in the file. */
  lemma ReadOrder(text: string)
    ensures Dicts.Keys(Read(text)) == FirstKeys(SplitLines(text))
  {
    ReadLinesOrder(SplitLines(text));
  }

  lemma ReadLinesLast(lines: seq<string>)
    ensures forall k :: Dicts.Get(ReadLines(lines), k) == LastValue(lines, k)
  {
    forall k {
      ReadLinesLastWins(lines, k);
    }
  }

  /** The value the last line carrying `k` gives it, if any line does. */
  function LastValue(lines: seq<string>, k: string): Option<string> {
    if |lines| == 0 then None
    else
      var parsed := ParseLine(lines[|lines| - 1]);
      if parsed.Some? && parsed.value.0 == k then Some(parsed.value.1) else LastValue(lines[..|lines| - 1], k)
  }

  /** The keys the lines carry, each once, in the order of the first line carrying it. */
  function FirstKeys(lines: seq<string>): seq<string> {
    if |lines| == 0 then []
    else
      var keys := FirstKeys(lines[..|lines| - 1]);
      var parsed := ParseLine(lines[|lines| - 1]);
      if parsed.Some? && parsed.value.0 !in keys then keys + [parsed.value.0] else keys
  }

  /** A key read from several lines takes the value of the last of them. */
  lemma {:induction false} ReadLinesLastWins(lines: seq<string>, k: string)
    ensures Dicts.Get(ReadLines(lines), k) == LastValue(lines, k)
  {
    if |lines| > 0 {
      ReadLinesLastWins(lines[..|lines| - 1], k);
    }
  }

  /** A key read from several lines keeps the position of the first of them. */
  lemma {:induction false} ReadLinesOrder(lines: seq<string>)
    ensures Dicts.Keys(ReadLines(lines)) == FirstKeys(lines)
  {
    if |lines| > 0 {
      ReadLinesOrder(lines[..|lines| - 1]);
    }
  }

  /** Two entries for one key read as one entry with the second value. */
  lemma ReadDuplicate(k: string, v1: string, v2: string)
    requires GoodKey(k) && GoodValue(v1) && GoodValue(v2)
    ensures Read(EntryLine(k, v1) + EntryLine(k, v2)) == [(k, v2)]
  {
    var l1, l2 := EntryLine(k, v1), EntryLine(k, v2);
    ParseEntryLine(k, v1);
    ParseEntryLine(k, v2);
    SplitTwo(l1, l2);
    ReadTwo(l1, l2, k, v1, v2);
  }

  lemma SplitTwo(l1: string, l2: string)
    requires IsLine(l1) && IsLine(l2)
    ensures SplitLines(l1 + l2) == [l1] + [l2]
  {
    FirstLine(l1, l2);
    FirstLine(l2, "");
    assert l2 + "" == l2;
  }

  lemma ReadTwo(l1: string, l2: string, k: string, v1: string, v2: string)
    requires ParseLine(l1) == Some((k, v1)) && ParseLine(l2) == Some((k, v2))
    ensures ReadLines([l1] + [l2]) == [(k, v2)]
  {
    var lines := [l1] + [l2];
    ReadLinesLastWins(lines, k);
    ReadLinesOrder(lines);
    LastOfTwo(l1, l2, k, v2);
    FirstOfTwo(l1, l2, k, v1, v2);
    OneEntry(ReadLines(lines), k, v2);
  }

  lemma LastOfTwo(l1: string, l2: string, k: string, v2: string)
    requires ParseLine(l2) == Some((k, v2))
    ensures LastValue([l1] + [l2], k) == Some(v2)
  {
    LastValueSnoc([l1], l2, k);
  }

  lemma LastValueSnoc(lines: seq<string>, line: string, k: string)
    ensures var parsed := ParseLine(line);
      LastValue(lines + [line], k) == if parsed.Some? && parsed.value.0 == k then Some(parsed.value.1) else LastValue(lines, k)
  {
    assert (lines + [line])[..|lines|] == lines;
  }

  lemma FirstOfTwo(l1: string, l2: string, k: string, v1: string, v2: string)
    requires ParseLine(l1) == Some((k, v1)) && ParseLine(l2) == Some((k, v2))
    ensures FirstKeys([l1] + [l2]) == [k]
  {
    var none: seq<string> := [];
    FirstKeysSnoc(none, l1);
    assert none + [l1] == [l1];
    FirstKeysSnoc([l1], l2);
  }

  lemma FirstKeysSnoc(lines: seq<string>, line: string)
    ensures var keys := FirstKeys(lines); var parsed := ParseLine(line);
      FirstKeys(lines + [line]) == if parsed.Some? && parsed.value.0 !in keys then keys + [parsed.value.0] else keys
  {
    assert (lines + [line])[..|lines|] == lines;
  }

  lemma OneEntry(d: Dicts.Dict<string>, k: string, v: string)
    requires Dicts.Keys(d) == [k] && Dicts.Get(d, k) == Some(v)
    ensures d == [(k, v)]
  {
    assert d[1..] == [];
  }

  /** The keys the lines carry. */
  function LineKeys(lines: seq<string>): set<string> {
    if |lines| == 0 then {}
    else LineKeys(lines[..|lines| - 1]) + KeySet(lines[|lines| - 1])
  }

  /** The key the line carries, as a set of at most one key. */
  function KeySet(line: string): set<string> {
    match ParseLine(line) case Some((k, _)) => {k} case None => {}
  }

  /** Lines carrying the same keys, one by one, carry the same keys. */
  lemma {:induction false} SameKeys(a: seq<string>, b: seq<string>)
    requires |a| == |b| && forall i :: 0 <= i < |a| ==> KeySet(a[i]) == KeySet(b[i])
    ensures LineKeys(a) == LineKeys(b)
  {
    if |a| > 0 {
      SameKeys(a[..|a| - 1], b[..|b| - 1]);
    }
  }

  lemma {:induction false} LineKeysAppend(a: seq<string>, b: seq<string>)
    ensures LineKeys(a + b) == LineKeys(a) + LineKeys(b)
  {
    if |b| == 0 {
      assert a + b == a;
    } else {
      assert (a + b)[..|a + b| - 1] == a + b[..|b| - 1];
      LineKeysAppend(a, b[..|b| - 1]);
    }
  }

  /** The line carries a key only if `m` holds it with that value. */
  predicate Agrees(line: string, m: map<string, string>) {
    match ParseLine(line)
    case Some((k, v)) => k in m && m[k] == v
    case None => true
  }

  /** Reading lines that agree with `m` gives `m` restricted to the keys the lines carry. */
  lemma {:induction false} ReadAgreeing(lines: seq<string>, m: map<string, string>)
    requires forall i :: 0 <= i < |lines| ==> Agrees(lines[i], m)
    ensures forall k :: k in Dicts.ToMap(ReadLines(lines)) <==> k in LineKeys(lines)
    ensures forall k :: k in Dicts.ToMap(ReadLines(lines)) ==> k in m && Dicts.ToMap(ReadLines(lines))[k] == m[k]
  {
    ReadKeys(lines);
    if |lines| > 0 {
      var init := lines[..|lines| - 1];
      var last := lines[|lines| - 1];
      ReadAgreeing(init, m);
      var parsed := ParseLine(last);
      if parsed.Some? {
        var k, v := parsed.value.0, parsed.value.1;
        assert Agrees(last, m);
        assert k in m && m[k] == v;
        assert ReadLines(lines) == Dicts.Set(ReadLines(init), k, v);
        Dicts.ToMapSet(ReadLines(init), k, v);
      } else {
        assert ReadLines(lines) == ReadLines(init);
      }
    }
  }

  /** The keys read are exactly the keys the lines carry. */
  lemma {:induction false} ReadKeys(lines: seq<string>)
    ensures forall k :: k in Dicts.ToMap(ReadLines(lines)) <==> k in LineKeys(lines)
  {
    if |lines| > 0 {
      var init := lines[..|lines| - 1];
      ReadKeys(init);
      assert LineKeys(lines) == LineKeys(init) + KeySet(lines[|lines| - 1]);
      match ParseLine(lines[|lines| - 1]) {
        case Some((k, v)) =>
          assert ReadLines(lines) == Dicts.Set(ReadLines(init), k, v);
          Dicts.ToMapSet(ReadLines(init), k, v);
        case None =>
          assert ReadLines(lines) == ReadLines(init);
      }
    }
  }

  /** A line without an inner newline or a carriage return carries a writable key and value. */
  lemma ParseLineGood(line: string)
    requires |line| > 0 && '\n' !in line[..|line| - 1] && '\r' !in line
    ensures ParseLine(line).Some? ==> GoodKey(ParseLine(line).value.0) && GoodValue(ParseLine(line).value.1)
  {
    var s := Text.Strip(line);
    if ParseLine(line).Some? {
      assert ParseLine(line) == ParseStripped(s);
      assert |s| > 0 && s[0] != '#';
      var i := Text.IndexOfFrom(s, '=', 0).value;
      ParseStrippedAt(s, i);
      assert '\n' !in s && '\r' !in s by {
        StripNoNewline(line);
        StripChars(line);
      }
      PartGood(s, s[..i]);
      PartGood(s, s[i + 1..]);
      if i > 0 {
        StripHead(s[..i]);
      } else {
        assert s[..i] == [];
      }
    }
  }

  /** A stripped part of a text without line breaks has none either. */
  lemma PartGood(s: string, part: string)
    requires '\n' !in s && '\r' !in s && forall c :: c in part ==> c in s
    ensures '\n' !in Text.Strip(part) && '\r' !in Text.Strip(part)
  {
    StripChars(part);
  }

  lemma {:induction false} SplitLinesChars(text: string, c: char)
    requires c !in text
    ensures forall i :: 0 <= i < |SplitLines(text)| ==> c !in SplitLines(text)[i]
    decreases |text|
  {
    if |text| > 0 {
      match Text.IndexOfFrom(text, '\n', 0)
      case None =>
      case Some(i) =>
        assert forall x :: x in text[i + 1..] ==> x in text;
        assert forall x :: x in text[..i + 1] ==> x in text;
        SplitLinesChars(text[i + 1..], c);
    }
  }

  lemma SetGood(d: Dicts.Dict<string>, k: string, v: string)
    requires GoodConfig(d) && GoodKey(k) && GoodValue(v)
    ensures GoodConfig(Dicts.Set(d, k, v))
  {
    var r := Dicts.Set(d, k, v);
    Dicts.SetEntries(d, k, v);
    forall i | 0 <= i < |r| ensures GoodKey(r[i].0) && GoodValue(r[i].1) {
      assert r[i] in r;
      if r[i] != (k, v) {
        var j :| 0 <= j < |d| && d[j] == r[i];
      }
    }
  }

  lemma {:induction false} ReadLinesGood(lines: seq<string>)
    requires forall i :: 0 <= i < |lines| ==> |lines[i]| > 0 && '\n' !in lines[i][..|lines[i]| - 1] && '\r' !in lines[i]
    ensures GoodConfig(ReadLines(lines))
  {
    if |lines| > 0 {
      var init := lines[..|lines| - 1];
      ReadLinesGood(init);
      var last := lines[|lines| - 1];
      ParseLineGood(last);
      match ParseLine(last) {
        case Some((k, v)) => SetGood(ReadLines(init), k, v);
        case None =>
      }
    }
  }

  /** Every key and value read from a file (after newline translation) can be written back. */
  lemma ReadGood(text: string)
    requires '\r' !in text
    ensures GoodConfig(Read(text))
  {
    SplitLinesChars(text, '\r');
    ReadLinesGood(SplitLines(text));
  }

  // ---------------------------------------------------------------- writing

  /** An original line after writing: a line carrying a configured key becomes `key=value`; any other is kept. */
  function RewriteLine(line: string, cfg: Dicts.Dict<string>): string {
    match ParseLine(line)
    case Some((k, _)) => (match Dicts.Get(cfg, k) case Some(v) => EntryLine(k, v) case None => line)
    case None => line
  }

  function RewriteAll(lines: seq<string>, cfg: Dicts.Dict<string>): (r: seq<string>)
    ensures |r| == |lines|
    ensures forall i :: 0 <= i < |lines| ==> r[i] == RewriteLine(lines[i], cfg)
  {
    seq(|lines|, i requires 0 <= i < |lines| => RewriteLine(lines[i], cfg))
  }

  /** The configured keys some original line carries (`updated_keys`). */
  function UpdatedKeys(lines: seq<string>, cfg: Dicts.Dict<string>): set<string> {
    set k | k in LineKeys(lines) && k in Dicts.Keys(cfg)
  }

  /** Entries for the configured keys no original line carries, in configuration order. */
  function AppendedLines(cfg: Dicts.Dict<string>, updated: set<string>): (r: seq<string>)
    ensures |r| <= |cfg|
  {
    if |cfg| == 0 then []
    else (if cfg[0].0 in updated then [] else [EntryLine(cfg[0].0, cfg[0].1)]) + AppendedLines(cfg[1..], updated)
  }

  /** The lines `write_server_properties` writes for the original lines. */
  function WriteLines(lines: seq<string>, cfg: Dicts.Dict<string>): (r: seq<string>)
    ensures |r| >= |lines|
  {
    RewriteAll(lines, cfg) + AppendedLines(cfg, UpdatedKeys(lines, cfg))
  }

  /**
   * Every original line stays in place: a line carrying a configured key
   * becomes `key=value` with the configured value, and every other line is
   * kept verbatim.
   */
  lemma WrittenInPlace(lines: seq<string>, cfg: Dicts.Dict<string>)
    ensures forall i :: 0 <= i < |lines| && ParseLine(lines[i]).None? ==> WriteLines(lines, cfg)[i] == lines[i]
    ensures forall i :: 0 <= i < |lines| && ParseLine(lines[i]).Some? && ParseLine(lines[i]).value.0 !in Dicts.Keys(cfg) ==>
              WriteLines(lines, cfg)[i] == lines[i]
    ensures forall i :: 0 <= i < |lines| && ParseLine(lines[i]).Some? && ParseLine(lines[i]).value.0 in Dicts.Keys(cfg) ==>
              WriteLines(lines, cfg)[i] == EntryLine(ParseLine(lines[i]).value.0, Dicts.Get(cfg, ParseLine(lines[i]).value.0).value)
  {
    var out := WriteLines(lines, cfg);
    assert forall i :: 0 <= i < |lines| ==> out[i] == RewriteAll(lines, cfg)[i];
  }

  /** `write_server_properties`, as written: the original lines, rewritten, then the new entries. */
  function Write(text: string, cfg: Dicts.Dict<string>): (r: string)
    ensures |text| == 0 || text[|text| - 1] == '\n' ==> r == WriteTerminated(text, cfg)
  {
    TerminateKeeps(text);
    Concat(WriteLines(SplitLines(text), cfg))
  }

  /** Every configured key is written as its own `key=value` line. */
  lemma {:induction false} WriteHasEveryKey(lines: seq<string>, cfg: Dicts.Dict<string>, k: string)
    requires Dicts.Distinct(cfg) && k in Dicts.Keys(cfg)
    ensures exists i :: 0 <= i < |WriteLines(lines, cfg)| && WriteLines(lines, cfg)[i] == EntryLine(k, Dicts.Get(cfg, k).value)
  {
    var out := WriteLines(lines, cfg);
    if k in LineKeys(lines) {
      var i := LineWithKey(lines, k);
      WrittenInPlace(lines, cfg);
      assert out[i] == EntryLine(k, Dicts.Get(cfg, k).value);
    } else {
      var j := AppendedHas(cfg, UpdatedKeys(lines, cfg), k);
      assert out[|lines| + j] == AppendedLines(cfg, UpdatedKeys(lines, cfg))[j];
    }
  }

  lemma {:induction false} LineWithKey(lines: seq<string>, k: string) returns (i: nat)
    requires k in LineKeys(lines)
    ensures i < |lines| && ParseLine(lines[i]).Some? && ParseLine(lines[i]).value.0 == k
  {
    var init := lines[..|lines| - 1];
    assert LineKeys(lines) == LineKeys(init) + KeySet(lines[|lines| - 1]);
    if k in LineKeys(init) {
      i := LineWithKey(init, k);
      assert lines[i] == init[i];
    } else {
      i := |lines| - 1;
      assert k in KeySet(lines[i]);
    }
  }

  lemma {:induction false} AppendedHas(cfg: Dicts.Dict<string>, updated: set<string>, k: string) returns (j: nat)
    requires Dicts.Distinct(cfg) && k in Dicts.Keys(cfg) && k !in updated
    ensures j < |AppendedLines(cfg, updated)| && AppendedLines(cfg, updated)[j] == EntryLine(k, Dicts.Get(cfg, k).value)
  {
    var head := if cfg[0].0 in updated then [] else [EntryLine(cfg[0].0, cfg[0].1)];
    assert AppendedLines(cfg, updated) == head + AppendedLines(cfg[1..], updated);
    if cfg[0].0 == k {
      j := 0;
    } else {
      assert Dicts.Keys(cfg) == [cfg[0].0] + Dicts.Keys(cfg[1..]);
      var j' := AppendedHas(cfg[1..], updated, k);
      j := |head| + j';
    }
  }

  // ---------------------------------------------------------------- round trip

  /** A configuration whose every key and value survives being written and read back. */
  predicate GoodConfig(cfg: Dicts.Dict<string>) {
    Dicts.Distinct(cfg) && forall i :: 0 <= i < |cfg| ==> GoodKey(cfg[i].0) && GoodValue(cfg[i].1)
  }

  /** `m` holds every configured entry. */
  predicate Holds(cfg: Dicts.Dict<string>, m: map<string, string>) {
    forall i :: 0 <= i < |cfg| ==> cfg[i].0 in m && m[cfg[i].0] == cfg[i].1
  }

  lemma EntryAgrees(k: string, v: string, m: map<string, string>)
    requires GoodKey(k) && GoodValue(v) && k in m && m[k] == v
    ensures IsLine(EntryLine(k, v)) && Agrees(EntryLine(k, v), m)
  {
    ParseEntryLine(k, v);
  }

  lemma {:induction false} AppendedAgree(cfg: Dicts.Dict<string>, updated: set<string>, m: map<string, string>)
    requires GoodConfig(cfg) && Holds(cfg, m)
    ensures forall i :: 0 <= i < |AppendedLines(cfg, updated)| ==>
              IsLine(AppendedLines(cfg, updated)[i]) && Agrees(AppendedLines(cfg, updated)[i], m)
  {
    if |cfg| > 0 {
      var rest := AppendedLines(cfg[1..], updated);
      assert GoodConfig(cfg[1..]) && Holds(cfg[1..], m);
      AppendedAgree(cfg[1..], updated, m);
      if cfg[0].0 !in updated {
        EntryAgrees(cfg[0].0, cfg[0].1, m);
        var r := AppendedLines(cfg, updated);
        assert r == [EntryLine(cfg[0].0, cfg[0].1)] + rest;
        forall i | 0 <= i < |r| ensures IsLine(r[i]) && Agrees(r[i], m) {
          if i > 0 { assert r[i] == rest[i - 1]; }
        }
      } else {
        assert AppendedLines(cfg, updated) == rest;
      }
    }
  }

  lemma {:induction false} AppendedKeys(cfg: Dicts.Dict<string>, updated: set<string>)
    requires GoodConfig(cfg)
    ensures forall k :: k in LineKeys(AppendedLines(cfg, updated)) <==> k in Dicts.Keys(cfg) && k !in updated
  {
    if |cfg| > 0 {
      var head := if cfg[0].0 in updated then [] else [EntryLine(cfg[0].0, cfg[0].1)];
      var rest := AppendedLines(cfg[1..], updated);
      assert GoodConfig(cfg[1..]);
      AppendedKeys(cfg[1..], updated);
      ParseEntryLine(cfg[0].0, cfg[0].1);
      LineKeysAppend(head, rest);
      assert AppendedLines(cfg, updated) == head + rest;
      HeadKeys(cfg[0].0, cfg[0].1, cfg[0].0 in updated);
      assert Dicts.Keys(cfg) == [cfg[0].0] + Dicts.Keys(cfg[1..]);
    }
  }

  lemma HeadKeys(k: string, v: string, skip: bool)
    requires GoodKey(k) && GoodValue(v)
    ensures LineKeys(if skip then [] else [EntryLine(k, v)]) == (if skip then {} else {k})
  {
    if !skip {
      var head := [EntryLine(k, v)];
      assert head[..0] == [];
      ParseEntryLine(k, v);
    }
  }

  lemma {:induction false} RewrittenAgree(lines: seq<string>, cfg: Dicts.Dict<string>, m: map<string, string>)
    requires GoodConfig(cfg) && m == Dicts.ToMap(cfg)
    requires forall i :: 0 <= i < |lines| ==> IsLine(lines[i])
    requires forall k :: k in LineKeys(lines) ==> k in Dicts.Keys(cfg)
    ensures forall i :: 0 <= i < |lines| ==> IsLine(RewriteAll(lines, cfg)[i]) && Agrees(RewriteAll(lines, cfg)[i], m)
  {
    var r := RewriteAll(lines, cfg);
    forall i | 0 <= i < |lines| ensures IsLine(r[i]) && Agrees(r[i], m) {
      RewriteOne(lines, i, cfg, m);
    }
  }

  lemma RewriteOne(lines: seq<string>, i: nat, cfg: Dicts.Dict<string>, m: map<string, string>)
    requires GoodConfig(cfg) && m == Dicts.ToMap(cfg)
    requires i < |lines| && IsLine(lines[i])
    requires forall k :: k in LineKeys(lines) ==> k in Dicts.Keys(cfg)
    ensures IsLine(RewriteLine(lines[i], cfg)) && Agrees(RewriteLine(lines[i], cfg), m)
  {
    match ParseLine(lines[i]) {
      case Some((k, _)) =>
        LineKeysHas(lines, i);
        GoodEntry(cfg, k);
        ParseEntryLine(k, Dicts.Get(cfg, k).value);
      case None =>
    }
  }

  /** The key a line carries is among the keys of the lines. */
  lemma {:induction false} LineKeysHas(lines: seq<string>, i: nat)
    requires i < |lines| && ParseLine(lines[i]).Some?
    ensures ParseLine(lines[i]).value.0 in LineKeys(lines)
  {
    if i < |lines| - 1 {
      assert lines[..|lines| - 1][i] == lines[i];
      LineKeysHas(lines[..|lines| - 1], i);
    }
  }

  /** Rewriting keeps the keys of lines whose keys are all configured. */
  lemma {:induction false} RewrittenKeys(lines: seq<string>, cfg: Dicts.Dict<string>)
    requires GoodConfig(cfg)
    requires forall k :: k in LineKeys(lines) ==> k in Dicts.Keys(cfg)
    ensures LineKeys(RewriteAll(lines, cfg)) == LineKeys(lines)
  {
    var r := RewriteAll(lines, cfg);
    forall i | 0 <= i < |lines| ensures KeySet(r[i]) == KeySet(lines[i]) {
      if ParseLine(lines[i]).Some? {
        LineKeysHas(lines, i);
      }
      RewriteKeySet(lines[i], cfg);
    }
    SameKeys(r, lines);
  }

  /** Rewriting a line whose key is configured keeps that key. */
  lemma RewriteKeySet(line: string, cfg: Dicts.Dict<string>)
    requires GoodConfig(cfg)
    requires ParseLine(line).Some? ==> ParseLine(line).value.0 in Dicts.Keys(cfg)
    ensures KeySet(RewriteLine(line, cfg)) == KeySet(line)
  {
    var parsed := ParseLine(line);
    if parsed.Some? {
      var k := parsed.value.0;
      GoodEntry(cfg, k);
      var v := Dicts.Get(cfg, k).value;
      var e := RewriteLine(line, cfg);
      assert e == EntryLine(k, v);
      ParseEntryLine(k, v);
      KeySetIs(e, k);
      KeySetIs(line, k);
    }
  }

  /** The key set of a line carrying `k`. */
  lemma KeySetIs(line: string, k: string)
    requires ParseLine(line).Some? && ParseLine(line).value.0 == k
    ensures KeySet(line) == {k}
  {
  }

  lemma GoodEntry(cfg: Dicts.Dict<string>, k: string)
    requires GoodConfig(cfg) && k in Dicts.Keys(cfg)
    ensures GoodKey(k) && GoodValue(Dicts.Get(cfg, k).value)
  {
    var i :| 0 <= i < |cfg| && Dicts.Keys(cfg)[i] == k;
    Dicts.GetAt(cfg, i);
  }

  /** What is written from whole lines: whole lines, each agreeing with the configuration. */
  lemma WrittenAgree(lines: seq<string>, cfg: Dicts.Dict<string>)
    requires forall i :: 0 <= i < |lines| ==> IsLine(lines[i])
    requires GoodConfig(cfg)
    requires forall k :: k in LineKeys(lines) ==> k in Dicts.Keys(cfg)
    ensures forall i :: 0 <= i < |WriteLines(lines, cfg)| ==>
              IsLine(WriteLines(lines, cfg)[i]) && Agrees(WriteLines(lines, cfg)[i], Dicts.ToMap(cfg))
  {
    var m := Dicts.ToMap(cfg);
    HoldsOwnMap(cfg);
    var updated := UpdatedKeys(lines, cfg);
    var rewritten := RewriteAll(lines, cfg);
    var appended := AppendedLines(cfg, updated);
    RewrittenAgree(lines, cfg, m);
    AppendedAgree(cfg, updated, m);
    assert WriteLines(lines, cfg) == rewritten + appended;
    AgreeConcat(rewritten, appended, m);
  }

  /** Two runs of whole lines agreeing with `m` make one. */
  lemma AgreeConcat(a: seq<string>, b: seq<string>, m: map<string, string>)
    requires forall i :: 0 <= i < |a| ==> IsLine(a[i]) && Agrees(a[i], m)
    requires forall i :: 0 <= i < |b| ==> IsLine(b[i]) && Agrees(b[i], m)
    ensures forall i :: 0 <= i < |a + b| ==> IsLine((a + b)[i]) && Agrees((a + b)[i], m)
  {
    forall i | 0 <= i < |a + b| ensures IsLine((a + b)[i]) && Agrees((a + b)[i], m) {
      if i < |a| {
        assert (a + b)[i] == a[i];
      } else {
        assert (a + b)[i] == b[i - |a|];
      }
    }
  }

  lemma HoldsOwnMap(cfg: Dicts.Dict<string>)
    requires Dicts.Distinct(cfg)
    ensures Holds(cfg, Dicts.ToMap(cfg))
  {
    forall i | 0 <= i < |cfg| ensures cfg[i].0 in Dicts.ToMap(cfg) && Dicts.ToMap(cfg)[cfg[i].0] == cfg[i].1 {
      Dicts.GetAt(cfg, i);
    }
  }

  /** What is written from whole lines carries exactly the configured keys. */
  lemma WrittenKeys(lines: seq<string>, cfg: Dicts.Dict<string>)
    requires GoodConfig(cfg)
    requires forall k :: k in LineKeys(lines) ==> k in Dicts.Keys(cfg)
    ensures forall k :: k in LineKeys(WriteLines(lines, cfg)) <==> k in Dicts.Keys(cfg)
  {
    var updated := UpdatedKeys(lines, cfg);
    var rewritten := RewriteAll(lines, cfg);
    var appended := AppendedLines(cfg, updated);
    assert WriteLines(lines, cfg) == rewritten + appended;
    RewrittenKeys(lines, cfg);
    AppendedKeys(cfg, updated);
    LineKeysAppend(rewritten, appended);
  }

  /**
   * Reading back what was written from lines that each end with a newline gives
   * exactly the configuration, provided the configuration covers every key the
   * original carried and its keys and values are writable.
   */
  lemma {:induction false} ReadWriteLines(lines: seq<string>, cfg: Dicts.Dict<string>)
    requires forall i :: 0 <= i < |lines| ==> IsLine(lines[i])
    requires GoodConfig(cfg)
    requires forall k :: k in Dicts.ToMap(ReadLines(lines)) ==> k in Dicts.Keys(cfg)
    ensures Dicts.ToMap(ReadLines(SplitLines(Concat(WriteLines(lines, cfg))))) == Dicts.ToMap(cfg)
  {
    ReadKeys(lines);
    var out := WriteLines(lines, cfg);
    WrittenAgree(lines, cfg);
    WrittenKeys(lines, cfg);
    ConcatSplit(out);
    var m := Dicts.ToMap(cfg);
    ReadAgreeing(out, m);
    var result := Dicts.ToMap(ReadLines(out));
    SameMap(result, m);
  }

  lemma SameMap(a: map<string, string>, b: map<string, string>)
    requires forall k :: k in a ==> k in b && a[k] == b[k]
    requires forall k :: k in b ==> k in a
    ensures a == b
  {
    assert a.Keys == b.Keys;
  }

  /** Round trip of the writer as written, for a file that is empty or ends with a newline. */
  lemma RoundTrip(text: string, cfg: Dicts.Dict<string>)
    requires |text| == 0 || text[|text| - 1] == '\n'
    requires GoodConfig(cfg)
    requires forall k :: k in Dicts.ToMap(Read(text)) ==> k in Dicts.Keys(cfg)
    ensures Dicts.ToMap(Read(Write(text, cfg))) == Dicts.ToMap(cfg)
  {
    SplitTerminated(text);
    ReadWriteLines(SplitLines(text), cfg);
  }

  /**
   * As written, an original last line without a newline runs into the first
   * appended entry: a final comment swallows the key appended after it, so
   * reading back loses a key the configuration holds.
   */
  lemma MissingNewlineLosesKey(c: string, k: string, v: string)
    requires |c| > 0 && c[0] == '#' && '\n' !in c
    requires GoodKey(k) && GoodValue(v)
    ensures Read(c) == []
    ensures Write(c, [(k, v)]) == c + EntryLine(k, v)
    ensures Read(Write(c, [(k, v)])) == []
  {
    CommentAlone(c);
    CommentWrite(c, k, v);
    var body := k + "=" + v;
    OneLineEntry(k, v);
    CommentSwallows(c, body);
    assert c + EntryLine(k, v) == (c + body) + "\n";
  }

  lemma OneLineEntry(k: string, v: string)
    requires '\n' !in k && '\n' !in v
    ensures '\n' !in k + "=" + v
  {
  }

  /** Writing one new entry after a lone comment line puts it right after the comment's text. */
  lemma CommentWrite(c: string, k: string, v: string)
    requires SplitLines(c) == [c] && ParseLine(c) == None
    ensures Write(c, [(k, v)]) == c + EntryLine(k, v)
  {
    var cfg := [(k, v)];
    var e := EntryLine(k, v);
    assert Concat([e]) == e by {
      assert [e][1..] == [];
    }
    assert Concat([c, e]) == c + e by {
      assert [c, e][1..] == [e];
    }
    assert [c][..0] == [];
    assert LineKeys([c]) == {};
    assert UpdatedKeys([c], cfg) == {};
    assert cfg[1..] == [];
    assert AppendedLines(cfg, {}) == [e];
    assert RewriteAll([c], cfg) == [c];
    assert WriteLines([c], cfg) == [c, e];
  }

  /** A comment without a newline is one line, carrying nothing. */
  lemma CommentAlone(c: string)
    requires |c| > 0 && c[0] == '#' && '\n' !in c
    ensures SplitLines(c) == [c] && ParseLine(c) == None && Read(c) == []
  {
    StripHead(c);
    assert Text.IndexOfFrom(c, '\n', 0) == None;
    assert ParseStripped(Text.Strip(c)) == None;
    assert [c][..0] == [];
    assert ReadLines([c]) == ReadLines([]);
  }

  /** A comment with anything after it on the same line carries nothing. */
  lemma CommentSwallows(c: string, body: string)
    requires |c| > 0 && c[0] == '#' && '\n' !in c && '\n' !in body
    ensures Read((c + body) + "\n") == []
  {
    var line := (c + body) + "\n";
    assert line[0] == '#';
    assert IsLine(line) by {
      assert line[..|line| - 1] == c + body;
    }
    StripHead(line);
    assert ParseStripped(Text.Strip(line)) == None;
    assert Concat([line]) == line by {
      assert [line][1..] == [];
    }
    ConcatSplit([line]);
    assert [line][..0] == [];
    assert ReadLines([line]) == ReadLines([]);
  }

  predicate EndsWithNewline(s: string) {
    |s| > 0 && s[|s| - 1] == '\n'
  }

  /** The writer as evidently intended: a last original line without a newline gets one first. */
  function Terminate(lines: seq<string>): (r: seq<string>)
    ensures |r| == |lines|
    ensures forall i :: 0 <= i < |lines| - 1 ==> r[i] == lines[i]
  {
    if |lines| == 0 || EndsWithNewline(lines[|lines| - 1]) then lines
    else lines[..|lines| - 1] + [lines[|lines| - 1] + "\n"]
  }

  function WriteTerminated(text: string, cfg: Dicts.Dict<string>): (r: string)
    ensures |r| == 0 || r[|r| - 1] == '\n'
  {
    var lines := Terminate(SplitLines(text));
    TerminateFacts(text);
    WrittenLinesEnd(lines, cfg);
    ConcatEnds(WriteLines(lines, cfg));
    Concat(WriteLines(lines, cfg))
  }

  /** A text that is empty or ends with a newline has nothing to terminate. */
  lemma TerminateKeeps(text: string)
    ensures |text| == 0 || text[|text| - 1] == '\n' ==> Terminate(SplitLines(text)) == SplitLines(text)
  {
  }

  /** Writing whole lines gives whole lines. */
  lemma WrittenLinesEnd(lines: seq<string>, cfg: Dicts.Dict<string>)
    requires forall i :: 0 <= i < |lines| ==> IsLine(lines[i])
    ensures forall i :: 0 <= i < |WriteLines(lines, cfg)| ==> EndsWithNewline(WriteLines(lines, cfg)[i])
  {
    var r := WriteLines(lines, cfg);
    var appended := AppendedLines(cfg, UpdatedKeys(lines, cfg));
    AppendedEnd(cfg, UpdatedKeys(lines, cfg));
    forall i | 0 <= i < |r| ensures EndsWithNewline(r[i]) {
      if i < |lines| {
        assert r[i] == RewriteLine(lines[i], cfg);
      } else {
        assert r[i] == appended[i - |lines|];
      }
    }
  }

  lemma {:induction false} AppendedEnd(cfg: Dicts.Dict<string>, updated: set<string>)
    ensures forall i :: 0 <= i < |AppendedLines(cfg, updated)| ==> EndsWithNewline(AppendedLines(cfg, updated)[i])
  {
    if |cfg| > 0 {
      AppendedEnd(cfg[1..], updated);
      var head := if cfg[0].0 in updated then [] else [EntryLine(cfg[0].0, cfg[0].1)];
      var r := AppendedLines(cfg, updated);
      forall i | 0 <= i < |r| ensures EndsWithNewline(r[i]) {
        if i >= |head| {
          assert r[i] == AppendedLines(cfg[1..], updated)[i - |head|];
        }
      }
    }
  }

  /** Lines that each end with a newline write a text that is empty or ends with one. */
  lemma {:induction false} ConcatEnds(lines: seq<string>)
    requires forall i :: 0 <= i < |lines| ==> EndsWithNewline(lines[i])
    ensures var t := Concat(lines); |t| == 0 || t[|t| - 1] == '\n'
  {
    if |lines| > 0 {
      ConcatEnds(lines[1..]);
      var rest := Concat(lines[1..]);
      if |rest| == 0 {
        assert Concat(lines) == lines[0] + rest;
        assert lines[0] + rest == lines[0];
      }
    }
  }

  /** Terminating the lines of a text makes them whole and changes no key or value. */
  lemma {:induction false} TerminateFacts(text: string)
    ensures forall i :: 0 <= i < |Terminate(SplitLines(text))| ==> IsLine(Terminate(SplitLines(text))[i])
    ensures ReadLines(Terminate(SplitLines(text))) == Read(text)
  {
    var lines := SplitLines(text);
    var t := Terminate(lines);
    if t != lines {
      var last := lines[|lines| - 1];
      ParseTerminatedLast(last);
      assert t[..|t| - 1] == lines[..|lines| - 1];
    }
  }

  lemma ParseTerminatedLast(last: string)
    requires |last| > 0 && '\n' !in last[..|last| - 1] && !EndsWithNewline(last)
    ensures IsLine(last + "\n")
    ensures ParseLine(last + "\n") == ParseLine(last)
  {
    var line := last + "\n";
    assert line == last + ['\n'];
    assert line[..|line| - 1] == last;
    assert '\n' !in last by {
      assert last == last[..|last| - 1] + [last[|last| - 1]];
    }
    Text.StripAppendSpace(last, '\n');
  }

  /** With the intended fix the round trip holds for every file, whatever its last line. */
  lemma RoundTripTerminated(text: string, cfg: Dicts.Dict<string>)
    requires GoodConfig(cfg)
    requires forall k :: k in Dicts.ToMap(Read(text)) ==> k in Dicts.Keys(cfg)
    ensures Dicts.ToMap(Read(WriteTerminated(text, cfg))) == Dicts.ToMap(cfg)
  {
    TerminateFacts(text);
    ReadWriteLines(Terminate(SplitLines(text)), cfg);
  }
}

=== FILE: rcon.dfy ===
/**
 * RCON auto-configuration (easybot_mcdr/impl/rcon_auto_config.py): the
 * password generator and `check_and_configure_rcon`, which decides from the
 * server's `server.properties` whether to connect, to enable RCON and stop the
 * server, or to generate a password first.
 */
module RconConfig {
  import opened Wrappers
  import Text
  import Dicts
  import Host
  import ServerProperties

  // ---------------------------------------------------------------- passwords

  /** The characters with code points `lo` up to but excluding `hi`, in order. */
  function Span(lo: int, hi: int): (r: string)
    requires 0 <= lo <= hi < 0xD800
    ensures |r| == hi - lo
    ensures forall i :: 0 <= i < |r| ==> r[i] as int == lo + i
  {
    seq(hi - lo, i requires 0 <= i < hi - lo => (lo + i) as char)
  }

  lemma SpanHolds(lo: int, hi: int, c: char)
    requires 0 <= lo <= hi < 0xD800 && c in Span(lo, hi)
    ensures lo <= c as int < hi
  {
  }

  /** `string.ascii_lowercase` */
  const Lowercase: string := Span('a' as int, 'z' as int + 1)
  /** `string.ascii_uppercase` */
  const Uppercase: string := Span('A' as int, 'Z' as int + 1)
  /** `string.digits` */
  const Digits: string := Span('0' as int, '9' as int + 1)
  /** `string.punctuation`: the printable ASCII characters that are neither letters nor digits, in code order. */
  const Punctuation: string := Span(33, 48) + Span(58, 65) + Span(91, 97) + Span(123, 127)
  /** `string.ascii_letters + string.digits + string.punctuation` */
  const Characters: string := Lowercase + Uppercase + Digits + Punctuation

  /** The default password length of `generate_secure_password`. */
  const DefaultLength := 16

  /** Every character a password may hold is printable and not white space. */
  lemma CharactersPrintable(c: char)
    requires c in Characters
    ensures 33 <= c as int <= 126 && !Text.IsSpace(c)
  {
    if c in Lowercase {
      SpanHolds('a' as int, 'z' as int + 1, c);
    } else if c in Uppercase {
      SpanHolds('A' as int, 'Z' as int + 1, c);
    } else if c in Digits {
      SpanHolds('0' as int, '9' as int + 1, c);
    } else {
      assert c in Punctuation;
      if c in Span(33, 48) { SpanHolds(33, 48, c); }
      else if c in Span(58, 65) { SpanHolds(58, 65, c); }
      else if c in Span(91, 97) { SpanHolds(91, 97, c); }
      else { SpanHolds(123, 127, c); }
    }
  }

  /** A password with an upper-case letter, a lower-case letter, a digit and a punctuation mark, drawn from `Characters`. */
  predicate IsStrong(p: string) {
    (exists c :: c in p && c in Uppercase)
    && (exists c :: c in p && c in Lowercase)
    && (exists c :: c in p && c in Digits)
    && (exists c :: c in p && c in Punctuation)
    && forall c :: c in p ==> c in Characters
  }

  function Max0(n: int): nat {
    if n < 0 then 0 else n
  }

  /**
   * `random.shuffle`: for `i` from the last index down to 1, swap element `i`
   * with element `j`, where `j` is the next draw `swaps[k] <= i`.
   */
  method Shuffle(x: seq<char>, swaps: seq<nat>) returns (r: seq<char>)
    requires |swaps| == Max0(|x| - 1)
    requires forall k :: 0 <= k < |swaps| ==> swaps[k] <= |x| - 1 - k
    ensures |r| == |x|
    ensures multiset(r) == multiset(x)
  {
    r := x;
    var k := 0;
    while k < |swaps|
      invariant 0 <= k <= |swaps|
      invariant |r| == |x|
      invariant multiset(r) == multiset(x)
    {
      var i := |x| - 1 - k;
      var j := swaps[k];
      r := r[i := r[j]][j := r[i]];
      k := k + 1;
    }
  }

  /**
   * `generate_secure_password(length)`, with the random draws as parameters:
   * one character from each class, `length - 4` more from all of them, then a
   * shuffle.
   */
  method GeneratePassword(length: int, upper: nat, lower: nat, digit: nat, punct: nat, fill: seq<nat>, swaps: seq<nat>)
    returns (password: string)
    requires upper < |Uppercase| && lower < |Lowercase| && digit < |Digits| && punct < |Punctuation|
    requires |fill| == Max0(length - 4) && forall i :: 0 <= i < |fill| ==> fill[i] < |Characters|
    requires |swaps| == |fill| + 3 && forall k :: 0 <= k < |swaps| ==> swaps[k] <= |swaps| - k
    ensures |password| == Max0(length - 4) + 4
    ensures IsStrong(password)
  {
    var drawn := [Uppercase[upper], Lowercase[lower], Digits[digit], Punctuation[punct]];
    var i := 0;
    while i < |fill|
      invariant 0 <= i <= |fill|
      invariant |drawn| == 4 + i
      invariant drawn[0] in Uppercase && drawn[1] in Lowercase && drawn[2] in Digits && drawn[3] in Punctuation
      invariant forall c :: c in drawn ==> c in Characters
    {
      drawn := drawn + [Characters[fill[i]]];
      i := i + 1;
    }
    password := Shuffle(drawn, swaps);
    assert drawn[0] in multiset(password) && drawn[1] in multiset(password);
    assert drawn[2] in multiset(password) && drawn[3] in multiset(password);
    assert forall c :: c in password ==> c in multiset(drawn);
  }

  /** A non-empty password that survives being written to `server.properties` and read back. */
  predicate Writable(p: string) {
    |p| > 0 && ServerProperties.GoodValue(p)
  }

  /** Every strong password is writable. */
  lemma StrongIsWritable(p: string)
    requires IsStrong(p)
    ensures Writable(p)
  {
    forall c | c in p ensures 33 <= c as int <= 126 && !Text.IsSpace(c) {
      CharactersPrintable(c);
    }
    assert p[0] in p && p[|p| - 1] in p;
  }

  // ---------------------------------------------------------------- reading the server's settings

  /** Python's `int(s)` on a stripped string: an optional sign, then ASCII digits, single underscores allowed between digits. */
  function PythonInt(s: string): (r: Option<int>)
    ensures r.Some? <==> WellGrouped(s) || (|s| > 0 && (s[0] == '+' || s[0] == '-') && WellGrouped(s[1..]))
    ensures r.Some? && r.value < 0 ==> s[0] == '-'
  {
    if |s| > 0 && (s[0] == '+' || s[0] == '-') then
      match Unsigned(s[1..])
      case Some(n) => var v: int := n; Some(if s[0] == '-' then -v else v)
      case None => None
    else Unsigned(s)
  }

  predicate WellGrouped(s: string) {
    |s| > 0 && Text.IsDigit(s[0]) && Text.IsDigit(s[|s| - 1])
    && (forall i :: 0 <= i < |s| ==> Text.IsDigit(s[i]) || s[i] == '_')
    && (forall i :: 0 <= i < |s| - 1 ==> s[i] == '_' ==> s[i + 1] != '_')
  }

  /** The digits of a well-grouped numeral, underscores removed. */
  function DigitsOf(s: string): (r: string)
    requires forall i :: 0 <= i < |s| ==> Text.IsDigit(s[i]) || s[i] == '_'
    ensures forall i :: 0 <= i < |r| ==> Text.IsDigit(r[i])
  {
    if |s| == 0 then []
    else (if s[0] == '_' then [] else [s[0]]) + DigitsOf(s[1..])
  }

  function Unsigned(s: string): (r: Option<nat>) {
    if WellGrouped(s) then Some(Text.ParseDigits(DigitsOf(s))) else None
  }

  /** `int(str(n))` gives `n` back, for both signs. */
  lemma PythonIntRoundTrip(n: int)
    ensures PythonInt(if n < 0 then "-" + Text.NatToString(-n) else Text.NatToString(n)) == Some(n)
  {
    var m: nat := if n < 0 then -n else n;
    var digits := Text.NatToString(m);
    UnsignedOfDigits(digits);
    Text.ParseNatToString(m);
    if n < 0 {
      assert ("-" + digits)[1..] == digits;
    } else {
      assert Text.IsDigit(digits[0]);
    }
  }

  /** A plain run of digits reads as its value. */
  lemma UnsignedOfDigits(s: string)
    requires |s| > 0 && forall i :: 0 <= i < |s| ==> Text.IsDigit(s[i])
    ensures Unsigned(s) == Some(Text.ParseDigits(s))
  {
    assert WellGrouped(s);
    DigitsOfDigits(s);
  }

  lemma {:induction false} DigitsOfDigits(s: string)
    requires forall i :: 0 <= i < |s| ==> Text.IsDigit(s[i])
    ensures DigitsOf(s) == s
  {
    if |s| > 0 {
      DigitsOfDigits(s[1..]);
      assert s == [s[0]] + s[1..];
    }
  }

  const EnableKey := "enable-rcon"
  const PasswordKey := "rcon.password"
  const PortKey := "rcon.port"

  lemma KeysDiffer()
    ensures EnableKey != PasswordKey && EnableKey != PortKey && PasswordKey != PortKey
  {
    assert EnableKey[0] != PasswordKey[0] && EnableKey[0] != PortKey[0];
    assert PasswordKey[6] != PortKey[6];
  }

  lemma KeysWritable()
    ensures ServerProperties.GoodKey(EnableKey) && ServerProperties.GoodKey(PasswordKey)
    ensures ServerProperties.GoodValue("true")
  {
  }

  const DefaultPort := 25575
  const LocalHost := "127.0.0.1"

  /** `enable-rcon`, lower-cased, is `true` (absent counts as `false`). */
  function Enabled(cfg: Dicts.Dict<string>): bool {
    Text.Lower(Dicts.Get(cfg, EnableKey).GetOr("false")) == "true"
  }

  /** `rcon.password`, empty when absent. */
  function Password(cfg: Dicts.Dict<string>): string {
    Dicts.Get(cfg, PasswordKey).GetOr("")
  }

  /** `int(rcon.port)`, 25575 when absent; none when `int` raises. */
  function Port(cfg: Dicts.Dict<string>): (r: Option<int>)
    ensures Dicts.Get(cfg, PortKey).None? ==> r == Some(DefaultPort)
  {
    match Dicts.Get(cfg, PortKey)
    case None => Some(DefaultPort)
    case Some(v) => PythonInt(v)
  }

  // ---------------------------------------------------------------- check_and_configure_rcon

  /** Whether RCON is connected at the end, and what was done on the way. */
  datatype Report = Report(connected: bool, effects: seq<Host.Effect>)

  /**
   * One run of `check_and_configure_rcon`. `busy` is the module's
   * in-progress flag, `running` what `is_rcon_running` says first,
   * `properties` the server's file (none when it does not exist),
   * `generated` the password `generate_secure_password` would produce, and
   * `runningAfter` what `is_rcon_running` says after `connect_rcon`.
   * Log lines are left out.
   */
  function CheckAndConfigure(busy: bool, running: bool, properties: Option<string>, generated: string, runningAfter: bool)
    : (r: Report)
    ensures r.connected ==> !busy && (running || (runningAfter && |r.effects| > 0 && r.effects[|r.effects| - 1] == Host.ConnectRcon))
    ensures busy || running || properties.None? ==> r.effects == []
    ensures Host.StopServer in r.effects ==>
              && !r.connected && |r.effects| == 3 && r.effects[2] == Host.StopServer
              && r.effects[0].WriteProperties? && r.effects[1].UpdatePluginRcon?
  {
    if busy then Report(false, [])
    else if running then Report(true, [])
    else match properties
      case None => Report(false, [])
      case Some(text) => Configure(ServerProperties.Read(text), generated, runningAfter)
  }

  /**
   * The configuration steps once the file is read. A port `int` cannot parse
   * raises into the catch-all handler: no effect, not connected.
   */
  function Configure(cfg: Dicts.Dict<string>, generated: string, runningAfter: bool): (r: Report)
    ensures r.connected ==> runningAfter && |r.effects| == 2 && r.effects[1] == Host.ConnectRcon
    ensures Host.StopServer in r.effects ==> !r.connected && r.effects != [] && r.effects[0].WriteProperties?
    ensures r.effects != [] ==> Port(cfg).Some?
    ensures r.effects != [] && r.effects[0].WriteProperties? ==>
              |r.effects| == 3 && r.effects[1].UpdatePluginRcon? && r.effects[2] == Host.StopServer
              && Dicts.Get(r.effects[0].props, EnableKey) == Some("true")
              && Dicts.Get(r.effects[0].props, PasswordKey) == Some(r.effects[1].password)
  {
    match Port(cfg)
    case None => Report(false, [])
    case Some(port) =>
      var password := Password(cfg);
      if Enabled(cfg) && password != "" then
        Report(runningAfter, [Host.UpdatePluginRcon(LocalHost, port, password), Host.ConnectRcon])
      else if password != "" then
        Restart(Dicts.Set(cfg, EnableKey, "true"), port, password)
      else
        Restart(Dicts.Set(Dicts.Set(cfg, EnableKey, "true"), PasswordKey, generated), port, generated)
  }

  /** Write the new settings, hand the plugin the credentials, stop the server. */
  function Restart(props: Dicts.Dict<string>, port: int, password: string): (r: Report)
    ensures !r.connected && r.effects == [Host.WriteProperties(props), Host.UpdatePluginRcon(LocalHost, port, password), Host.StopServer]
  {
    Report(false, [Host.WriteProperties(props), Host.UpdatePluginRcon(LocalHost, port, password), Host.StopServer])
  }

  /** What case 2 (password set, RCON off) and case 3 (no password) write. */
  lemma RestartSettings(cfg: Dicts.Dict<string>, generated: string)
    ensures var p := Dicts.Set(cfg, EnableKey, "true");
      Dicts.Get(p, EnableKey) == Some("true") && Dicts.Get(p, PasswordKey) == Dicts.Get(cfg, PasswordKey)
      && Dicts.Get(p, PortKey) == Dicts.Get(cfg, PortKey)
    ensures var p := Dicts.Set(Dicts.Set(cfg, EnableKey, "true"), PasswordKey, generated);
      Dicts.Get(p, EnableKey) == Some("true") && Dicts.Get(p, PasswordKey) == Some(generated)
      && Dicts.Get(p, PortKey) == Dicts.Get(cfg, PortKey)
  {
    KeysDiffer();
  }

  /** The server's file after a run: rewritten when the run wrote it (with the corrected writer), else unchanged. */
  function FileAfter(text: string, effects: seq<Host.Effect>): string {
    if |effects| > 0 && effects[0].WriteProperties? then ServerProperties.WriteTerminated(text, effects[0].props)
    else text
  }

  /**
   * The server's file after a run with the program's own writer. On a file
   * that is empty or ends with a newline it is the file `FileAfter` gives, so
   * every property stated over `FileAfter` holds for such files as written.
   */
  function FileAfterAsWritten(text: string, effects: seq<Host.Effect>): (r: string)
    ensures |text| == 0 || text[|text| - 1] == '\n' ==> r == FileAfter(text, effects)
  {
    if |effects| > 0 && effects[0].WriteProperties? then ServerProperties.Write(text, effects[0].props)
    else text
  }

  lemma GetOfWritten(text: string, props: Dicts.Dict<string>, k: string)
    requires ServerProperties.GoodConfig(props)
    requires forall key :: key in Dicts.ToMap(ServerProperties.Read(text)) ==> key in Dicts.Keys(props)
    ensures Dicts.Get(ServerProperties.Read(ServerProperties.WriteTerminated(text, props)), k) == Dicts.Get(props, k)
  {
    ServerProperties.RoundTripTerminated(text, props);
    var d := ServerProperties.Read(ServerProperties.WriteTerminated(text, props));
    assert k in Dicts.Keys(d) <==> k in Dicts.Keys(props) by {
      assert k in Dicts.ToMap(d) <==> k in Dicts.ToMap(props);
    }
  }

  /** The settings a run writes are the settings read back from the rewritten file. */
  lemma WrittenSettings(text: string, props: Dicts.Dict<string>)
    requires ServerProperties.GoodConfig(props)
    requires forall key :: key in Dicts.ToMap(ServerProperties.Read(text)) ==> key in Dicts.Keys(props)
    ensures var after := ServerProperties.Read(ServerProperties.WriteTerminated(text, props));
      Dicts.Get(after, EnableKey) == Dicts.Get(props, EnableKey)
      && Dicts.Get(after, PasswordKey) == Dicts.Get(props, PasswordKey)
      && Dicts.Get(after, PortKey) == Dicts.Get(props, PortKey)
  {
    GetOfWritten(text, props, EnableKey);
    GetOfWritten(text, props, PasswordKey);
    GetOfWritten(text, props, PortKey);
  }

  lemma SetCovers(cfg: Dicts.Dict<string>, k: string, v: string)
    ensures forall key :: key in Dicts.Keys(cfg) ==> key in Dicts.Keys(Dicts.Set(cfg, k, v))
  {
  }

  lemma LowerTrue()
    ensures Text.Lower("true") == "true"
  {
  }

  /** What case 2 (enabled off, password set) writes. */
  lemma EnableWrite(text: string)
    requires '\r' !in text
    ensures var cfg := ServerProperties.Read(text);
      var props := Dicts.Set(cfg, EnableKey, "true");
      var after := ServerProperties.Read(ServerProperties.WriteTerminated(text, props));
      Enabled(after) && Password(after) == Password(cfg) && Port(after) == Port(cfg)
  {
    var cfg := ServerProperties.Read(text);
    var props := Dicts.Set(cfg, EnableKey, "true");
    ServerProperties.ReadGood(text);
    KeysWritable();
    ServerProperties.SetGood(cfg, EnableKey, "true");
    SetCovers(cfg, EnableKey, "true");
    WrittenSettings(text, props);
    RestartSettings(cfg, "");
    LowerTrue();
  }

  /** What case 3 (no password) writes. */
  lemma GenerateWrite(text: string, generated: string)
    requires '\r' !in text && Writable(generated)
    ensures var cfg := ServerProperties.Read(text);
      var props := Dicts.Set(Dicts.Set(cfg, EnableKey, "true"), PasswordKey, generated);
      var after := ServerProperties.Read(ServerProperties.WriteTerminated(text, props));
      Enabled(after) && Password(after) == generated && generated != "" && Port(after) == Port(cfg)
  {
    var cfg := ServerProperties.Read(text);
    var p1 := Dicts.Set(cfg, EnableKey, "true");
    var props := Dicts.Set(p1, PasswordKey, generated);
    assert ServerProperties.GoodConfig(props) by {
      ServerProperties.ReadGood(text);
      KeysWritable();
      ServerProperties.SetGood(cfg, EnableKey, "true");
      ServerProperties.SetGood(p1, PasswordKey, generated);
    }
    assert forall key :: key in Dicts.ToMap(cfg) ==> key in Dicts.Keys(props) by {
      SetCovers(cfg, EnableKey, "true");
      SetCovers(p1, PasswordKey, generated);
    }
    WrittenSettings(text, props);
    RestartSettings(cfg, generated);
    LowerTrue();
  }

  /**
   * Whenever a run hands the plugin an RCON password and port, the server's
   * file afterwards, as this module reads it back, enables RCON with that same
   * non-empty password and port. Requires a file without carriage returns
   * (they are newlines after Python's newline translation) and a writable
   * generated password, as every strong one is.
   */
  lemma PluginMatchesServer(running: bool, text: string, generated: string, runningAfter: bool,
                            host: string, port: int, password: string)
    requires '\r' !in text && Writable(generated)
    requires Host.UpdatePluginRcon(host, port, password) in CheckAndConfigure(false, running, Some(text), generated, runningAfter).effects
    ensures var after := ServerProperties.Read(FileAfter(text, CheckAndConfigure(false, running, Some(text), generated, runningAfter).effects));
      host == LocalHost && Enabled(after) && Password(after) == password && password != "" && Port(after) == Some(port)
  {
    var cfg := ServerProperties.Read(text);
    var r := CheckAndConfigure(false, running, Some(text), generated, runningAfter);
    assert r == Configure(cfg, generated, runningAfter);
    var p := Port(cfg).value;
    if Enabled(cfg) && Password(cfg) != "" {
      ConnectCase(text, generated, runningAfter, host, port, password);
    } else if Password(cfg) != "" {
      EnableCase(text, generated, runningAfter, host, port, password);
    } else {
      GenerateCase(text, generated, runningAfter, host, port, password);
    }
  }

  /** A file with RCON enabled, a password and a readable port: hand over the credentials and connect. */
  lemma ConfigureConnects(cfg: Dicts.Dict<string>, generated: string, runningAfter: bool)
    requires Port(cfg).Some? && Enabled(cfg) && Password(cfg) != ""
    ensures Configure(cfg, generated, runningAfter)
         == Report(runningAfter, [Host.UpdatePluginRcon(LocalHost, Port(cfg).value, Password(cfg)), Host.ConnectRcon])
  {
  }

  /** Case 2: a password but RCON off. */
  lemma ConfigureEnables(cfg: Dicts.Dict<string>, generated: string, runningAfter: bool)
    requires Port(cfg).Some? && !Enabled(cfg) && Password(cfg) != ""
    ensures Configure(cfg, generated, runningAfter).effects
         == [Host.WriteProperties(Dicts.Set(cfg, EnableKey, "true")),
             Host.UpdatePluginRcon(LocalHost, Port(cfg).value, Password(cfg)), Host.StopServer]
  {
  }

  /** Case 3: no password. */
  lemma ConfigureGenerates(cfg: Dicts.Dict<string>, generated: string, runningAfter: bool)
    requires Port(cfg).Some? && Password(cfg) == ""
    ensures Configure(cfg, generated, runningAfter).effects
         == [Host.WriteProperties(Dicts.Set(Dicts.Set(cfg, EnableKey, "true"), PasswordKey, generated)),
             Host.UpdatePluginRcon(LocalHost, Port(cfg).value, generated), Host.StopServer]
  {
  }

  /** The credentials in a write-hand-over-stop run are the ones handed over. */
  lemma HandedOver(props: Dicts.Dict<string>, host: string, port: int, password: string, h: string, p: int, pw: string)
    requires Host.UpdatePluginRcon(host, port, password) in [Host.WriteProperties(props), Host.UpdatePluginRcon(h, p, pw), Host.StopServer]
    ensures host == h && port == p && password == pw
  {
  }

  lemma ConnectCase(text: string, generated: string, runningAfter: bool, host: string, port: int, password: string)
    requires var cfg := ServerProperties.Read(text); Port(cfg).Some? && Enabled(cfg) && Password(cfg) != ""
    requires Host.UpdatePluginRcon(host, port, password) in Configure(ServerProperties.Read(text), generated, runningAfter).effects
    ensures var after := ServerProperties.Read(FileAfter(text, Configure(ServerProperties.Read(text), generated, runningAfter).effects));
      host == LocalHost && Enabled(after) && Password(after) == password && password != "" && Port(after) == Some(port)
  {
    var cfg := ServerProperties.Read(text);
    var effects := Configure(cfg, generated, runningAfter).effects;
    ConfigureConnects(cfg, generated, runningAfter);
    assert effects == [Host.UpdatePluginRcon(LocalHost, Port(cfg).value, Password(cfg)), Host.ConnectRcon];
    assert FileAfter(text, effects) == text;
  }

  lemma EnableCase(text: string, generated: string, runningAfter: bool, host: string, port: int, password: string)
    requires '\r' !in text
    requires var cfg := ServerProperties.Read(text); Port(cfg).Some? && !Enabled(cfg) && Password(cfg) != ""
    requires Host.UpdatePluginRcon(host, port, password) in Configure(ServerProperties.Read(text), generated, runningAfter).effects
    ensures var after := ServerProperties.Read(FileAfter(text, Configure(ServerProperties.Read(text), generated, runningAfter).effects));
      host == LocalHost && Enabled(after) && Password(after) == password && password != "" && Port(after) == Some(port)
  {
    var cfg := ServerProperties.Read(text);
    var props := Dicts.Set(cfg, EnableKey, "true");
    var effects := Configure(cfg, generated, runningAfter).effects;
    ConfigureEnables(cfg, generated, runningAfter);
    assert FileAfter(text, effects) == ServerProperties.WriteTerminated(text, props);
    HandedOver(props, host, port, password, LocalHost, Port(cfg).value, Password(cfg));
    EnableWrite(text);
  }

  lemma GenerateCase(text: string, generated: string, runningAfter: bool, host: string, port: int, password: string)
    requires '\r' !in text && Writable(generated)
    requires var cfg := ServerProperties.Read(text); Port(cfg).Some? && Password(cfg) == ""
    requires Host.UpdatePluginRcon(host, port, password) in Configure(ServerProperties.Read(text), generated, runningAfter).effects
    ensures var after := ServerProperties.Read(FileAfter(text, Configure(ServerProperties.Read(text), generated, runningAfter).effects));
      host == LocalHost && Enabled(after) && Password(after) == password && password != "" && Port(after) == Some(port)
  {
    var cfg := ServerProperties.Read(text);
    var props := Dicts.Set(Dicts.Set(cfg, EnableKey, "true"), PasswordKey, generated);
    var effects := Configure(cfg, generated, runningAfter).effects;
    ConfigureGenerates(cfg, generated, runningAfter);
    assert FileAfter(text, effects) == ServerProperties.WriteTerminated(text, props);
    HandedOver(props, host, port, password, LocalHost, Port(cfg).value, generated);
    GenerateWrite(text, generated);
  }

  /**
   * After a run that rewrote the file and stopped the server, the next run
   * against the rewritten file (RCON still down) writes nothing and stops
   * nothing: it hands the plugin the same credentials and connects.
   */
  lemma RestartConverges(text: string, generated: string, runningAfter: bool, generated2: string, runningAfter2: bool)
    requires '\r' !in text && Writable(generated)
    requires Host.StopServer in CheckAndConfigure(false, false, Some(text), generated, runningAfter).effects
    ensures var first := CheckAndConfigure(false, false, Some(text), generated, runningAfter);
      var second := CheckAndConfigure(false, false, Some(FileAfter(text, first.effects)), generated2, runningAfter2);
      Host.StopServer !in second.effects
      && second.effects == [first.effects[1], Host.ConnectRcon]
      && second.connected == runningAfter2
  {
    var first := CheckAndConfigure(false, false, Some(text), generated, runningAfter);
    var u := first.effects[1];
    assert u in first.effects;
    PluginMatchesServer(false, text, generated, runningAfter, u.host, u.port, u.password);
    var after := ServerProperties.Read(FileAfter(text, first.effects));
    ConfigureConnects(after, generated2, runningAfter2);
    assert CheckAndConfigure(false, false, Some(FileAfter(text, first.effects)), generated2, runningAfter2)
        == Configure(after, generated2, runningAfter2);
  }
}

=== FILE: server_info.dfy ===
/**
 * Server information (easybot_mcdr/impl/get_server_info.py): the `online-mode`
 * setting read out of `server.properties`, the `GET_SERVER_INFO` answer, and
 * the online-player summary.
 */
module ServerInfo {
  import opened Wrappers
  import opened Json
  import opened Host
  import Text

  const OnlineModeKey := "online-mode="

  /** The `.*` group after `online-mode=` means true: lower-cased and stripped, it is `true`. */
  predicate MeansTrue(value: string) {
    Text.Strip(Text.Lower(value)) == "true"
  }

  /**
   * `re.search(r"online-mode=(.*)", content)`: the first occurrence anywhere in
   * the text, comment lines included, and the rest of its line.
   */
  function OnlineModeIn(content: string): (r: Option<bool>)
    ensures r.None? <==> !Text.Contains(content, OnlineModeKey)
  {
    match Text.Find(content, OnlineModeKey)
    case None => None
    case Some(i) => Some(MeansTrue(Text.BeforeFirst(content[i + |OnlineModeKey|..], '\n')))
  }

  /** The part before a separator that `a` does not hold is `a`. */
  lemma {:induction false} BeforeFirstOf(a: string, sep: char, b: string)
    requires sep !in a
    ensures Text.BeforeFirst(a + [sep] + b, sep) == a
  {
    var s := a + [sep] + b;
    var r := Text.BeforeFirst(s, sep);
    assert s[|a|] == sep;
    assert r == s[..|r|];
    assert s[..|a|] == a;
  }

  /**
   * The first occurrence wins. After a text holding no `online-mode=` of its
   * own, the value is read off the line that follows the key, whatever later
   * lines say.
   */
  lemma {:induction false} FirstOccurrenceWins(pre: string, value: string, post: string)
    requires !Text.Contains(pre, OnlineModeKey) && '\n' !in value
    ensures OnlineModeIn(pre + OnlineModeKey + value + "\n" + post) == Some(MeansTrue(value))
  {
    var tail := value + "\n" + post;
    var content := pre + OnlineModeKey + value + "\n" + post;
    assert content == pre + (OnlineModeKey + tail);
    FoundAfter(pre, tail);
    assert content[|pre| + |OnlineModeKey|..] == value + ['\n'] + post;
    BeforeFirstOf(value, '\n', post);
  }

  /** `online-mode=` is first found right after a text that does not hold it. */
  lemma FoundAfter(pre: string, tail: string)
    requires !Text.Contains(pre, OnlineModeKey)
    ensures Text.Find(pre + (OnlineModeKey + tail), OnlineModeKey) == Some(|pre|)
  {
    var content := pre + (OnlineModeKey + tail);
    var n := |pre|;
    assert content[n..n + |OnlineModeKey|] == OnlineModeKey;
    assert Text.OccursAt(content, OnlineModeKey, n);
    forall i: nat | i < n ensures !Text.OccursAt(content, OnlineModeKey, i) {
      NotBefore(pre, tail, i);
    }
  }

  /**
   * No occurrence starts inside `pre`: one lying wholly in `pre` is excluded,
   * and one running into the key would need an `=` where the key has none.
   */
  lemma NotBefore(pre: string, tail: string, i: nat)
    requires !Text.Contains(pre, OnlineModeKey) && i < |pre|
    ensures !Text.OccursAt(pre + (OnlineModeKey + tail), OnlineModeKey, i)
  {
    var content := pre + (OnlineModeKey + tail);
    var n := |pre|;
    var m := |OnlineModeKey|;
    if i + m <= n {
      assert content[i..i + m] == pre[i..i + m];
      assert !Text.OccursAt(pre, OnlineModeKey, i);
    } else {
      assert content[i + 11] == OnlineModeKey[i + 11 - n];
      assert content[i + 11] != OnlineModeKey[11];
      assert content[i..i + m][11] == content[i + 11];
    }
  }

  /** A text without the key, followed by a character the key does not hold, still lacks it. */
  lemma NoKeyAppend(pre: string, c: char)
    requires !Text.Contains(pre, OnlineModeKey) && c !in OnlineModeKey
    ensures !Text.Contains(pre + [c], OnlineModeKey)
  {
    var s := pre + [c];
    var m := |OnlineModeKey|;
    forall i: nat | i <= |s| ensures !Text.OccursAt(s, OnlineModeKey, i) {
      if i + m <= |pre| {
        assert s[i..i + m] == pre[i..i + m];
        assert !Text.OccursAt(pre, OnlineModeKey, i);
      } else if i + m == |s| {
        assert s[i..i + m][m - 1] == c;
      }
    }
  }

  /**
   * A commented-out `online-mode=` line above the real one is the one that
   * counts, wherever it stands in a file that has no earlier occurrence.
   */
  lemma CommentedLineCounts(pre: string, value: string, post: string)
    requires !Text.Contains(pre, OnlineModeKey) && '\n' !in value
    ensures OnlineModeIn(pre + "#" + OnlineModeKey + value + "\n" + post) == Some(MeansTrue(value))
  {
    NoKeyAppend(pre, '#');
    FirstOccurrenceWins(pre + "#", value, post);
  }

  /**
   * `get_online_mode`, given what reading the file produced: the parsed
   * setting (false when there is none), or on a read error the previous value
   * of the module-level flag. The flag afterwards always equals the result.
   */
  function GetOnlineMode(read: Result<string>, previous: bool): (r: bool)
    ensures read.Err? ==> r == previous
    ensures read.Ok? ==> (r <==> OnlineModeIn(read.value) == Some(true))
  {
    match read
    case Err(_) => previous
    case Ok(content) =>
      match OnlineModeIn(content)
      case Some(mode) => mode
      case None => false
  }

  const NoMatch := "AttributeError: 'NoneType' object has no attribute 'group'"

  /** The `GET_SERVER_INFO` answer for a given online mode and versions. */
  function InfoPacket(onlineMode: bool, mcdrVersion: string, pluginVersion: string): (r: Frame)
    ensures r.Keys == {"server_name", "server_version", "plugin_version", "is_papi_supported",
                       "is_command_supported", "has_geyser", "is_online_mode"}
    ensures r["server_name"] == JStr("mcdr") && r["server_version"] == JStr("MCDR " + mcdrVersion)
    ensures r["plugin_version"] == JStr(pluginVersion)
    ensures r["is_papi_supported"] == JBool(false) && r["is_command_supported"] == JBool(true)
    ensures r["has_geyser"] == JBool(false) && r["is_online_mode"] == JBool(onlineMode)
  {
    map["server_name" := JStr("mcdr"),
        "server_version" := JStr("MCDR " + mcdrVersion),
        "plugin_version" := JStr(pluginVersion),
        "is_papi_supported" := JBool(false),
        "is_command_supported" := JBool(true),
        "has_geyser" := JBool(false),
        "is_online_mode" := JBool(onlineMode)]
  }

  /**
   * `exec_get_server_info`: the new value of the module-level flag and what the
   * handler did. A read error or a file without `online-mode=` raises before
   * the flag changes; otherwise the flag is set and then the packet is sent.
   */
  function OnServerInfo(read: Result<string>, mcdrVersion: string, pluginVersion: string, previous: bool): (r: (bool, Outcome))
    ensures r.1.raised.Some? <==> read.Err? || OnlineModeIn(read.value).None?
    ensures r.1.raised.Some? ==> r.0 == previous && r.1.effects == []
    ensures r.1.raised.None? ==> r.1.effects == [Respond(InfoPacket(r.0, mcdrVersion, pluginVersion))]
  {
    match read
    case Err(e) => (previous, Outcome([], Some(e)))
    case Ok(content) =>
      match OnlineModeIn(content)
      case None => (previous, Outcome([], Some(NoMatch)))
      case Some(mode) => (mode, Outcome([Respond(InfoPacket(mode, mcdrVersion, pluginVersion))], None))
  }

  /**
   * The answered mode is the one `get_online_mode` reads from the same file;
   * the two differ only on a file without the setting, where the handler
   * raises and `get_online_mode` says offline.
   */
  lemma AnswerAgreesWithGetOnlineMode(read: Result<string>, mcdrVersion: string, pluginVersion: string, previous: bool)
    ensures var (flag, out) := OnServerInfo(read, mcdrVersion, pluginVersion, previous);
            out.raised.None? ==> flag == GetOnlineMode(read, previous)
    ensures read.Ok? && OnlineModeIn(read.value).None? ==>
              OnServerInfo(read, mcdrVersion, pluginVersion, previous).1.raised.Some? && !GetOnlineMode(read, previous)
  {
  }

  /** `get_online_players`, given the host's list or the exception it raised. */
  function OnlinePlayers(players: Result<seq<string>>): (r: Frame)
    ensures "success" in r && r["success"] == JBool(players.Ok?)
    ensures players.Ok? ==> r.Keys == {"success", "players", "count"} &&
                            r["players"] == JArr(StrArray(players.value)) && r["count"] == JInt(|players.value|)
    ensures players.Err? ==> r.Keys == {"success", "error"} && r["error"] == JStr(players.error)
  {
    match players
    case Ok(ps) => map["success" := JBool(true), "players" := JArr(StrArray(ps)), "count" := JInt(|ps|)]
    case Err(e) => map["success" := JBool(false), "error" := JStr(e)]
  }
}

=== FILE: text.dfy ===
/**
 * The handful of Python `str` operations the plugin relies on, written out over
 * `seq<char>`: `strip`, ASCII `lower`, `startswith`, `find`, `replace` and the
 * decimal rendering of a non-negative integer.
 */
module Text {
  import opened Wrappers

  /** Python's `str.isspace` for one character (the complete list of code points). */
  predicate IsSpace(c: char) {
    var n := c as int;
    (9 <= n <= 13) || (28 <= n <= 32) || n == 0x85 || n == 0xA0 || n == 0x1680
    || (0x2000 <= n <= 0x200A) || n == 0x2028 || n == 0x2029 || n == 0x202F
    || n == 0x205F || n == 0x3000
  }

  /** `s.lstrip()` */
  function TrimLeft(s: string): (r: string)
    ensures |r| <= |s| && r == s[|s| - |r|..]
    ensures |r| > 0 ==> !IsSpace(r[0])
    ensures forall i :: 0 <= i < |s| - |r| ==> IsSpace(s[i])
  {
    if |s| > 0 && IsSpace(s[0]) then TrimLeft(s[1..]) else s
  }

  /** `s.rstrip()` */
  function TrimRight(s: string): (r: string)
    ensures |r| <= |s| && r == s[..|r|]
    ensures |r| > 0 ==> !IsSpace(r[|r| - 1])
    ensures forall i :: |r| <= i < |s| ==> IsSpace(s[i])
  {
    if |s| > 0 && IsSpace(s[|s| - 1]) then TrimRight(s[..|s| - 1]) else s
  }

  /** `s.strip()`: the longest infix that neither starts nor ends with white space. */
  function Strip(s: string): (r: string)
    ensures |r| <= |s|
    ensures |r| > 0 ==> !IsSpace(r[0]) && !IsSpace(r[|r| - 1])
  {
    TrimRight(TrimLeft(s))
  }

  /** A string that `strip` leaves alone. */
  predicate IsStripped(s: string) {
    |s| == 0 || (!IsSpace(s[0]) && !IsSpace(s[|s| - 1]))
  }

  lemma StripStripped(s: string)
    requires IsStripped(s)
    ensures Strip(s) == s
  {
  }

  /** Stripping ignores white space added at the end. */
  lemma {:induction false} StripAppendSpace(s: string, c: char)
    requires IsSpace(c)
    ensures Strip(s + [c]) == Strip(s)
  {
    assert TrimRight(TrimLeft(s + [c])) == TrimRight(TrimLeft(s)) by {
      TrimLeftAppendSpace(s, c);
    }
  }

  lemma {:induction false} TrimLeftAppendSpace(s: string, c: char)
    requires IsSpace(c)
    ensures TrimLeft(s + [c]) == TrimLeft(s) + [c] || (TrimLeft(s) == [] && TrimLeft(s + [c]) == [])
    ensures TrimRight(TrimLeft(s + [c])) == TrimRight(TrimLeft(s))
  {
    if |s| > 0 && IsSpace(s[0]) {
      assert (s + [c])[1..] == s[1..] + [c];
      TrimLeftAppendSpace(s[1..], c);
    } else if |s| == 0 {
      assert TrimLeft([c]) == TrimLeft([c][1..]);
    } else {
      assert TrimLeft(s + [c]) == s + [c];
      assert (s + [c])[..|s|] == s;
    }
  }

  /** ASCII `lower`: exact for every comparison this plugin makes against a lower-case ASCII literal. */
  function LowerChar(c: char): (r: char)
    ensures 'A' <= c <= 'Z' ==> r as int == c as int + 32
    ensures !('A' <= c <= 'Z') ==> r == c
  {
    if 'A' <= c <= 'Z' then (c as int + 32) as char else c
  }

  function Lower(s: string): (r: string)
    ensures |r| == |s|
    ensures forall i :: 0 <= i < |s| ==> r[i] == LowerChar(s[i])
  {
    if |s| == 0 then [] else [LowerChar(s[0])] + Lower(s[1..])
  }

  /** Lower-casing leaves a string without capitals as it is. */
  lemma LowerKeeps(s: string)
    requires forall i :: 0 <= i < |s| ==> !('A' <= s[i] <= 'Z')
    ensures Lower(s) == s
  {
    assert forall i :: 0 <= i < |s| ==> Lower(s)[i] == s[i];
  }

  predicate StartsWith(s: string, prefix: string) {
    |prefix| <= |s| && s[..|prefix|] == prefix
  }

  /** `pat` occurs in `s` starting at index `i`. */
  predicate OccursAt(s: string, pat: string, i: nat) {
    i + |pat| <= |s| && s[i..i + |pat|] == pat
  }

  predicate Contains(s: string, pat: string) {
    exists i: nat | i <= |s| :: OccursAt(s, pat, i)
  }

  /** `s.find(pat, start)`: the first occurrence at or after `start`. */
  function FindFrom(s: string, pat: string, start: nat): (r: Option<nat>)
    decreases |s| - start
    ensures r.Some? ==> start <= r.value && OccursAt(s, pat, r.value)
    ensures r.Some? ==> forall k: nat :: start <= k < r.value ==> !OccursAt(s, pat, k)
    ensures r.None? ==> forall k: nat :: start <= k ==> !OccursAt(s, pat, k)
  {
    if start + |pat| > |s| then None
    else if s[start..start + |pat|] == pat then Some(start)
    else FindFrom(s, pat, start + 1)
  }

  function Find(s: string, pat: string): (r: Option<nat>)
    ensures r.Some? ==> OccursAt(s, pat, r.value)
    ensures r.Some? ==> forall k: nat :: k < r.value ==> !OccursAt(s, pat, k)
    ensures r.None? <==> !Contains(s, pat)
  {
    FindFrom(s, pat, 0)
  }

  /** The first index at or after `start` holding `c`. */
  function IndexOfFrom(s: string, c: char, start: nat): (r: Option<nat>)
    decreases |s| - start
    ensures r.Some? ==> start <= r.value < |s| && s[r.value] == c
    ensures r.Some? ==> forall k :: start <= k < r.value ==> s[k] != c
    ensures r.None? ==> forall k :: start <= k < |s| ==> s[k] != c
  {
    if start >= |s| then None
    else if s[start] == c then Some(start)
    else IndexOfFrom(s, c, start + 1)
  }

  /** `s.split(sep)[0]` for a one-character separator: everything before the first `sep`. */
  function BeforeFirst(s: string, sep: char): (r: string)
    ensures StartsWith(s, r)
    ensures sep !in r
    ensures |r| < |s| ==> s[|r|] == sep
  {
    match IndexOfFrom(s, sep, 0)
    case Some(i) => s[..i]
    case None => s
  }

  /** `repl` between every character of `s` and at both ends: Python's `s.replace("", repl)`. */
  function Interleave(s: string, repl: string): string {
    if |s| == 0 then repl else repl + [s[0]] + Interleave(s[1..], repl)
  }

  /** `s.replace(target, repl)`: every non-overlapping occurrence, scanning left to right. */
  function ReplaceAll(s: string, target: string, repl: string): string
    decreases |s|
  {
    if |target| == 0 then Interleave(s, repl)
    else if |s| < |target| then s
    else if s[..|target|] == target then repl + ReplaceAll(s[|target|..], target, repl)
    else [s[0]] + ReplaceAll(s[1..], target, repl)
  }

  /** `s.split(target)` for a non-empty target: the pieces between the non-overlapping occurrences, left to right. */
  function SplitOn(s: string, target: string): (r: seq<string>)
    requires |target| > 0
    decreases |s|
    ensures |r| > 0
    ensures forall i :: 0 <= i < |r| ==> !Contains(r[i], target)
    ensures JoinWith(r, target) == s
  {
    match Find(s, target)
    case None => [s]
    case Some(i) =>
      var rest := SplitOn(s[i + |target|..], target);
      BeforeFirstOccurrence(s, target, i);
      JoinCons(s[..i], rest, target);
      assert s == s[..i] + target + s[i + |target|..];
      [s[..i]] + rest
  }

  /** `sep.join(parts)` */
  function JoinWith(parts: seq<string>, sep: string): string {
    if |parts| == 0 then "" else if |parts| == 1 then parts[0] else parts[0] + sep + JoinWith(parts[1..], sep)
  }

  lemma JoinCons(head: string, rest: seq<string>, sep: string)
    requires |rest| > 0
    ensures JoinWith([head] + rest, sep) == head + sep + JoinWith(rest, sep)
  {
    assert ([head] + rest)[1..] == rest;
  }

  /** Joining pieces free of a one-character separator and splitting at it again gives the pieces back. */
  lemma {:induction false} SplitJoinChar(parts: seq<string>, c: char)
    requires |parts| > 0
    requires forall i :: 0 <= i < |parts| ==> c !in parts[i]
    ensures SplitOn(JoinWith(parts, [c]), [c]) == parts
  {
    var p := parts[0];
    if |parts| == 1 {
      forall k: nat | k < |p| ensures !OccursAt(p, [c], k) {
        assert p[k..k + 1][0] == p[k];
        assert p[k] in p;
      }
      assert Find(p, [c]).None?;
    } else {
      var rest := JoinWith(parts[1..], [c]);
      var s := p + [c] + rest;
      assert JoinWith(parts, [c]) == s;
      assert OccursAt(s, [c], |p|) by { assert s[|p|..|p| + 1] == [c]; }
      forall k: nat | k < |p| ensures !OccursAt(s, [c], k) {
        assert s[k..k + 1][0] == s[k] == p[k];
        assert p[k] in p;
      }
      var i := Find(s, [c]).value;
      assert i == |p|;
      assert s[..i] == p && s[i + 1..] == rest;
      SplitJoinChar(parts[1..], c);
    }
  }

  /** The text before the first occurrence holds none. */
  lemma BeforeFirstOccurrence(s: string, target: string, i: nat)
    requires |target| > 0 && Find(s, target) == Some(i)
    ensures !Contains(s[..i], target)
  {
    forall k: nat | OccursAt(s[..i], target, k) ensures false {
      assert s[..i][k..k + |target|] == s[k..k + |target|];
      assert OccursAt(s, target, k);
    }
  }

  /** Text in which no occurrence starts before `i` is copied up to there unchanged. */
  lemma {:induction false} ReplaceAfterPrefix(s: string, i: nat, target: string, repl: string)
    requires |target| > 0 && i <= |s|
    requires forall k: nat :: k < i ==> !OccursAt(s, target, k)
    ensures ReplaceAll(s, target, repl) == s[..i] + ReplaceAll(s[i..], target, repl)
    decreases i
  {
    if i == 0 {
      assert s[..0] + s == s;
    } else {
      assert !OccursAt(s, target, 0);
      ReplaceNoMatch(s, target, repl);
      var t := s[1..];
      NoOccurrenceShift(s, target, i);
      ReplaceAfterPrefix(t, i - 1, target, repl);
      DropFirst(s, i);
      Regroup(ReplaceAll(s, target, repl), [s[0]], ReplaceAll(t, target, repl), t[..i - 1], ReplaceAll(s[i..], target, repl));
    }
  }

  /** No occurrence before `i` means none before `i - 1` once the first character is dropped. */
  lemma NoOccurrenceShift(s: string, target: string, i: nat)
    requires 0 < i <= |s|
    requires forall k: nat :: k < i ==> !OccursAt(s, target, k)
    ensures forall k: nat :: k < i - 1 ==> !OccursAt(s[1..], target, k)
  {
    forall k: nat | k < i - 1 ensures !OccursAt(s[1..], target, k) {
      OccursShift(s, target, k);
    }
  }

  /** Slices of the text after its first character, in terms of the text. */
  lemma DropFirst(s: string, i: nat)
    requires 0 < i <= |s|
    ensures s[1..][i - 1..] == s[i..] && [s[0]] + s[1..][..i - 1] == s[..i]
  {
  }

  /** An occurrence in the text after its first character is one in the text, one further on. */
  lemma OccursShift(s: string, target: string, k: nat)
    requires |s| > 0
    ensures OccursAt(s[1..], target, k) <==> OccursAt(s, target, k + 1)
  {
    if k + 1 + |target| <= |s| {
      assert s[1..][k..k + |target|] == s[k + 1..k + 1 + |target|];
    }
  }

  /** Where no occurrence starts, the first character is copied. */
  lemma ReplaceNoMatch(s: string, target: string, repl: string)
    requires |target| > 0 && |s| > 0 && !OccursAt(s, target, 0)
    ensures ReplaceAll(s, target, repl) == [s[0]] + ReplaceAll(s[1..], target, repl)
  {
    if |s| < |target| {
      assert s == [s[0]] + s[1..];
    }
  }

  /** Where an occurrence starts, it becomes the replacement. */
  lemma ReplaceMatch(s: string, target: string, repl: string)
    requires |target| > 0 && OccursAt(s, target, 0)
    ensures ReplaceAll(s, target, repl) == repl + ReplaceAll(s[|target|..], target, repl)
  {
  }

  /**
   * `replace` is split-then-join: the text is the pieces joined by the target,
   * no piece holds the target, and the result is the same pieces joined by the
   * replacement. Every occurrence found scanning left to right is replaced.
   */
  lemma {:induction false} ReplaceIsSplitJoin(s: string, target: string, repl: string)
    requires |target| > 0
    ensures ReplaceAll(s, target, repl) == JoinWith(SplitOn(s, target), repl)
    decreases |s|
  {
    match Find(s, target)
    case None =>
      ReplaceAbsent(s, target, repl);
    case Some(i) =>
      var tail := s[i + |target|..];
      ReplaceIsSplitJoin(tail, target, repl);
      ReplaceAtFirst(s, target, repl, i);
      JoinCons(s[..i], SplitOn(tail, target), repl);
  }

  /** Up to the first occurrence the text is copied; the occurrence becomes the replacement. */
  lemma ReplaceAtFirst(s: string, target: string, repl: string, i: nat)
    requires |target| > 0 && Find(s, target) == Some(i)
    ensures ReplaceAll(s, target, repl) == s[..i] + repl + ReplaceAll(s[i + |target|..], target, repl)
  {
    ReplaceAfterPrefix(s, i, target, repl);
    ReplaceFrom(s, i, target, repl);
    Regroup(ReplaceAll(s, target, repl), s[..i], ReplaceAll(s[i..], target, repl), repl, ReplaceAll(s[i + |target|..], target, repl));
  }

  /** Regrouping a concatenation, stated over plain strings. */
  lemma Regroup(x: string, a: string, y: string, b: string, c: string)
    requires x == a + y && y == b + c
    ensures x == a + b + c
  {
  }

  /** An occurrence at `i` becomes the replacement in the text from there on. */
  lemma ReplaceFrom(s: string, i: nat, target: string, repl: string)
    requires |target| > 0 && OccursAt(s, target, i)
    ensures ReplaceAll(s[i..], target, repl) == repl + ReplaceAll(s[i + |target|..], target, repl)
  {
    var b := s[i..];
    assert b[..|target|] == s[i..i + |target|];
    ReplaceMatch(b, target, repl);
    assert b[|target|..] == s[i + |target|..];
  }

  /** Replacing a string that does not occur changes nothing. */
  lemma {:induction false} ReplaceAbsent(s: string, target: string, repl: string)
    requires |target| > 0 && !Contains(s, target)
    ensures ReplaceAll(s, target, repl) == s
  {
    if |s| >= |target| {
      assert !OccursAt(s, target, 0);
      assert !Contains(s[1..], target) by {
        forall i: nat | OccursAt(s[1..], target, i) ensures OccursAt(s, target, i + 1) {
          assert s[i + 1..i + 1 + |target|] == s[1..][i..i + |target|];
        }
      }
      ReplaceAbsent(s[1..], target, repl);
      assert s == [s[0]] + s[1..];
    }
  }

  /** Replacing a string with itself changes nothing. */
  lemma {:induction false} ReplaceSelf(s: string, target: string)
    ensures ReplaceAll(s, target, target) == s
  {
    if |target| == 0 {
      InterleaveEmpty(s);
    } else if |s| < |target| {
    } else if s[..|target|] == target {
      ReplaceSelf(s[|target|..], target);
      assert s == s[..|target|] + s[|target|..];
    } else {
      ReplaceSelf(s[1..], target);
      assert s == [s[0]] + s[1..];
    }
  }

  /** Replacing a whole non-empty string gives the replacement. */
  lemma ReplaceWhole(t: string, repl: string)
    requires |t| > 0
    ensures ReplaceAll(t, t, repl) == repl
  {
    assert t[..|t|] == t;
    assert t[|t|..] == [];
    assert repl + [] == repl;
  }

  lemma {:induction false} InterleaveEmpty(s: string)
    ensures Interleave(s, "") == s
  {
    if |s| > 0 {
      InterleaveEmpty(s[1..]);
      assert s == [s[0]] + s[1..];
    }
  }

  /** The decimal digit for `d`. */
  function DigitChar(d: nat): (c: char)
    requires d < 10
    ensures '0' <= c <= '9'
  {
    ('0' as int + d) as char
  }

  function DigitValue(c: char): (d: nat)
    requires IsDigit(c)
    ensures d < 10
  {
    c as int - '0' as int
  }

  predicate IsDigit(c: char) {
    '0' <= c <= '9'
  }

  /** A regular-expression word character (`\w`), restricted to ASCII. */
  predicate IsWordChar(c: char) {
    'a' <= c <= 'z' || 'A' <= c <= 'Z' || IsDigit(c) || c == '_'
  }

  predicate IsHexDigit(c: char) {
    IsDigit(c) || 'a' <= c <= 'f' || 'A' <= c <= 'F'
  }

  /** The end of the longest run of word characters starting at `j`. */
  function WordEnd(s: string, j: nat): (r: nat)
    requires j <= |s|
    decreases |s| - j
    ensures j <= r <= |s|
    ensures forall k :: j <= k < r ==> IsWordChar(s[k])
    ensures r < |s| ==> !IsWordChar(s[r])
  {
    if j < |s| && IsWordChar(s[j]) then WordEnd(s, j + 1) else j
  }

  /** The end of the longest run of decimal digits starting at `j`. */
  function DigitEnd(s: string, j: nat): (r: nat)
    requires j <= |s|
    decreases |s| - j
    ensures j <= r <= |s|
    ensures forall k :: j <= k < r ==> IsDigit(s[k])
    ensures r < |s| ==> !IsDigit(s[r])
  {
    if j < |s| && IsDigit(s[j]) then DigitEnd(s, j + 1) else j
  }

  /** Python's `str(n)` for a non-negative integer. */
  function NatToString(n: nat): (r: string)
    ensures |r| > 0
    ensures forall i :: 0 <= i < |r| ==> IsDigit(r[i])
  {
    if n < 10 then [DigitChar(n)] else NatToString(n / 10) + [DigitChar(n % 10)]
  }

  /** The value of a non-empty run of decimal digits. */
  function ParseDigits(s: string): nat
    requires forall i :: 0 <= i < |s| ==> IsDigit(s[i])
  {
    if |s| == 0 then 0
    else
      assert IsDigit(s[|s| - 1]);
      ParseDigits(s[..|s| - 1]) * 10 + DigitValue(s[|s| - 1])
  }

  /** Reading back a rendered number gives the number. */
  lemma {:induction false} ParseNatToString(n: nat)
    ensures ParseDigits(NatToString(n)) == n
  {
    if n >= 10 {
      var s := NatToString(n);
      assert s[..|s| - 1] == NatToString(n / 10);
      ParseNatToString(n / 10);
    }
  }

  /** Distinct numbers render to distinct strings. */
  lemma NatToStringInjective(a: nat, b: nat)
    requires NatToString(a) == NatToString(b)
    ensures a == b
  {
    ParseNatToString(a);
    ParseNatToString(b);
  }
}

=== FILE: wrappers.dfy ===
/** Failure-carrying values shared by every module of the model. */
module Wrappers {

  /** A value that may be absent (Python's `None`). */
  datatype Option<+T> = None | Some(value: T) {
    function GetOr(default: T): T {
      match this
      case Some(v) => v
      case None => default
    }
  }

  /** The outcome of an operation that may raise: a value, or the error it raised. */
  datatype Result<+T> = Ok(value: T) | Err(error: string)
}
